=== FILE: README.md ===
# Lime: a Dafny model of its control logic

Lime is a job-level QoS tool for Lustre file systems. A Python back end
(`ssh_host.py`, `lustre_config.py`, `lime_web.py`) drives the storage
servers over ssh and streams per-job write rates to browsers. A JavaScript
front end (`static/lime.js`, `static/control_table.js`) edits and saves the
QoS configuration. This project models the deterministic logic of those
files as pure Dafny functions and methods, and proves what it promises.

- **Shell text** (modules `Shell`, `SshCommands`).
  - `sh_escape` and `scp_remote_escape`, the two escapers.
  - The `ssh`, `scp` and `rsync` command lines, and the encoding of remote
    paths for scp and rsync.
  - A small bash word lexer (`Shell.Lex`: blanks, backslashes, single and
    double quotes) stands in for the shell. It states which argument
    vector a command line produces, and what a quoted or escaped text reads
    back as.
- **Remote commands** (modules `Remote`, `SshHost`).
  - Running a command on a host becomes a call on an oracle, `nat ->
    CommandResult`. The i-th command of a session gets the oracle's i-th
    answer, and every command run is appended to a log of `Call(host,
    command)`.
  - On top of that: distro detection with its cache, the plain-then-forced
    unmount, the clients-before-targets Lustre unmount, the guarded
    directory removal, and the polling loop of `sh_wait_update`.
- **Lustre configuration** (modules `LustreDevices`, `LustreCluster`).
  - Version codes, TBF rule names, device lookup, and version detection.
  - Device detection from `lctl dl` output, rejecting a second owner of an
    MDT or OST index.
  - The TBF commands in old and new syntax, and the cluster-wide
    broadcasts. The OSS broadcasts reach each OSS host once and stop at the
    first failure; the jobid broadcast reaches every MGS.
- **Job watching** (module `LimeWeb`).
  - Per-service rates, and the registry of watched jobs with their
    websocket subscribers.
  - The pruning of dead subscribers, one pass of the datapoint sender, and
    the TSDB tag parser.
- **Web client** (modules `TableItems`, `ControlTable`).
  - Moving and removing the selected row of a list editor.
  - The save/run control table as a state machine over the current and
    the saved serialisation and a run latch. Requests go out as values and
    their answers come back as events.

Python floats are Dafny `real`s and Python integers are `int`s. Strings
are `seq<char>`. A Python dict becomes a `map` when only its keys matter
(`WatchedJobs.wjs_jobs`). It becomes an association list in insertion
order when its values are summed (`WatchedJob.wj_services`).

## Model

| member | source | states |
|---|---|---|
| Shell.ShEscape | ssh_host.py:35-54 | `sh_escape` leaves a text without `\`, `$`, `"` or backquote unchanged and never shortens a text; `Shell.ShEscapeIsPerChar`, `Shell.ShEscapeLength`, `Shell.ShEscapeReadsBack` and `Shell.ShEscapeInjective` state the rest |
| Shell.ShEscapeIsPerChar | ssh_host.py:50-54 | The four chained replacements of `sh_escape` act on each character on its own: a backslash goes in front of every `\`, `$`, `"` and backquote, and every other character is kept |
| Shell.ShEscapeChar | ssh_host.py:50-54 | Escaping a single character gives a backslash plus that character when it is one of the four specials, and the character itself otherwise |
| Shell.ShEscapeAppend | ssh_host.py:50-54 | Escaping distributes over concatenation |
| Shell.ShEscapeLength | ssh_host.py:50-54 | The escaped text is longer than the input by exactly the number of `\`, `$`, `"` and backquote characters in it |
| Shell.ShEscapeReadsBack | ssh_host.py:50-54 | Put between double quotes, the escaped text is read back by bash as the original text, and the closing quote ends it: unescaping recovers the input |
| Shell.ShEscapeInjective | ssh_host.py:50-54 | Different texts escape differently |
| Shell.LexQuoted | ssh_host.py:90-95 | `"` + `sh_escape(command)` + `"` is exactly one shell word, whose value is the command |
| Shell.ScpRemoteEscape | ssh_host.py:57-83 | `scp_remote_escape` leaves a name without characters of its escape set unchanged and never shortens a name; the per-character, length and read-back rows below state the rest |
| Shell.ScpRemoteEscapeChar | ssh_host.py:74-83 | Per character: one outside scp's escape set passes unchanged; one inside it but not special to `sh_escape` becomes `\\c`; one special to both becomes `\\\c` |
| Shell.ScpRemoteEscapeAppend | ssh_host.py:74-83 | `scp_remote_escape` distributes over concatenation |
| Shell.ScpRemoteEscapeLength | ssh_host.py:74-83 | The output is longer than the input by twice the number of characters in the escape set, plus the number of `sh_escape` specials |
| Shell.ScpRemoteEscapeLocalValue | ssh_host.py:74-83 | Inside double quotes, the local shell reads the output back as the name with a backslash in front of each character of the escape set |
| Shell.LexBackslashEach | ssh_host.py:74-83 | The remote shell then reads that backslash-escaped name back as the original name, for a name without newlines whose shell-active characters are all in the escape set |
| SshCommands.SshCommand | ssh_host.py:86-95 | The text of `ssh_command`; what a shell reads from it is stated by `SshCommands.SshCommandWords` |
| SshCommands.SshCommandWords | ssh_host.py:86-95 | For a plain host name, login name and identity file, the `ssh` command line is the words `ssh`, host, `-l`, login, `-o`, `StrictHostKeyChecking=no`, then `-i` and the file exactly when an identity file is given, then the user command as one word with its original value |
| SshCommands.ScpCmd | ssh_host.py:471-480 | The text of `sh_make_scp_cmd`; what a shell reads from it is stated by `SshCommands.ScpCmdWords` |
| SshCommands.ScpCmdWords | ssh_host.py:471-480 | `sh_make_scp_cmd` gives the words `scp -rqp -o StrictHostKeyChecking=no`, then each source, then the destination as one word, for sources that are plain words and a destination without a single quote; an encoded remote source is covered by `SshCommands.ScpCmdEncodedWords` |
| SshCommands.ScpCmdEncodedWords | ssh_host.py:471-480 | With one remote source encoded by `sh_encode_remote_paths` (the form the docstring asks for), scp receives its fixed options, then `root@<host>:` followed by the backslash-escaped paths as one word, then the destination, for a plain host name and a destination without a single quote |
| SshCommands.EncodedThen | ssh_host.py:491-498 | The encoded remote path, followed by a blank and more text, is read as one word of its own before the words of that text |
| SshCommands.RsyncCmd | ssh_host.py:587-605 | The text of `sh_make_rsync_cmd`; what a shell reads from it is stated by `SshCommands.RsyncCmdWords` |
| SshCommands.RsyncCmdWords | ssh_host.py:587-605 | The rsync command line is `rsync`, then `-L` iff symlinks are not preserved, then `--delete` iff the destination is to be cleaned, then `--timeout=1800 --rsh=ssh -az`, then the sources, then the words of the destination |
| SshCommands.EncodeRemotePaths | ssh_host.py:491-498 | With escaping, the remote path is `root@<host>:` followed, in double quotes, by one `sh_escape` of the backslash-escaped paths joined by blanks; `SshCommands.EncodeRemotePathsWords` and `SshCommands.RemoteSpecWords` state how the two shells read it |
| SshCommands.EscapeAllJoin | ssh_host.py:491-498 | Escaping each path with `scp_remote_escape` and joining by blanks is the same as backslash-escaping each path, joining, and applying `sh_escape` once |
| SshCommands.EncodeRemotePathsWords | ssh_host.py:491-498 | Locally the encoded remote path is a single word: `root@<host>:` followed by the backslash-escaped paths separated by blanks |
| SshCommands.RemoteSpecWords | ssh_host.py:491-498 | The remote shell splits that text back into exactly the original paths, one word each, for non-empty paths whose shell-active characters are all escaped |
| SshCommands.RemoteSpecTabSplits | ssh_host.py:74 | With the program's escape set, the remote shell reads the file name `a<tab>b` as the two words `a` and `b`, not as the name |
| SshCommands.RemoteSpecWordStartActive | ssh_host.py:74 | With the program's escape set, the names `#a` and `~a` reach the remote shell with the `#` or `~` unescaped at the start of a word, which this model's lexer refuses (None). In bash a leading `#` starts a comment; a leading `~a` is tilde-expanded only when a user `a` exists |
| SshCommands.RemoteSpecFixedWords | ssh_host.py:57-83 | With the escape set extended by tab, `#` and `~`, the remote shell reads back every list of non-empty file names without newlines, one word per name |
| SshCommands.RsyncCompatibleGlobs | ssh_host.py:428-441 | An empty path, or one that does not end in `/`, is used as it is: the result is exactly `[path]` |
| SshCommands.RsyncCompatibleGlobsWords | ssh_host.py:428-441 | A plain path not ending in `/`, expanded and handed to `sh_make_scp_cmd` as `sh_send_file` does, reaches scp as exactly one source word equal to the path |
| Remote.Run | ssh_host.py:702-720 | Running a command appends one call on the host to the log and answers with the oracle's next result |
| SshHost.NewHost | ssh_host.py:118-122 | A new host keeps its name and identity file and knows no distro yet |
| SshHost.Classify | ssh_host.py:218-249 | rhel7 iff the distributor is RedHatEnterpriseServer, ScientificSL or CentOS and the release starts with 7; rhel6 iff one of those and the release starts with 6 but not 7; nothing for any other distributor |
| SshHost.ShDistro | ssh_host.py:181-249 | A cached distro is returned with no command run. Otherwise the four probing commands run in order: every command before the last one run succeeded, and fewer than four run only when the last one failed. The result is a distro iff all four succeed and the classification gives one. A distro found is cached and nothing else about the host changes |
| SshHost.ShDistroCached | ssh_host.py:186-226 | Once a distro has been detected, asking again returns it without running any command, whatever the remote side would answer |
| SshHost.UmountWords | ssh_host.py:305-319 | For a device that is a plain word the remote shell reads the plain attempt as the words `umount <device>` and the forced one as `umount -f <device>` |
| SshHost.Umount | ssh_host.py:305-319 | A plain `umount`; if it fails, `umount -f`; the result is -1 exactly when both fail, and the forced attempt runs only after a failed plain one |
| SshHost.OfKind | ssh_host.py:333-347 | The devices of one kind, targets (`/dev...`) or clients: every one is of that kind and comes from the list, and there are no more of them than devices |
| SshHost.OfKindAppend | ssh_host.py:333-347 | Splitting a device list by kind distributes over concatenation |
| SshHost.UmountAll | ssh_host.py:336-347 | Unmounting a list in order, stopping at the first failure, only appends to the log, and at most two calls per device |
| SshHost.UmountAllAppend | ssh_host.py:336-347 | Unmounting `a + b` is unmounting `a`, then `b` only if all of `a` succeeded |
| SshHost.UmountAllStops | ssh_host.py:336-347 | A failed run of unmounts failed at some device k after all devices before k had succeeded, and nothing ran after k |
| SshHost.UmountClients | ssh_host.py:333-340 | The first loop unmounts exactly the clients, in order, stopping at the first failure; when all succeed the list left is exactly the targets, in order |
| SshHost.UmountEach | ssh_host.py:341-345 | The second loop unmounts each device in order, stopping at the first failure |
| SshHost.LustreUmount | ssh_host.py:321-347 | -1 when the mount list cannot be read; otherwise every client is unmounted before any target, in list order, stopping at the first failure |
| SshHost.RemoveDir | ssh_host.py:776-795 | `/` is refused with -1 and no command run; any other directory gets one `rm -fr`, and the result is 0 iff that succeeds |
| SshHost.RemoveDirWords | ssh_host.py:776-795 | For a directory that is a plain word the remote shell reads the command as the words `rm -fr <directory>` |
| SshHost.RemoveDirGuardText | ssh_host.py:780-787 | The guard compares the text with `/`, not the words: `/tmp /` passes it, and the command it runs reads as `rm -fr /tmp /` |
| SshHost.WaitUpdate | ssh_host.py:134-172 | The command runs at least once. Every run but the last mismatched the expectation, and each retry began before `timeout` had been waited. The result is 0 iff the last run matched; on -1 at least `timeout` was waited. Stated for a positive interval, and for any interval when `timeout` is not positive (then the command runs once) |
| LustreDevices.FindDevice | lustre_config.py:27-35 | None iff no device has the given service type and index; otherwise the first device that does |
| LustreDevices.BitOrDisjoint | lustre_config.py:38-44 | OR with a value below 2^k adds it to a multiple of 2^k: the bitwise composition of the code never carries |
| LustreDevices.VersionValue | lustre_config.py:38-44 | For minor and patch levels below 256 the code is `major*65536 + minor*256 + patch`, and the three levels can be read back from it by division and remainder |
| LustreDevices.VersionValueOrder | lustre_config.py:38-44 | For minor and patch levels below 256, comparing codes is comparing versions lexicographically, and equal codes mean equal versions |
| LustreDevices.TbfEscapeName | lustre_config.py:47-57 | The name keeps its length; each character stays if it is a letter, digit or `_` and becomes `_` otherwise |
| LustreDevices.TbfEscapeNameProperties | lustre_config.py:47-57 | The result holds only letters, digits and `_`; a name made only of those is unchanged; escaping twice is escaping once |
| LustreDevices.IndexFromNone | lustre_config.py:331-341 | The hand-written line matcher finds no index iff no position of the marker starts a match of the pattern |
| LustreDevices.IndexFromFinds | lustre_config.py:331-341 | The matcher takes the last position of the marker that starts a match, as the greedy `^.+` of the pattern does |
| LustreDevices.LineIndexOf | lustre_config.py:331-341 | A line `<prefix><marker><index> <tail>`, with no later marker, gives back that index |
| LustreDevices.ParseVersion | lustre_config.py:262-272 | A version is read iff the stripped text is four non-empty digit runs separated by dots and nothing else |
| LustreDevices.ParseVersionString | lustre_config.py:262-272 | Reading the text of a version gives that version back |
| LustreCluster.DetectLustreVersion | lustre_config.py:246-281 | One command runs. If it fails, the result is -1 and the host is unchanged. Otherwise the stripped output is kept as the version string, and the result is 0 iff it parses; on 0 the parsed version is stored, and otherwise the old version and code are kept |
| LustreCluster.DetectsReportedVersion | lustre_config.py:246-281 | A host that reports `M.m.p.f` gets version `M.m.p.f` and the version code of `M.m.p` |
| LustreCluster.NewLustreHost | lustre_config.py:65-75 | A new Lustre host starts with no devices and runs version detection once. If `cat /proc/fs/lustre/version | grep lustre: | awk '{print $2}'` fails, every version field stays unknown. Otherwise the stripped output is the version string, the version is what the string parses to, and the version code is known exactly when the version is |
| LustreCluster.NewHostsNames | lustre_config.py:328-345 | The cluster's hosts are the given host names, in order |
| LustreCluster.NewHostsCalls | lustre_config.py:328-345 | Building the cluster runs version detection once on each host, in order |
| LustreCluster.NewCluster | lustre_config.py:328-345 | A new cluster has one host per name, in order, with no devices anywhere, and every device reference is valid |
| LustreCluster.HostRun | lustre_config.py:149-321 | A host operation runs one command; it succeeds iff the exit status is 0 and, for the CPT check, the stripped output is exactly `1` |
| LustreCluster.NewTbfSyntaxFromVersion | lustre_config.py:200-244 | For a detected version with minor and patch levels below 256, `lh_start_tbf_rule` and `lh_change_tbf_rate` use the `jobid={...} rate=` syntax exactly from version 2.8.54 on |
| LustreCluster.Add | lustre_config.py:96-145 | A found MDT or OST whose type and index the cluster already has is rejected and nothing is added; a duplicate MGS is accepted; an accepted device goes to both the cluster's and the host's list |
| LustreCluster.AddAllDistinct | lustre_config.py:96-145 | Starting from a cluster list without clashes, adding a host's devices succeeds iff the combined list has no clash |
| LustreCluster.AddAllAppend | lustre_config.py:96-145 | Adding the devices of `a + b` is adding those of `a`, then those of `b` only if `a` succeeded |
| LustreCluster.FoundAppend | lustre_config.py:96-145 | The devices found in `a + b` are those found in `a` followed by those found in `b` |
| LustreCluster.DetectDevices | lustre_config.py:77-147 | One `lctl dl` call. -1 if it fails. Otherwise the devices of each line, MDT, OST then MGS, are added in order. The result is 0 iff the cluster's list stays free of MDT/OST clashes, and then the host's devices are exactly those found. On a failure the devices added so far stay in the cluster's list |
| LustreCluster.ScanLines | lustre_config.py:94-146 | The line loop adds exactly the devices found on the lines, stopping at the first clash |
| LustreCluster.DetectClusterDevices | lustre_config.py:347-359 | Devices are detected host by host, stopping at the first failure. The result is 0 iff every host's `lctl dl` succeeds and the devices parsed from all the listings are free of clashes. On 0 every host was listed once, each host's devices are those parsed from its own listing, and the cluster's devices are their concatenation in host order. On -1 the cluster's device list is unchanged, and the last host listed is where the listing failed or the first clash appeared |
| LustreCluster.OssTargetsDistinct | lustre_config.py:365-377 | The hosts an OSS broadcast reaches have pairwise different host names |
| LustreCluster.OssTargetsAreOsts | lustre_config.py:365-377 | Every host reached owns an OST |
| LustreCluster.OssTargetsCover | lustre_config.py:365-377 | The host of every OST is reached |
| LustreCluster.OssTargetsPrefix | lustre_config.py:365-377 | The targets of a shorter device list are a prefix of those of a longer one: hosts are reached in order of their first OST |
| LustreCluster.OssBroadcast | lustre_config.py:361-487 | Each of `lc_check_cpt_for_oss`, `lc_enable_fake_io_for_oss`, `lc_enable_tbf_for_ost_io`, `lc_enable_fifo_for_ost_io`, `lc_start_tbf_rule` and `lc_change_tbf_rate` runs the operation on a prefix of the OSS targets, in order, stopping at the first failure. It returns 0 iff every target was reached and succeeded, and -1 otherwise; on -1 the last target reached is the one that failed |
| LustreCluster.MgsTargetsSpec | lustre_config.py:415-433 | The jobid broadcast reaches exactly the hosts of MGS devices, once per MGS device; it has no target iff there is no MGS |
| LustreCluster.SetJobidVarAll | lustre_config.py:415-433 | `lc_set_jobid_var` runs on a prefix of the MGS targets, in order, stopping at the first failure. It returns 0 iff there is an MGS and every MGS host succeeded; in particular -1 without an MGS. On -1 with an MGS, the last MGS host reached is the one that failed |
| LimeWeb.DatapointAdd | lime_web.py:184-196 | The datapoint always becomes the last one. The rate changes only when there was a previous datapoint, the value did not go down and the time went forward; then rate x elapsed time x 10^6 equals the value's increase, and the rate is not negative |
| LimeWeb.AddSamplesRate | lime_web.py:184-196 | No sequence of datapoints ever gives a service a negative rate |
| LimeWeb.FindService | lime_web.py:128-132 | The entry of a service ID is found iff the job has one, and it is the first with that ID |
| LimeWeb.WjDatapointAdd | lime_web.py:124-133 | The datapoint updates the service's existing entry, or a new entry created on the service's first datapoint; the other entries and the subscribers are unchanged, and service IDs stay unique |
| LimeWeb.Rate | lime_web.py:159-169 | The job's rate is 0 when no service has a rate, and not negative when no service rate is |
| LimeWeb.RateReplace | lime_web.py:159-169 | Replacing one service's entry changes the sum by exactly the difference of the two rates |
| LimeWeb.RateAppend | lime_web.py:159-169 | A new service entry adds its rate to the sum |
| LimeWeb.RateAfterDatapoint | lime_web.py:124-169 | After a datapoint the job's rate is the old sum minus the service's old rate plus its new rate |
| LimeWeb.Watch | lime_web.py:55-65 | The job is watched afterwards, with the websocket appended to its subscribers. A job is created, with only that subscriber, iff it was not watched before. No other job changes, and every watched job keeps a subscriber |
| LimeWeb.Unsubscribe | lime_web.py:76-77 | The websocket loses one subscription, if it had one; the others stay |
| LimeWeb.Unwatch | lime_web.py:67-81 | An unwatched job gives -1 and no change. Otherwise 0, the websocket loses one subscription, and the job is deleted iff no subscriber is left; other jobs are unchanged |
| LimeWeb.WatchUnwatch | lime_web.py:55-81 | Watching a job and then unwatching it with the same new websocket restores the registry |
| LimeWeb.UnsubscribeLast | lime_web.py:76-77 | Removing a websocket just appended, and not subscribed before, restores the list |
| LimeWeb.MetricReceived | lime_web.py:83-94 | An unwatched job gives 1 and no change; a watched one gives 0 and the datapoint goes to that job only |
| LimeWeb.DeadFailed | lime_web.py:146-151 | A subscriber is collected as dead only if the send to it failed |
| LimeWeb.Alive | lime_web.py:146-157 | A websocket is left subscribed iff it was a subscriber and its send did not fail, and no websocket is added or subscribed more often than before |
| LimeWeb.AliveCounts | lime_web.py:146-157 | A websocket whose send succeeded stays subscribed exactly as many times as it was |
| LimeWeb.RemoveDead | lime_web.py:154-155 | Removing each dead subscriber one occurrence at a time leaves exactly the subscribers whose send succeeded, in order |
| LimeWeb.DatapointSend | lime_web.py:135-157 | The job's rate is what is sent. The subscribers whose send failed are dropped, and the job leaves the registry iff none is left; no other job changes |
| LimeWeb.SendPassAsWritten | lime_web.py:96-108 | The `iteritems()` pass as written: when it does not raise, it ends in the same registry as the snapshot pass `LimeWeb.SendPass` |
| LimeWeb.SendPassAsWrittenRaises | lime_web.py:96-108 | The pass as written raises exactly when some visited job loses all its subscribers |
| LimeWeb.SendPassAsWrittenExample | lime_web.py:96-108 | A job with one subscriber whose send fails makes the pass as written raise |
| LimeWeb.SendPass | lime_web.py:96-108 | A pass over a snapshot of the job IDs drops the failed subscribers of every visited job, and removes a visited job iff none is left; unvisited jobs are untouched, and every job left keeps a subscriber |
| LimeWeb.ParseTags | lime_web.py:214-221 | The result is 0 iff every token has exactly one `=`, and -1 otherwise; keys already in the dict stay |
| LimeWeb.ParseTagsKeys | lime_web.py:214-221 | On success the dict gains exactly the keys of the tokens |
| LimeWeb.ParseTagsLastWins | lime_web.py:214-221 | On success each key maps to the value of its last occurrence |
| LimeWeb.ParseTagsUntouched | lime_web.py:214-221 | A key no token names keeps its value |
| LimeWeb.TsdbTagsParse | lime_web.py:210-221 | The tags are split on whitespace, and the result is 0 iff every token holds exactly one `=` |
| LimeWeb.TsdbTagsRoundTrip | lime_web.py:210-221 | Parsing `k1=v1 k2=v2 ...` gives 0 and a dict whose keys are the `k`s, each mapped to the value of its last occurrence |
| TableItems.RowIdInjective | static/lime.js:102-107 | Different elements have different row ids (`name_common + i`) |
| TableItems.RowIndexFrom | static/lime.js:102-107 | The search finds the first row with the selected id, or reports that none has it |
| TableItems.Swap | static/lime.js:118-131 | The two elements change places and every other position is unchanged; the result is a permutation of the input |
| TableItems.MoveAt | static/lime.js:114-131 | Up from index 0, or down from the last index, gives -1 and no change; otherwise the element changes places with its neighbour, whose index is returned |
| TableItems.Move | static/lime.js:88-132 | -1 and no change unless exactly one row is selected and its id names an element. Otherwise the move of that element up or down. Always a permutation of the input |
| TableItems.MoveUpThenDown | static/lime.js:88-132 | Moving a row up and then moving it back down restores the array |
| TableItems.KeptNone | static/lime.js:72-84 | The copy loop keeps every element whose row is not selected |
| TableItems.KeptOne | static/lime.js:72-84 | With one row selected, the copy leaves out exactly that element and keeps the others in order |
| TableItems.Remove | static/lime.js:45-85 | The array is returned unchanged unless exactly one row is selected. Then the element of that row is removed, the rest keep their order, and an id that names no row removes nothing |
| TableItems.RemoveCount | static/lime.js:45-85 | Removing a row leaves one element fewer, and the element removed is the one its row showed |
| ControlTable.New | static/control_table.js:42-48 | A new table is clean, holds the given configuration, and has no run going |
| ControlTable.Save | static/control_table.js:50-68 | No request iff the current serialisation equals the saved one; otherwise a save of the current serialisation |
| ControlTable.SaveSucceeded | static/control_table.js:63-65 | What was sent becomes the saved serialisation, so the table is clean iff it was not edited since; the save button is dimmed |
| ControlTable.RunningUpdate | static/control_table.js:70-79 | The latch takes the given value, and the run button is dimmed iff it is set |
| ControlTable.Run | static/control_table.js:81-116 | Nothing happens while a run is outstanding; otherwise the latch is set and a run of the current configuration is requested |
| ControlTable.RunFinished | static/control_table.js:100-105 | Success and error alike clear the latch and change nothing else |
| ControlTable.ConfigUpdate | static/control_table.js:118-130 | The save button is dimmed iff there is nothing to save |
| ControlTable.Start | static/control_table.js:42-48 | A fresh table is clean, with no run outstanding |
| ControlTable.StepOneRun | static/control_table.js:81-116 | Every event keeps the latch set exactly while a run request is outstanding |
| ControlTable.ReplayOneRun | static/control_table.js:81-116 | Whatever events happen, there is never more than one run request outstanding |
| ControlTable.SaveRoundTrip | static/control_table.js:50-68 | Saving an edited table, and getting the answer before any further edit, leaves it clean with no save outstanding |

## Left out

- `sh_run` and all process I/O (`utils.run`, the ssh, scp and rsync processes) are left out. Each remote command's result is an input oracle instead.
- `sh_get_file`, `sh_send_file`, `sh_set_umask_perms` and `sh_make_rsync_compatible_source` are left out. They are local file-system work (`os.walk`, `os.chmod`, `shutil`) or are built on it.
- SshCommands.RsyncCompatibleGlobs: a path ending in `/` gives None. The source probes local or remote files with `*` and `.[!.]*` globs there, and that depends on the file system.
- SshCommands.EncodeRemotePaths: with `escape=False` the paths are joined as they are, and no property beyond that is stated.
- SshCommands.SshCommandWords, SshCommands.ScpCmdWords, SshCommands.RsyncCmdWords: the argument vectors are stated for plain host names, logins, identity files and sources, ones without blanks, quotes or shell metacharacters. The source puts host names, logins and identity files into the command line without escaping. A remote scp source that `sh_encode_remote_paths` encoded is not a plain word; it is covered for a single source by `SshCommands.ScpCmdEncodedWords`, and a mix of several encoded sources is not covered.
- Shell.Lex: the lexer covers blanks, backslashes and quotes only. It refuses expansions, globs and redirections rather than modelling them.
- The `re` engine is replaced by hand-written matchers.
  - The three `lctl dl` patterns are line predicates over the file system name.
  - The version pattern is a four-field digit parser.
  - `lustre_devices` puts the file system name into its patterns without `re.escape`, while the matchers compare it literally. The two agree for names made of letters, digits, `_` and `-`, which hold no regular-expression metacharacter.
- Logging is left out everywhere.
- LimeWeb.SendPass: one pass only. The `while True` loop, its `time.sleep(METRIC_INTERVAL)` and the `threading.Condition` locking are timing and concurrency, so registry operations are atomic here.
- The sender's failures are a set of websockets whose `send` raises `WebSocketError`. The JSON message is left out except for the rate in it. The `closed` flag set on a dead websocket is left out too.
- `wj_value`, `wj_timestamp` and `wj_rate_limit` are left out. They are set in the constructor and never used by the modelled code.
- Rates are Dafny reals, so IEEE rounding and division by a zero time difference are not modelled. The guard `timestamp > previous` rules out the latter anyway.
- The Flask routes, the gevent server and the websocket handler are network plumbing and are left out.
- jQuery and the DOM are left out. `table_item_remove` rekeys the navigation tree (static/lime.js:58-70), and that part is not modelled. The array part is.
- `JSON.stringify` is left out. A configuration is its serialisation, an opaque string.
- The click handler is not modelled separately (static/control_table.js:205-211). It tests `this.ct_running` on the button rather than the table, which is always undefined, and then calls `ct_run`. `ct_run` checks the latch again, so the click behaves as `ControlTable.Run`.
- A failed save has no callback in the source, so its request stays unanswered.
- Shell.LexBackslashEach, SshCommands.RemoteSpecWords: the read-back is stated only for names whose tab and leading `#` or `~` are in the escape set. The program's set leaves them out, so such names do not read back (see "## Findings"); a newline is excluded too, since scp does not take one.
- SshCommands.SshCommand, SshCommands.ScpCmd, SshCommands.RsyncCmd: the functions carry no contract of their own; their words are stated by the `*Words` lemmas.
- SshHost.WaitUpdate: requires `sleepInterval > 0 || timeout <= 0`. Its only caller, `sh_wait_up` (ssh_host.py:174-179), passes the default interval of 1. With a zero or negative interval and a positive timeout the source keeps polling, returning 0 once a run matches and never returning while none does; that case is not modelled.
- LustreDevices.TbfEscapeName: keeps ASCII letters, digits and `_` only. The job name is a Python 2 `unicode` string, and its `isalnum` also keeps non-ASCII letters and digits such as `é`, which this model turns into `_`.
- LimeWeb.TsdbTagsParse: splits on ASCII whitespace only. `unicode.split()` also splits on U+001C to U+001F, U+0085, U+00A0 and other Unicode spaces, which this model keeps inside a token.
- LustreDevices.VersionValueOrder: order and injectivity are stated for minor and patch levels below 256. Above that the OR-composed code loses that meaning, as it does in the source.
- `navigation.js` and `qos.js` are user-interface lifecycle and websocket console glue, and are left out.

## Findings

| source | as written | input that shows it | evidently intended | confidence | as-written member | corrected member |
|---|---|---|---|---|---|---|
| lime_web.py:96-108 with lime_web.py:154-157 | `wjs_datapoints_send` iterates `self.wjs_jobs.iteritems()` while `wj_datapoint_send` may `del` the job from that same dict. In Python 2 the iterator's next step then raises `RuntimeError` (dictionary changed size during iteration), which ends the sender thread while it holds the condition's lock | a registry `{"job1": WatchedJob(websockets=[1])}` where the send to websocket 1 fails: the job is deleted and the loop's next step raises | iterate over a snapshot of the jobs (`list(self.wjs_jobs.items())`), so a job can drop out during the pass | not executed | LimeWeb.SendPassAsWritten (raises iff a visited job loses every subscriber: LimeWeb.SendPassAsWrittenRaises, LimeWeb.SendPassAsWrittenExample) | LimeWeb.SendPass |
| ssh_host.py:74 | the escape set of `scp_remote_escape` holds neither the tab nor `#` or `~`. A tab stays unescaped and splits the remote name into two words; a leading `#` starts a comment on the remote side, and a leading `~` is tilde-expanded there when a user of that name exists | the file name `a<tab>b`: the remote shell reads the words `a` and `b` | escape the tab, `#` and `~` too, so that every name without a newline reaches the remote command as one word with its own value | not executed | SshCommands.RemoteSpecTabSplits (with SshCommands.RemoteSpecWordStartActive) | SshCommands.RemoteSpecFixedWords (on Shell.ScpRemoteEscapeFixed) |

`sh_encode_remote_paths` (`SshCommands.EncodeRemotePaths`) keeps the program's escape set, because the command lines it builds are modelled as written. The corrected set `Shell.ScpEscapeCharsFixed` is what `SshCommands.RemoteSpecFixedWords` is proved for.

=== FILE: common.dfy ===
/** Helpers shared by every module of the model: an optional value, and the
    handful of Python and JavaScript string operations the source relies on
    (`startswith`, `join`, `split`, `splitlines`, `strip`, decimal `%d`). */
module Common {

  /** Python's `None` or a value. */
  datatype Option<+T> = None | Some(value: T)

  // ---------------------------------------------------------------------------
  // Prefixes, counting, joining
  // ---------------------------------------------------------------------------

  /** Python's `s.startswith(prefix)`. */
  predicate StartsWith(s: string, prefix: string) {
    |prefix| <= |s| && s[..|prefix|] == prefix
  }

  /** How many characters of `s` are in `cs`. */
  function Count(s: string, cs: set<char>): nat
    decreases |s|
  {
    if s == [] then 0 else (if s[0] in cs then 1 else 0) + Count(s[1..], cs)
  }

  lemma {:induction false} CountAppend(a: string, b: string, cs: set<char>)
    ensures Count(a + b, cs) == Count(a, cs) + Count(b, cs)
    decreases |a|
  {
    if a == [] {
      assert a + b == b;
    } else {
      assert (a + b)[1..] == a[1..] + b;
      CountAppend(a[1..], b, cs);
    }
  }

  /** Sequence concatenation is associative. */
  lemma AppendAssoc<T>(a: seq<T>, b: seq<T>, c: seq<T>)
    ensures (a + b) + c == a + (b + c)
  {
  }

  /** Python's `sep.join(parts)`. */
  function Join(parts: seq<string>, sep: string): string
    decreases |parts|
  {
    if |parts| == 0 then ""
    else if |parts| == 1 then parts[0]
    else parts[0] + sep + Join(parts[1..], sep)
  }

  /** Joining two non-empty lists is joining each and putting one more
      separator between them. */
  lemma {:induction false} JoinAppend(a: seq<string>, b: seq<string>, sep: string)
    requires |a| > 0 && |b| > 0
    ensures Join(a + b, sep) == Join(a, sep) + sep + Join(b, sep)
    decreases |a|
  {
    if |a| == 1 {
      assert (a + b)[1..] == b;
    } else {
      assert (a + b)[1..] == a[1..] + b;
      JoinAppend(a[1..], b, sep);
    }
  }

  /** Concatenation with no separator. */
  function Concat(parts: seq<string>): string
    decreases |parts|
  {
    if |parts| == 0 then "" else parts[0] + Concat(parts[1..])
  }

  lemma ConcatAppend(a: seq<string>, b: seq<string>)
    ensures Concat(a + b) == Concat(a) + Concat(b)
    decreases |a|
  {
    if a == [] {
      assert a + b == b;
    } else {
      assert (a + b)[1..] == a[1..] + b;
      ConcatAppend(a[1..], b);
    }
  }

  /** `s` with every character of `cs` dropped. */
  function Without(s: string, cs: set<char>): (r: string)
    ensures forall i :: 0 <= i < |r| ==> r[i] !in cs
    decreases |s|
  {
    if s == [] then [] else (if s[0] in cs then [] else [s[0]]) + Without(s[1..], cs)
  }

  lemma {:induction false} WithoutAppend(a: string, b: string, cs: set<char>)
    ensures Without(a + b, cs) == Without(a, cs) + Without(b, cs)
    decreases |a|
  {
    if a == [] {
      assert a + b == b;
    } else {
      assert (a + b)[1..] == a[1..] + b;
      WithoutAppend(a[1..], b, cs);
    }
  }

  lemma {:induction false} WithoutNone(s: string, cs: set<char>)
    requires forall i :: 0 <= i < |s| ==> s[i] !in cs
    ensures Without(s, cs) == s
    decreases |s|
  {
    if s != [] {
      WithoutNone(s[1..], cs);
    }
  }

  /** Python's `list.remove(x)`: drop the first element equal to `x` (the
      program only calls it when `x` is present). */
  function RemoveFirst<T(==)>(s: seq<T>, x: T): (r: seq<T>)
    requires x in s
    ensures |r| == |s| - 1
    ensures multiset(r) == multiset(s) - multiset{x}
    decreases |s|
  {
    assert s == [s[0]] + s[1..];
    if s[0] == x then s[1..] else [s[0]] + RemoveFirst(s[1..], x)
  }

  /** Removing an element that does not occur before position `|a|` removes
      the one at that position. */
  lemma {:induction false} RemoveFirstAt<T>(a: seq<T>, b: seq<T>, x: T)
    requires x !in a && b != [] && b[0] == x
    ensures RemoveFirst(a + b, x) == a + b[1..]
    decreases |a|
  {
    if a == [] {
      assert a + b == b;
    } else {
      assert (a + b)[1..] == a[1..] + b;
      RemoveFirstAt(a[1..], b, x);
    }
  }

  // ---------------------------------------------------------------------------
  // Splitting
  // ---------------------------------------------------------------------------

  /** Python's `s.split(sep)` for a one-character separator: every
      separator ends a part, so there is always one part more than there
      are separators. */
  function SplitOn(s: string, sep: char): (parts: seq<string>)
    ensures |parts| >= 1
    decreases |s|
  {
    if s == [] then [""]
    else if s[0] == sep then [""] + SplitOn(s[1..], sep)
    else
      var rest := SplitOn(s[1..], sep);
      [[s[0]] + rest[0]] + rest[1..]
  }

  /** Splitting on `sep` loses nothing: joining the parts back with `sep`
      gives the input again. */
  lemma {:induction false} SplitOnJoin(s: string, sep: char)
    ensures Join(SplitOn(s, sep), [sep]) == s
    decreases |s|
  {
    if s != [] {
      var rest := SplitOn(s[1..], sep);
      SplitOnJoin(s[1..], sep);
      assert s == [s[0]] + s[1..];
      if s[0] == sep {
        assert SplitOn(s, sep) == [""] + rest;
      } else {
        assert SplitOn(s, sep) == [[s[0]] + rest[0]] + rest[1..];
        if |rest| == 1 {
          assert rest == [rest[0]];
        } else {
          assert rest[1..][1..] == rest[2..];
        }
      }
    }
  }

  /** The parts hold no separator, and there is one more part than there
      are separators. */
  lemma {:induction false} SplitOnParts(s: string, sep: char)
    ensures |SplitOn(s, sep)| == Count(s, {sep}) + 1
    ensures forall k, i :: 0 <= k < |SplitOn(s, sep)| && 0 <= i < |SplitOn(s, sep)[k]| ==>
              SplitOn(s, sep)[k][i] != sep
    decreases |s|
  {
    if s != [] {
      var rest := SplitOn(s[1..], sep);
      SplitOnParts(s[1..], sep);
      assert s == [s[0]] + s[1..];
      CountAppend([s[0]], s[1..], {sep});
      var parts := SplitOn(s, sep);
      if s[0] == sep {
        assert parts == [""] + rest;
        forall k, i | 0 <= k < |parts| && 0 <= i < |parts[k]|
          ensures parts[k][i] != sep
        {
          assert parts[k] == rest[k - 1];
        }
      } else {
        assert parts == [[s[0]] + rest[0]] + rest[1..];
        forall k, i | 0 <= k < |parts| && 0 <= i < |parts[k]|
          ensures parts[k][i] != sep
        {
          if k == 0 {
            if i > 0 {
              assert parts[0][i] == rest[0][i - 1];
            }
          } else {
            assert parts[k] == rest[k];
          }
        }
      }
    }
  }

  /** Splitting text that starts with a separator-free `a` puts `a` in
      front of the first part of the rest. */
  lemma {:induction false} SplitOnFree(a: string, t: string, sep: char)
    requires forall i :: 0 <= i < |a| ==> a[i] != sep
    ensures SplitOn(a + t, sep) == [a + SplitOn(t, sep)[0]] + SplitOn(t, sep)[1..]
    decreases |a|
  {
    if a == [] {
      assert a + t == t;
      assert a + SplitOn(t, sep)[0] == SplitOn(t, sep)[0];
      assert SplitOn(t, sep) == [SplitOn(t, sep)[0]] + SplitOn(t, sep)[1..];
    } else {
      SplitOnFree(a[1..], t, sep);
      assert (a + t)[1..] == a[1..] + t;
      assert [a[0]] + (a[1..] + SplitOn(t, sep)[0]) == a + SplitOn(t, sep)[0];
    }
  }

  /** Joining separator-free parts with `sep` and splitting on `sep` gives
      the parts back. */
  lemma {:induction false} JoinSplitOn(parts: seq<string>, sep: char)
    requires |parts| >= 1
    requires forall k, i :: 0 <= k < |parts| && 0 <= i < |parts[k]| ==> parts[k][i] != sep
    ensures SplitOn(Join(parts, [sep]), sep) == parts
    decreases |parts|
  {
    if |parts| == 1 {
      SplitOnFree(parts[0], [], sep);
      assert parts[0] + [] == parts[0];
    } else {
      JoinSplitOn(parts[1..], sep);
      var t := Join(parts[1..], [sep]);
      SplitOnFree(parts[0], [sep] + t, sep);
      assert parts[0] + [sep] + t == parts[0] + ([sep] + t);
      assert ([sep] + t)[1..] == t;
      assert SplitOn([sep] + t, sep) == [""] + parts[1..];
      assert Join(parts, [sep]) == parts[0] + [sep] + t;
      assert parts[0] + "" == parts[0];
      assert parts == [parts[0]] + parts[1..];
    }
  }

  /** ASCII whitespace: what Python 2's `split()` and `strip()` remove from
      a byte string such as a command's output. On a `unicode` string they
      also remove further characters (U+001C to U+001F, U+0085, U+00A0 and
      others), which this model does not. */
  const Whitespace: set<char> := {' ', '\t', '\n', '\r', '\U{000B}', '\U{000C}'}

  /** Length of the longest prefix of `s` free of `cs`. */
  function RunLength(s: string, cs: set<char>): (n: nat)
    ensures n <= |s|
    ensures forall i :: 0 <= i < n ==> s[i] !in cs
    ensures n < |s| ==> s[n] in cs
    decreases |s|
  {
    if s == [] || s[0] in cs then 0 else 1 + RunLength(s[1..], cs)
  }

  /** Python's `s.split()`: the maximal runs of non-whitespace characters. */
  function SplitWhitespace(s: string): (tokens: seq<string>)
    decreases |s|
  {
    if s == [] then []
    else if s[0] in Whitespace then SplitWhitespace(s[1..])
    else
      var n := RunLength(s, Whitespace);
      [s[..n]] + SplitWhitespace(s[n..])
  }

  /** The tokens of `split()` are non-empty, free of whitespace, and
      together hold exactly the non-whitespace characters of the input, in
      order. */
  lemma {:induction false} SplitWhitespaceTokens(s: string)
    ensures forall k :: 0 <= k < |SplitWhitespace(s)| ==> |SplitWhitespace(s)[k]| > 0
    ensures forall k, i :: 0 <= k < |SplitWhitespace(s)| && 0 <= i < |SplitWhitespace(s)[k]| ==>
              SplitWhitespace(s)[k][i] !in Whitespace
    ensures Concat(SplitWhitespace(s)) == Without(s, Whitespace)
    decreases |s|
  {
    if s == [] {
    } else if s[0] in Whitespace {
      SplitWhitespaceTokens(s[1..]);
      assert s == [s[0]] + s[1..];
      WithoutAppend([s[0]], s[1..], Whitespace);
    } else {
      var n := RunLength(s, Whitespace);
      SplitWhitespaceTokens(s[n..]);
      var tokens := SplitWhitespace(s);
      assert tokens == [s[..n]] + SplitWhitespace(s[n..]);
      assert tokens[1..] == SplitWhitespace(s[n..]);
      assert s == s[..n] + s[n..];
      WithoutAppend(s[..n], s[n..], Whitespace);
      WithoutNone(s[..n], Whitespace);
      forall k, i | 0 <= k < |tokens| && 0 <= i < |tokens[k]|
        ensures tokens[k][i] !in Whitespace
      {
        if k > 0 {
          assert tokens[k] == SplitWhitespace(s[n..])[k - 1];
        }
      }
    }
  }

  /** Joining non-empty, whitespace-free tokens with blanks and splitting
      the result on whitespace gives the tokens back. */
  lemma {:induction false} JoinSplitWhitespace(tokens: seq<string>)
    requires forall k :: 0 <= k < |tokens| ==> |tokens[k]| > 0
    requires forall k, i :: 0 <= k < |tokens| && 0 <= i < |tokens[k]| ==> tokens[k][i] !in Whitespace
    ensures SplitWhitespace(Join(tokens, " ")) == tokens
    decreases |tokens|
  {
    if |tokens| == 1 {
      var t := tokens[0];
      assert Join(tokens, " ") == t;
      assert t[0] !in Whitespace;
      assert RunLength(t, Whitespace) == |t|;
      assert t[..|t|] == t && t[|t|..] == [];
      assert SplitWhitespace(t) == [t] + SplitWhitespace([]);
      assert tokens == [t];
    } else if |tokens| > 1 {
      var t, rest := tokens[0], Join(tokens[1..], " ");
      var s := t + " " + rest;
      assert Join(tokens, " ") == s;
      assert s[0] == t[0];
      assert s[|t|] == ' ';
      assert RunLength(s, Whitespace) == |t| by {
        assert forall i :: 0 <= i < |t| ==> s[i] == t[i];
      }
      assert s[..|t|] == t;
      assert s[|t|..] == " " + rest;
      assert (" " + rest)[1..] == rest;
      JoinSplitWhitespace(tokens[1..]);
      assert tokens == [t] + tokens[1..];
    }
  }

  /** The line terminators of Python 2's `str.splitlines()`. */
  const LineBreaks: set<char> := {'\n', '\r'}

  /** Python 2's `s.splitlines()` on a byte string: lines end at `\n`, `\r`
      or `\r\n`, and a final terminator does not start an empty line. */
  function SplitLines(s: string): (lines: seq<string>)
    ensures forall k, i :: 0 <= k < |lines| && 0 <= i < |lines[k]| ==> lines[k][i] !in LineBreaks
    decreases |s|
  {
    if s == [] then []
    else
      var n := RunLength(s, LineBreaks);
      if n == |s| then [s]
      else
        var skip := if s[n] == '\r' && n + 1 < |s| && s[n + 1] == '\n' then 2 else 1;
        [s[..n]] + SplitLines(s[n + skip..])
  }

  // ---------------------------------------------------------------------------
  // Stripping
  // ---------------------------------------------------------------------------

  /** Python's `s.strip(chars)`: drop every leading and trailing character
      that is in `cs`. */
  function Strip(s: string, cs: set<char>): (r: string)
    ensures |r| <= |s|
    ensures r != [] ==> r[0] !in cs && r[|r| - 1] !in cs
    decreases |s|
  {
    if s == [] then []
    else if s[0] in cs then Strip(s[1..], cs)
    else if s[|s| - 1] in cs then Strip(s[..|s| - 1], cs)
    else s
  }

  // ---------------------------------------------------------------------------
  // Decimal numbers
  // ---------------------------------------------------------------------------

  const Digits: string := "0123456789"

  predicate IsDigit(c: char) { '0' <= c <= '9' }

  predicate AllDigits(s: string) { forall i :: 0 <= i < |s| ==> IsDigit(s[i]) }

  function DigitChar(d: nat): (c: char)
    requires d < 10
    ensures IsDigit(c)
  {
    Digits[d]
  }

  function DigitValue(c: char): (d: nat)
    requires IsDigit(c)
    ensures d < 10
  {
    (c as int - '0' as int) as nat
  }

  /** Python's `"%d" % n` and JavaScript's number-to-string, for a natural
      number. */
  function NatToString(n: nat): (s: string)
    ensures |s| >= 1 && AllDigits(s)
    decreases n
  {
    if n < 10 then [DigitChar(n)] else NatToString(n / 10) + [DigitChar(n % 10)]
  }

  /** Python's `"%d" % i` for any integer. */
  function IntToString(i: int): (s: string)
    ensures |s| >= 1 && (IsDigit(s[0]) || s[0] == '-')
  {
    if i < 0 then "-" + NatToString(-i) else NatToString(i)
  }

  /** Python's `int(s)` on a string of decimal digits (leading zeros are
      allowed). */
  function DigitsValue(s: string): nat
    requires AllDigits(s)
    decreases |s|
  {
    if s == [] then 0 else DigitsValue(s[..|s| - 1]) * 10 + DigitValue(s[|s| - 1])
  }

  /** Reading back the decimal text of `n` gives `n`. */
  lemma {:induction false} NatToStringRoundTrip(n: nat)
    ensures DigitsValue(NatToString(n)) == n
    decreases n
  {
    var s := NatToString(n);
    if n < 10 {
      assert s[..|s| - 1] == [];
    } else {
      NatToStringRoundTrip(n / 10);
      assert s[..|s| - 1] == NatToString(n / 10);
    }
  }

  /** Different numbers have different decimal texts. */
  lemma NatToStringInjective(a: nat, b: nat)
    ensures NatToString(a) == NatToString(b) ==> a == b
  {
    NatToStringRoundTrip(a);
    NatToStringRoundTrip(b);
  }
}

=== FILE: control_table.dfy ===
/** The save and run controls of the web client (`control_table.js`) as a
    state machine: the table compares the serialisation of the current
    configuration with the last one saved, and latches while a run request
    is outstanding. Requests go out as values; their answers come back as
    events. */
module ControlTable {
  import opened Common

  /** A configuration, by its serialisation (`JSON.stringify(config, null,
      4)`), the only form in which the table compares or sends one. */
  type Config = string

  /** `ControlTable`: the current configuration, the serialisation last
      saved (`ct_config_string_saved`) and the run latch (`ct_running`). */
  datatype Table = Table(current: Config, saved: Config, running: bool)

  /** The opacity of a button: 0.5 for a dimmed one, 1 for a bright one. */
  datatype Opacity = Dimmed | Bright

  /** The requests the table posts to the server. */
  datatype Request = SaveRequest(data: Config) | RunRequest(config: Config, workspace: string)

  /** Nothing to save: the current configuration is the one saved. */
  predicate Clean(t: Table) {
    t.current == t.saved
  }

  /** The `ControlTable` constructor: what it starts from counts as saved,
      and no run is going. */
  function New(config: Config): (t: Table)
    ensures Clean(t) && !t.running && t.current == config
  {
    Table(config, config, false)
  }

  /** `ct_save`: no request for a clean table; otherwise a save of the
      current configuration. The table itself changes only when the save
      succeeds. */
  function Save(t: Table): (r: Option<Request>)
    ensures r.None? <==> Clean(t)
    ensures r.Some? ==> r.value == SaveRequest(t.current)
  {
    if t.saved == t.current then None else Some(SaveRequest(t.current))
  }

  /** The success callback of `ct_save`: what was sent becomes the saved
      serialisation, even if the configuration changed in the meantime;
      the table is clean again iff it did not. The save button is dimmed
      either way. */
  function SaveSucceeded(t: Table, sent: Config): (r: (Table, Opacity))
    ensures r.0.saved == sent && r.0.current == t.current && r.0.running == t.running
    ensures Clean(r.0) <==> t.current == sent
    ensures r.1 == Dimmed
  {
    (t.(saved := sent), Dimmed)
  }

  /** `ct_running_update`: set the latch; the run button is dimmed iff it
      is set. */
  function RunningUpdate(t: Table, running: bool): (r: (Table, Opacity))
    ensures r.0.running == running && r.0.current == t.current && r.0.saved == t.saved
    ensures r.1 == Dimmed <==> running
  {
    (t.(running := running), if running then Dimmed else Bright)
  }

  /** `ct_run`: nothing while a run is outstanding; otherwise the latch is
      set and a run of the current configuration in the given workspace
      (the time of the click) is requested. */
  function Run(t: Table, workspace: string): (r: (Table, Option<Request>))
    ensures t.running ==> r == (t, None)
    ensures !t.running ==> r.0.running && r.1 == Some(RunRequest(t.current, workspace))
    ensures r.0.current == t.current && r.0.saved == t.saved
  {
    if t.running then (t, None)
    else (RunningUpdate(t, true).0, Some(RunRequest(t.current, workspace)))
  }

  /** The success and the error callback of the run request alike: the
      latch is cleared. */
  function RunFinished(t: Table): (r: Table)
    ensures !r.running && r.current == t.current && r.saved == t.saved
  {
    RunningUpdate(t, false).0
  }

  /** `ct_config_update`: the save button is dimmed iff there is nothing to
      save. */
  function ConfigUpdate(t: Table): (r: Opacity)
    ensures r == Dimmed <==> Clean(t)
  {
    if t.saved == t.current then Dimmed else Bright
  }

  // ---------------------------------------------------------------------------
  // The table among its requests
  // ---------------------------------------------------------------------------

  /** What can happen to the table: the configuration is edited, a button
      is clicked, or the answer to a request arrives. */
  datatype Event =
    | Edit(config: Config)
    | ClickSave
    | SaveAnswered(sent: Config)
    | ClickRun(workspace: string)
    | RunAnswered

  /** The table with the requests still waiting for an answer. */
  datatype System = System(table: Table, saves: seq<Config>, runs: nat)

  /** An answer arrives only for a request that is waiting for one. */
  predicate Enabled(s: System, e: Event) {
    match e
    case SaveAnswered(sent) => sent in s.saves
    case RunAnswered => s.runs > 0
    case _ => true
  }

  /** One event. A failed save has no callback, so its request is simply
      never answered. */
  function Step(s: System, e: Event): System
    requires Enabled(s, e)
  {
    match e
    case Edit(config) => s.(table := s.table.(current := config))
    case ClickSave =>
      (match Save(s.table)
       case None => s
       case Some(req) => s.(saves := s.saves + [req.data]))
    case SaveAnswered(sent) => System(SaveSucceeded(s.table, sent).0, RemoveFirst(s.saves, sent), s.runs)
    case ClickRun(workspace) =>
      var (t, req) := Run(s.table, workspace);
      System(t, s.saves, s.runs + (if req.Some? then 1 else 0))
    case RunAnswered => s.(table := RunFinished(s.table), runs := s.runs - 1)
  }

  /** The events in turn; None when one of them cannot happen. */
  function Replay(s: System, events: seq<Event>): Option<System>
    decreases |events|
  {
    if events == [] then Some(s)
    else if !Enabled(s, events[0]) then None
    else Replay(Step(s, events[0]), events[1..])
  }

  /** The latch is set exactly while one run request is outstanding. */
  predicate OneRun(s: System) {
    s.runs == if s.table.running then 1 else 0
  }

  /** A fresh table has no request outstanding. */
  function Start(config: Config): (s: System)
    ensures OneRun(s) && Clean(s.table)
  {
    System(New(config), [], 0)
  }

  /** Every event keeps the latch in step with the run requests. */
  lemma StepOneRun(s: System, e: Event)
    requires OneRun(s) && Enabled(s, e)
    ensures OneRun(Step(s, e))
  {
    match e
    case ClickSave =>
    case _ =>
  }

  /** Whatever happens, there is never more than one run request
      outstanding, and the latch is set exactly while there is one. */
  lemma {:induction false} ReplayOneRun(s: System, events: seq<Event>)
    requires OneRun(s)
    ensures Replay(s, events).Some? ==> OneRun(Replay(s, events).value) && Replay(s, events).value.runs <= 1
    decreases |events|
  {
    if events != [] && Enabled(s, events[0]) {
      StepOneRun(s, events[0]);
      ReplayOneRun(Step(s, events[0]), events[1..]);
    }
  }

  /** Saving a changed configuration and getting the answer before any
      edit leaves the table clean, with no save waiting. */
  lemma SaveRoundTrip(s: System)
    requires !Clean(s.table) && s.saves == []
    ensures var r := Replay(s, [ClickSave, SaveAnswered(s.table.current)]);
            r.Some? && Clean(r.value.table) && r.value.saves == []
  {
    var events := [ClickSave, SaveAnswered(s.table.current)];
    var s1 := Step(s, ClickSave);
    assert s1.saves == [s.table.current] && s1.table == s.table;
    var s2 := Step(s1, SaveAnswered(s.table.current));
    assert RemoveFirst(s1.saves, s.table.current) == [];
    assert events[1..] == [SaveAnswered(s.table.current)];
    assert events[1..][1..] == [];
    assert Replay(s1, events[1..]) == Replay(s2, []);
  }
}

=== FILE: lime_web.dfy ===
/** The job-watching core of `lime_web.py`: per-service write rates, the
    watched jobs with their subscribed websockets, the registry of watched
    jobs, one pass of the datapoint sender, and the parser of TSDB tags. */
module LimeWeb {
  import opened Common

  // ---------------------------------------------------------------------------
  // JobPerService
  // ---------------------------------------------------------------------------

  /** A datapoint of a job on one service: its time and counter value. */
  datatype Sample = Sample(timestamp: real, value: real)

  /** `JobPerService`: the last datapoint (`jps_timestamp` and `jps_value`,
      always set together) and the rate derived from the last two. */
  datatype JobPerService = JobPerService(last: Option<Sample>, rate: Option<real>)

  const NewService: JobPerService := JobPerService(None, None)

  /** The datapoint moves forward from the last one: it is later, and the
      counter did not go down. */
  predicate Advances(s: JobPerService, timestamp: real, value: real) {
    s.last.Some? && value >= s.last.value.value && timestamp > s.last.value.timestamp
  }

  /** `jps_datapoint_add`: the datapoint always becomes the last one; the
      rate, in millions per second, is recomputed only when the datapoint
      moves forward, so a counter that wrapped keeps the old rate for one
      interval. */
  function DatapointAdd(s: JobPerService, timestamp: real, value: real): (r: JobPerService)
    ensures r.last == Some(Sample(timestamp, value))
    ensures !Advances(s, timestamp, value) ==> r.rate == s.rate
    ensures Advances(s, timestamp, value) ==>
              && r.rate.Some? && r.rate.value >= 0.0
              && r.rate.value * (timestamp - s.last.value.timestamp) * 1000000.0 == value - s.last.value.value
  {
    if Advances(s, timestamp, value) then
      var diff := value - s.last.value.value;
      var timeDiff := timestamp - s.last.value.timestamp;
      var rate := diff / timeDiff / 1000000.0;
      assert rate * timeDiff * 1000000.0 == diff;
      JobPerService(Some(Sample(timestamp, value)), Some(rate))
    else JobPerService(Some(Sample(timestamp, value)), s.rate)
  }

  /** A service's datapoints, in the order they arrive. */
  function AddSamples(s: JobPerService, samples: seq<Sample>): JobPerService
    decreases |samples|
  {
    if samples == [] then s
    else AddSamples(DatapointAdd(s, samples[0].timestamp, samples[0].value), samples[1..])
  }

  /** The rate is never negative: whatever datapoints arrive, a service that
      starts without a negative rate never gets one. */
  lemma {:induction false} AddSamplesRate(s: JobPerService, samples: seq<Sample>)
    requires s.rate.Some? ==> s.rate.value >= 0.0
    ensures var r := AddSamples(s, samples); r.rate.Some? ==> r.rate.value >= 0.0
    decreases |samples|
  {
    if samples != [] {
      AddSamplesRate(DatapointAdd(s, samples[0].timestamp, samples[0].value), samples[1..]);
    }
  }

  // ---------------------------------------------------------------------------
  // WatchedJob
  // ---------------------------------------------------------------------------

  /** A websocket, by identity. */
  type Socket = nat

  /** `WatchedJob`: the subscribed websockets, in subscription order, the
      job's ID, and one `JobPerService` per service ID (`wj_services`, in
      insertion order). */
  datatype WatchedJob = WatchedJob(websockets: seq<Socket>, jobId: string, services: seq<(string, JobPerService)>)

  function NewJob(jobId: string): WatchedJob {
    WatchedJob([], jobId, [])
  }

  /** The position of the entry for service `id`, None when there is none. */
  function FindService(services: seq<(string, JobPerService)>, id: string): (r: Option<nat>)
    ensures r.None? <==> forall k :: 0 <= k < |services| ==> services[k].0 != id
    ensures r.Some? ==> r.value < |services| && services[r.value].0 == id
    ensures r.Some? ==> forall k :: 0 <= k < r.value ==> services[k].0 != id
    decreases |services|
  {
    if services == [] then None
    else if services[0].0 == id then Some(0)
    else
      match FindService(services[1..], id)
      case None => None
      case Some(k) => Some(k + 1)
  }

  /** The entry at `k` is the first for its service. */
  lemma {:induction false} FindServiceAt(services: seq<(string, JobPerService)>, id: string, k: nat)
    requires k < |services| && services[k].0 == id
    requires forall l :: 0 <= l < k ==> services[l].0 != id
    ensures FindService(services, id) == Some(k)
    decreases k
  {
    if k > 0 {
      FindServiceAt(services[1..], id, k - 1);
    }
  }

  /** The entries have distinct service IDs, as the keys of a dict do. */
  predicate UniqueServices(services: seq<(string, JobPerService)>) {
    forall k, l :: 0 <= k < l < |services| ==> services[k].0 != services[l].0
  }

  /** The entry a datapoint for service `id` updates: the existing one, or
      a new `JobPerService`. */
  function ServiceEntry(services: seq<(string, JobPerService)>, id: string): JobPerService {
    match FindService(services, id)
    case Some(k) => services[k].1
    case None => NewService
  }

  /** `wj_datapoint_add`: the datapoint goes to the service's entry, which
      is created on the service's first datapoint and reused after that;
      no other entry changes. */
  function WjDatapointAdd(j: WatchedJob, serviceId: string, timestamp: real, value: real): (r: WatchedJob)
    ensures r.websockets == j.websockets && r.jobId == j.jobId
    ensures |r.services| == |j.services| + (if FindService(j.services, serviceId).Some? then 0 else 1)
    ensures forall k :: 0 <= k < |j.services| && j.services[k].0 != serviceId ==> r.services[k] == j.services[k]
    ensures var k := FindService(r.services, serviceId);
            && k.Some?
            && r.services[k.value].1 == DatapointAdd(ServiceEntry(j.services, serviceId), timestamp, value)
    ensures UniqueServices(j.services) ==> UniqueServices(r.services)
  {
    var entry := DatapointAdd(ServiceEntry(j.services, serviceId), timestamp, value);
    match FindService(j.services, serviceId)
    case Some(k) =>
      FindServiceAt(j.services[k := (serviceId, entry)], serviceId, k);
      j.(services := j.services[k := (serviceId, entry)])
    case None =>
      assert (j.services + [(serviceId, entry)])[|j.services|] == (serviceId, entry);
      FindServiceAt(j.services + [(serviceId, entry)], serviceId, |j.services|);
      j.(services := j.services + [(serviceId, entry)])
  }

  /** A service's contribution to the job's rate: its rate, or nothing. */
  function ServiceRate(s: JobPerService): real {
    match s.rate
    case Some(x) => x
    case None => 0.0
  }

  /** `wj_get_rate`: the sum of the services' rates, skipping those without
      one. */
  function Rate(services: seq<(string, JobPerService)>): (r: real)
    ensures (forall k :: 0 <= k < |services| ==> services[k].1.rate.None?) ==> r == 0.0
    ensures (forall k :: 0 <= k < |services| ==> ServiceRate(services[k].1) >= 0.0) ==> r >= 0.0
    decreases |services|
  {
    if services == [] then 0.0
    else ServiceRate(services[0].1) + Rate(services[1..])
  }

  /** Replacing one entry changes the sum by the difference of the two
      rates. */
  lemma {:induction false} RateReplace(services: seq<(string, JobPerService)>, k: nat, e: (string, JobPerService))
    requires k < |services|
    ensures Rate(services[k := e]) == Rate(services) - ServiceRate(services[k].1) + ServiceRate(e.1)
    decreases |services|
  {
    if k > 0 {
      RateReplace(services[1..], k - 1, e);
      assert services[k := e][1..] == services[1..][k - 1 := e];
    } else {
      assert services[k := e][1..] == services[1..];
    }
  }

  /** Appending one entry adds its rate to the sum. */
  lemma {:induction false} RateAppend(services: seq<(string, JobPerService)>, e: (string, JobPerService))
    ensures Rate(services + [e]) == Rate(services) + ServiceRate(e.1)
    decreases |services|
  {
    if services == [] {
      assert [e][1..] == [];
    } else {
      RateAppend(services[1..], e);
      assert (services + [e])[1..] == services[1..] + [e];
    }
  }

  /** A datapoint changes the job's rate by exactly the change of the rate
      of the service it belongs to. */
  lemma RateAfterDatapoint(j: WatchedJob, serviceId: string, timestamp: real, value: real)
    ensures var before := ServiceEntry(j.services, serviceId);
            Rate(WjDatapointAdd(j, serviceId, timestamp, value).services) ==
            Rate(j.services) - ServiceRate(before) + ServiceRate(DatapointAdd(before, timestamp, value))
  {
    var entry := DatapointAdd(ServiceEntry(j.services, serviceId), timestamp, value);
    match FindService(j.services, serviceId)
    case Some(k) =>
      RateReplace(j.services, k, (serviceId, entry));
    case None =>
      RateAppend(j.services, (serviceId, entry));
  }

  // ---------------------------------------------------------------------------
  // WatchedJobs
  // ---------------------------------------------------------------------------

  /** `WatchedJobs.wjs_jobs`: the watched jobs by job ID. */
  type Registry = map<string, WatchedJob>

  /** Every watched job is filed under its own ID and has a subscriber. */
  predicate Live(reg: Registry) {
    forall id :: id in reg ==> reg[id].jobId == id && |reg[id].websockets| > 0
  }

  /** `wjs_watch_job`: the websocket subscribes to the job, which is created
      if it is not watched yet. */
  function Watch(reg: Registry, jobId: string, ws: Socket): (r: Registry)
    ensures r.Keys == reg.Keys + {jobId}
    ensures jobId in reg ==> r[jobId] == reg[jobId].(websockets := reg[jobId].websockets + [ws])
    ensures jobId !in reg ==> r[jobId] == NewJob(jobId).(websockets := [ws])
    ensures forall id :: id in reg && id != jobId ==> r[id] == reg[id]
    ensures Live(reg) ==> Live(r)
  {
    var job := if jobId in reg then reg[jobId] else NewJob(jobId);
    reg[jobId := job.(websockets := job.websockets + [ws])]
  }

  /** `ws` removed once from `s`, if it is there (`list.remove` after an
      `in` test). */
  function Unsubscribe(s: seq<Socket>, ws: Socket): (r: seq<Socket>)
    ensures multiset(r) == multiset(s) - multiset{ws}
  {
    if ws in s then RemoveFirst(s, ws) else s
  }

  /** `wjs_unwatch_job`: -1 and no change for a job that is not watched;
      otherwise the websocket leaves the job, and the job goes when its
      last subscriber does. */
  function Unwatch(reg: Registry, jobId: string, ws: Socket): (r: (int, Registry))
    ensures jobId !in reg ==> r == (-1, reg)
    ensures jobId in reg ==> r.0 == 0
    ensures jobId in reg ==>
              (jobId !in r.1 <==> multiset(reg[jobId].websockets) - multiset{ws} == multiset{})
    ensures jobId in r.1 ==>
              r.1[jobId] == reg[jobId].(websockets := r.1[jobId].websockets)
              && multiset(r.1[jobId].websockets) == multiset(reg[jobId].websockets) - multiset{ws}
    ensures r.1.Keys <= reg.Keys && forall id :: id in reg && id != jobId ==> id in r.1 && r.1[id] == reg[id]
    ensures Live(reg) ==> Live(r.1)
  {
    if jobId !in reg then (-1, reg)
    else
      var job := reg[jobId];
      var left := Unsubscribe(job.websockets, ws);
      if |left| == 0 then (0, reg - {jobId})
      else (0, reg[jobId := job.(websockets := left)])
  }

  /** Watching a job and then unwatching it with a websocket that did not
      yet watch it restores the registry. */
  lemma WatchUnwatch(reg: Registry, jobId: string, ws: Socket)
    requires Live(reg)
    requires jobId in reg ==> ws !in reg[jobId].websockets
    ensures Unwatch(Watch(reg, jobId, ws), jobId, ws) == (0, reg)
  {
    if jobId in reg {
      WatchUnwatchKnown(reg, jobId, ws);
    } else {
      WatchUnwatchNew(reg, jobId, ws);
    }
  }

  /** The round trip on a watched job: the subscriber list gets its old
      contents back, which are not empty. */
  lemma WatchUnwatchKnown(reg: Registry, jobId: string, ws: Socket)
    requires jobId in reg && |reg[jobId].websockets| > 0 && ws !in reg[jobId].websockets
    ensures Unwatch(Watch(reg, jobId, ws), jobId, ws) == (0, reg)
  {
    var job := reg[jobId];
    var reg1 := reg[jobId := job.(websockets := job.websockets + [ws])];
    assert Watch(reg, jobId, ws) == reg1;
    UnsubscribeLast(job.websockets, ws);
    assert reg1[jobId := job] == reg;
  }

  /** The round trip on a job nobody watched: it is created and deleted
      again. */
  lemma WatchUnwatchNew(reg: Registry, jobId: string, ws: Socket)
    requires jobId !in reg
    ensures Unwatch(Watch(reg, jobId, ws), jobId, ws) == (0, reg)
  {
    var reg1 := reg[jobId := NewJob(jobId).(websockets := [ws])];
    assert Watch(reg, jobId, ws) == reg1;
    UnsubscribeLast([], ws);
    assert reg1 - {jobId} == reg;
  }

  /** Unsubscribing undoes a subscription that is the only one. */
  lemma UnsubscribeLast(before: seq<Socket>, ws: Socket)
    requires ws !in before
    ensures Unsubscribe(before + [ws], ws) == before
  {
    RemoveFirstAt(before, [ws], ws);
    assert (before + [ws])[..|before|] == before;
  }

  /** `wjs_metric_received`: 1 and no change for a job that is not
      watched; otherwise the datapoint goes to the job. */
  function MetricReceived(reg: Registry, serviceId: string, jobId: string, timestamp: real, value: real)
    : (r: (int, Registry))
    ensures jobId !in reg ==> r == (1, reg)
    ensures jobId in reg ==> r.0 == 0 && r.1 == reg[jobId := WjDatapointAdd(reg[jobId], serviceId, timestamp, value)]
    ensures r.1.Keys == reg.Keys
    ensures Live(reg) ==> Live(r.1)
  {
    if jobId !in reg then (1, reg)
    else (0, reg[jobId := WjDatapointAdd(reg[jobId], serviceId, timestamp, value)])
  }

  // ---------------------------------------------------------------------------
  // Sending datapoints
  // ---------------------------------------------------------------------------

  /** The websockets a send fails on, in order. */
  function Dead(s: seq<Socket>, fails: set<Socket>): seq<Socket>
    decreases |s|
  {
    if s == [] then []
    else (if s[0] in fails then [s[0]] else []) + Dead(s[1..], fails)
  }

  /** Only websockets whose send failed are dead. */
  lemma {:induction false} DeadFailed(s: seq<Socket>, fails: set<Socket>)
    ensures forall w :: w in Dead(s, fails) ==> w in fails
    decreases |s|
  {
    if s != [] {
      DeadFailed(s[1..], fails);
    }
  }

  /** The websockets a send succeeds on, in order: exactly the subscribers
      whose send did not fail, none added (`AliveCounts` adds that each
      keeps its multiplicity). */
  function Alive(s: seq<Socket>, fails: set<Socket>): (r: seq<Socket>)
    ensures forall w :: w in r <==> w in s && w !in fails
    ensures multiset(r) <= multiset(s)
    decreases |s|
  {
    if s == [] then []
    else
      assert s == [s[0]] + s[1..];
      (if s[0] in fails then [] else [s[0]]) + Alive(s[1..], fails)
  }

  /** A websocket whose send succeeded stays subscribed as often as it was. */
  lemma {:induction false} AliveCounts(s: seq<Socket>, fails: set<Socket>, w: Socket)
    requires w !in fails
    ensures multiset(Alive(s, fails))[w] == multiset(s)[w]
    decreases |s|
  {
    if s != [] {
      AliveCounts(s[1..], fails, w);
      var head := if s[0] in fails then [] else [s[0]];
      assert Alive(s, fails) == head + Alive(s[1..], fails);
      assert multiset(Alive(s, fails)) == multiset(head) + multiset(Alive(s[1..], fails));
      assert s == [s[0]] + s[1..];
      assert multiset(s) == multiset([s[0]]) + multiset(s[1..]);
    }
  }

  /** `list.remove` of each element of `dead` in turn. The elements to
      remove are always present, so the guard of `Unsubscribe` never skips
      one here. */
  function RemoveEach(s: seq<Socket>, dead: seq<Socket>): seq<Socket>
    decreases |dead|
  {
    if dead == [] then s
    else RemoveEach(Unsubscribe(s, dead[0]), dead[1..])
  }

  /** Removals of other elements leave a front element in front. */
  lemma {:induction false} RemoveEachCons(x: Socket, s: seq<Socket>, dead: seq<Socket>)
    requires x !in dead
    ensures RemoveEach([x] + s, dead) == [x] + RemoveEach(s, dead)
    decreases |dead|
  {
    if dead != [] {
      var d := dead[0];
      assert d != x;
      assert ([x] + s)[1..] == s;
      assert Unsubscribe([x] + s, d) == [x] + Unsubscribe(s, d);
      RemoveEachCons(x, Unsubscribe(s, d), dead[1..]);
    }
  }

  /** Removing the websockets a send failed on leaves exactly those it
      succeeded on, in their order. */
  lemma {:induction false} RemoveDead(s: seq<Socket>, fails: set<Socket>)
    ensures RemoveEach(s, Dead(s, fails)) == Alive(s, fails)
    decreases |s|
  {
    if s != [] {
      RemoveDead(s[1..], fails);
      if s[0] in fails {
        RemoveDeadFailed(s, fails);
      } else {
        RemoveDeadAlive(s, fails);
      }
    }
  }

  /** The step of `RemoveDead` for a first websocket whose send failed. */
  lemma RemoveDeadFailed(s: seq<Socket>, fails: set<Socket>)
    requires s != [] && s[0] in fails
    requires RemoveEach(s[1..], Dead(s[1..], fails)) == Alive(s[1..], fails)
    ensures RemoveEach(s, Dead(s, fails)) == Alive(s, fails)
  {
    var rest := Dead(s[1..], fails);
    assert Dead(s, fails) == [s[0]] + rest;
    assert ([s[0]] + rest)[1..] == rest;
    assert Unsubscribe(s, s[0]) == s[1..];
    assert Alive(s, fails) == Alive(s[1..], fails);
  }

  /** The step of `RemoveDead` for a first websocket whose send succeeded. */
  lemma RemoveDeadAlive(s: seq<Socket>, fails: set<Socket>)
    requires s != [] && s[0] !in fails
    requires RemoveEach(s[1..], Dead(s[1..], fails)) == Alive(s[1..], fails)
    ensures RemoveEach(s, Dead(s, fails)) == Alive(s, fails)
  {
    var rest := Dead(s[1..], fails);
    assert Dead(s, fails) == rest;
    DeadFailed(s[1..], fails);
    RemoveEachCons(s[0], s[1..], rest);
    assert s == [s[0]] + s[1..];
    assert Alive(s, fails) == [s[0]] + Alive(s[1..], fails);
  }

  /** `wj_datapoint_send` on job `jobId`: the job's rate is sent to every
      subscriber, those the send fails on are dropped, and the job leaves
      the registry iff no subscriber is left. The result is (rate sent,
      registry). */
  function DatapointSend(reg: Registry, jobId: string, fails: set<Socket>): (r: (real, Registry))
    requires jobId in reg
    ensures r.0 == Rate(reg[jobId].services)
    ensures jobId in r.1 <==> Alive(reg[jobId].websockets, fails) != []
    ensures jobId in r.1 ==> r.1[jobId] == reg[jobId].(websockets := Alive(reg[jobId].websockets, fails))
    ensures forall id :: id != jobId ==> (id in r.1 <==> id in reg)
    ensures forall id :: id in reg && id != jobId ==> r.1[id] == reg[id]
    ensures Live(reg) ==> Live(r.1)
  {
    var job := reg[jobId];
    var rate := Rate(job.services);
    var left := RemoveEach(job.websockets, Dead(job.websockets, fails));
    RemoveDead(job.websockets, fails);
    assert left == Alive(job.websockets, fails);
    if |left| == 0 then (rate, reg - {jobId})
    else (rate, reg[jobId := job.(websockets := left)])
  }

  /** Distinct job IDs, all watched: an order in which the sender can visit
      the registry. */
  predicate Visits(reg: Registry, order: seq<string>) {
    (forall k :: 0 <= k < |order| ==> order[k] in reg)
    && forall k, l :: 0 <= k < l < |order| ==> order[k] != order[l]
  }

  /** One pass of `wjs_datapoints_send` as written: it iterates over the
      registry itself, so once a send removes a job the next step of the
      iteration raises `RuntimeError` (the dict changed size) and the
      sender ends. A pass that does not raise ends as the snapshot pass
      does. The result is (raised, registry). */
  function SendPassAsWritten(reg: Registry, order: seq<string>, fails: set<Socket>): (r: (bool, Registry))
    requires Visits(reg, order)
    ensures !r.0 ==> r.1 == SendPass(reg, order, fails)
    decreases |order|
  {
    if order == [] then (false, reg)
    else
      var reg1 := DatapointSend(reg, order[0], fails).1;
      if order[0] !in reg1 then (true, reg1)
      else SendPassAsWritten(reg1, order[1..], fails)
  }

  /** The pass as written raises exactly when some visited job loses every
      subscriber: the sender dies the first time a job is dropped. */
  lemma {:induction false} SendPassAsWrittenRaises(reg: Registry, order: seq<string>, fails: set<Socket>)
    requires Visits(reg, order)
    ensures SendPassAsWritten(reg, order, fails).0 <==>
            exists k :: 0 <= k < |order| && Alive(reg[order[k]].websockets, fails) == []
    decreases |order|
  {
    if order != [] {
      var reg1 := DatapointSend(reg, order[0], fails).1;
      if order[0] in reg1 {
        assert Visits(reg1, order[1..]);
        SendPassAsWrittenRaises(reg1, order[1..], fails);
        assert forall k :: 1 <= k < |order| ==> reg1[order[k]] == reg[order[k]];
        DroppedShift(reg, reg1, order, fails);
      } else {
        assert Alive(reg[order[0]].websockets, fails) == [];
      }
    }
  }

  /** The step of `SendPassAsWrittenRaises`: when the first job keeps a
      subscriber and the others are untouched, a job is dropped in the
      rest of the pass iff one is dropped in the whole pass. */
  lemma DroppedShift(reg: Registry, reg1: Registry, order: seq<string>, fails: set<Socket>)
    requires Visits(reg, order) && order != [] && Visits(reg1, order[1..])
    requires Alive(reg[order[0]].websockets, fails) != []
    requires forall k :: 1 <= k < |order| ==> reg1[order[k]] == reg[order[k]]
    ensures (exists k :: 0 <= k < |order[1..]| && Alive(reg1[order[1..][k]].websockets, fails) == []) <==>
            (exists k :: 0 <= k < |order| && Alive(reg[order[k]].websockets, fails) == [])
  {
    if exists k :: 0 <= k < |order| && Alive(reg[order[k]].websockets, fails) == [] {
      var k :| 0 <= k < |order| && Alive(reg[order[k]].websockets, fails) == [];
      assert k != 0;
      assert order[1..][k - 1] == order[k];
    }
    if exists k :: 0 <= k < |order[1..]| && Alive(reg1[order[1..][k]].websockets, fails) == [] {
      var k :| 0 <= k < |order[1..]| && Alive(reg1[order[1..][k]].websockets, fails) == [];
      assert order[1..][k] == order[k + 1];
    }
  }

  /** A job with one subscriber whose send fails: the pass as written
      raises. */
  lemma SendPassAsWrittenExample()
    ensures var reg := map["job1" := WatchedJob([1], "job1", [])];
            SendPassAsWritten(reg, ["job1"], {1}).0
  {
    var reg := map["job1" := WatchedJob([1], "job1", [])];
    SendPassAsWrittenRaises(reg, ["job1"], {1});
    assert Alive(reg["job1"].websockets, {1}) == [];
  }

  /** One pass of the sender over a snapshot of the job IDs taken before
      the pass (`list(self.wjs_jobs.items())`), which removal cannot
      disturb. */
  function SendPass(reg: Registry, order: seq<string>, fails: set<Socket>): (r: Registry)
    requires Visits(reg, order)
    ensures forall id :: id in r <==> id in reg && (id in order ==> Alive(reg[id].websockets, fails) != [])
    ensures forall id :: id in r ==>
              r[id] == (if id in order then reg[id].(websockets := Alive(reg[id].websockets, fails)) else reg[id])
    ensures Live(reg) ==> Live(r)
    decreases |order|
  {
    if order == [] then reg
    else
      var reg1 := DatapointSend(reg, order[0], fails).1;
      assert Visits(reg1, order[1..]);
      var r := SendPass(reg1, order[1..], fails);
      assert forall id :: id in order <==> id == order[0] || id in order[1..];
      r
  }

  // ---------------------------------------------------------------------------
  // tsdb_tags_parse
  // ---------------------------------------------------------------------------

  /** A tag is `key=value`: exactly one `=`. */
  predicate IsTag(token: string) {
    |SplitOn(token, '=')| == 2
  }

  function TagKey(token: string): string
    requires IsTag(token)
  {
    SplitOn(token, '=')[0]
  }

  function TagValue(token: string): string
    requires IsTag(token)
  {
    SplitOn(token, '=')[1]
  }

  /** The loop of `tsdb_tags_parse` over the tokens: each tag is stored in
      the dict, and the first token that is not a tag ends the loop with
      -1, keeping what was stored before it. */
  function ParseTags(tokens: seq<string>, dict: map<string, string>): (r: (int, map<string, string>))
    ensures r.0 == 0 || r.0 == -1
    ensures r.0 == 0 <==> forall k :: 0 <= k < |tokens| ==> IsTag(tokens[k])
    ensures dict.Keys <= r.1.Keys
    decreases |tokens|
  {
    if tokens == [] then (0, dict)
    else if !IsTag(tokens[0]) then (-1, dict)
    else
      var r := ParseTags(tokens[1..], dict[TagKey(tokens[0]) := TagValue(tokens[0])]);
      assert forall k :: 0 < k < |tokens| ==> tokens[k] == tokens[1..][k - 1];
      r
  }

  /** The keys of a parse of tags are the dict's and the tags'. */
  lemma {:induction false} ParseTagsKeys(tokens: seq<string>, dict: map<string, string>)
    requires forall k :: 0 <= k < |tokens| ==> IsTag(tokens[k])
    ensures ParseTags(tokens, dict).1.Keys == dict.Keys + (set k | 0 <= k < |tokens| :: TagKey(tokens[k]))
    decreases |tokens|
  {
    if tokens != [] {
      var dict1 := dict[TagKey(tokens[0]) := TagValue(tokens[0])];
      ParseTagsKeys(tokens[1..], dict1);
      var later := set k | 0 <= k < |tokens[1..]| :: TagKey(tokens[1..][k]);
      var all := set k | 0 <= k < |tokens| :: TagKey(tokens[k]);
      assert all == {TagKey(tokens[0])} + later by {
        forall key | key in all ensures key in {TagKey(tokens[0])} + later {
          var k :| 0 <= k < |tokens| && TagKey(tokens[k]) == key;
          if k > 0 {
            assert tokens[1..][k - 1] == tokens[k];
          }
        }
        forall key | key in later ensures key in all {
          var k :| 0 <= k < |tokens[1..]| && TagKey(tokens[1..][k]) == key;
          assert tokens[k + 1] == tokens[1..][k];
        }
      }
    }
  }

  /** In a parse of tags, a tag's key gets the tag's value unless a later
      tag has the same key: the last occurrence wins. */
  lemma {:induction false} ParseTagsLastWins(tokens: seq<string>, dict: map<string, string>, k: nat)
    requires forall l :: 0 <= l < |tokens| ==> IsTag(tokens[l])
    requires k < |tokens|
    requires forall l :: k < l < |tokens| ==> TagKey(tokens[l]) != TagKey(tokens[k])
    ensures TagKey(tokens[k]) in ParseTags(tokens, dict).1
    ensures ParseTags(tokens, dict).1[TagKey(tokens[k])] == TagValue(tokens[k])
    decreases |tokens|
  {
    var dict1 := dict[TagKey(tokens[0]) := TagValue(tokens[0])];
    if k > 0 {
      assert tokens[1..][k - 1] == tokens[k];
      ParseTagsLastWins(tokens[1..], dict1, k - 1);
    } else {
      ParseTagsUntouched(tokens[1..], dict1, TagKey(tokens[0]));
    }
  }

  /** In a parse of tags, a key no tag has keeps the dict's value. */
  lemma {:induction false} ParseTagsUntouched(tokens: seq<string>, dict: map<string, string>, key: string)
    requires forall l :: 0 <= l < |tokens| ==> IsTag(tokens[l])
    requires key in dict
    requires forall l :: 0 <= l < |tokens| ==> TagKey(tokens[l]) != key
    ensures key in ParseTags(tokens, dict).1 && ParseTags(tokens, dict).1[key] == dict[key]
    decreases |tokens|
  {
    if tokens != [] {
      ParseTagsUntouched(tokens[1..], dict[TagKey(tokens[0]) := TagValue(tokens[0])], key);
    }
  }

  /** A token is a tag iff it holds exactly one `=`. */
  lemma IsTagCount(tokens: seq<string>)
    ensures forall k :: 0 <= k < |tokens| ==> (IsTag(tokens[k]) <==> Count(tokens[k], {'='}) == 1)
  {
    forall k | 0 <= k < |tokens|
      ensures IsTag(tokens[k]) <==> Count(tokens[k], {'='}) == 1
    {
      SplitOnParts(tokens[k], '=');
    }
  }

  /** Every token holds exactly one `=`. */
  predicate AllTags(tokens: seq<string>) {
    forall k :: 0 <= k < |tokens| ==> Count(tokens[k], {'='}) == 1
  }

  /** `tsdb_tags_parse`: split the tags on whitespace and parse each token;
      0 when every token holds exactly one `=`, -1 otherwise. */
  function TsdbTagsParse(tsdbTags: string, dict: map<string, string>): (r: (int, map<string, string>))
    ensures r.0 == 0 <==> AllTags(SplitWhitespace(tsdbTags))
  {
    var tokens := SplitWhitespace(tsdbTags);
    IsTagCount(tokens);
    ParseTags(tokens, dict)
  }

  /** The text of a tag. */
  function TagText(key: string, value: string): string {
    key + "=" + value
  }

  /** Parsing the text of tags whose keys and values hold neither `=` nor
      whitespace gives back every key with the value of its last
      occurrence. */
  lemma TsdbTagsRoundTrip(keys: seq<string>, values: seq<string>)
    requires |keys| == |values|
    requires forall k, i :: 0 <= k < |keys| && 0 <= i < |keys[k]| ==> keys[k][i] != '=' && keys[k][i] !in Whitespace
    requires forall k, i :: 0 <= k < |values| && 0 <= i < |values[k]| ==> values[k][i] != '=' && values[k][i] !in Whitespace
    ensures var tokens := seq(|keys|, k requires 0 <= k < |keys| => TagText(keys[k], values[k]));
            var r := TsdbTagsParse(Join(tokens, " "), map[]);
            && r.0 == 0
            && r.1.Keys == (set k | 0 <= k < |keys| :: keys[k])
            && forall k :: 0 <= k < |keys| && (forall l :: k < l < |keys| ==> keys[l] != keys[k]) ==>
                 r.1[keys[k]] == values[k]
  {
    var tokens := seq(|keys|, k requires 0 <= k < |keys| => TagText(keys[k], values[k]));
    forall k | 0 <= k < |tokens|
      ensures |tokens[k]| > 0
      ensures forall i :: 0 <= i < |tokens[k]| ==> tokens[k][i] !in Whitespace
      ensures IsTag(tokens[k]) && TagKey(tokens[k]) == keys[k] && TagValue(tokens[k]) == values[k]
    {
      TagTextSplit(keys[k], values[k]);
    }
    JoinSplitWhitespace(tokens);
    ParseTagsKeys(tokens, map[]);
    assert (set k | 0 <= k < |tokens| :: TagKey(tokens[k])) == set k | 0 <= k < |keys| :: keys[k];
    forall k | 0 <= k < |keys| && (forall l :: k < l < |keys| ==> keys[l] != keys[k])
      ensures ParseTags(tokens, map[]).1[keys[k]] == values[k]
    {
      ParseTagsLastWins(tokens, map[], k);
    }
  }

  /** A tag's text splits back into its key and value. */
  lemma TagTextSplit(key: string, value: string)
    requires forall i :: 0 <= i < |key| ==> key[i] != '='
    requires forall i :: 0 <= i < |value| ==> value[i] != '='
    ensures SplitOn(TagText(key, value), '=') == [key, value]
  {
    JoinSplitOn([key, value], '=');
    assert Join([key, value], "=") == TagText(key, value);
  }
}

=== FILE: lustre_cluster.dfy ===
/** The Lustre cluster of `lustre_config.py`: its hosts, the version each
    host runs, the devices found on them, and the commands sent to the
    object storage servers (OSS) and to the management server (MGS). */
module LustreCluster {
  import opened Common
  import opened Remote
  import opened SshHost
  import opened LustreDevices

  // ---------------------------------------------------------------------------
  // Hosts and their Lustre version
  // ---------------------------------------------------------------------------

  /** A `LustreHost`: the ssh host, the version text it reported, the
      version read from that text, the numeric code of the version (each
      None until known), and the devices it runs. */
  datatype LustreHost = LustreHost(host: Host, versionString: Option<string>, version: Option<Version>,
                                   versionValue: Option<nat>, devices: seq<Device>)

  const VersionCommand: string := "cat /proc/fs/lustre/version | grep lustre: | awk '{print $2}'"

  /** `lh_detect_lustre_version`: the version text is the stripped output;
      it is recorded even when it is not a version, but the version and its
      code are set only when it is one. */
  function DetectLustreVersion(h: LustreHost, oracle: Oracle, log: seq<Call>): (r: (int, LustreHost, seq<Call>))
    ensures r.2 == log + [Call(h.host.hostname, VersionCommand)]
    ensures r.0 == 0 || r.0 == -1
    ensures r.1.host == h.host && r.1.devices == h.devices
    ensures oracle(|log|).exitStatus != 0 ==> r.0 == -1 && r.1 == h
    ensures oracle(|log|).exitStatus == 0 ==>
              && r.1.versionString == Some(Strip(oracle(|log|).stdout, Whitespace))
              && (r.0 == 0 <==> ParseVersion(Strip(oracle(|log|).stdout, Whitespace)).Some?)
    ensures r.0 == 0 ==> r.1.version.Some? && r.1.version == ParseVersion(r.1.versionString.value)
    ensures r.0 != 0 ==> r.1.version == h.version && r.1.versionValue == h.versionValue
  {
    var (res, log1) := Run(oracle, log, h.host.hostname, VersionCommand);
    if res.exitStatus != 0 then (-1, h, log1)
    else
      var text := Strip(res.stdout, Whitespace);
      var h1 := h.(versionString := Some(text));
      match ParseVersion(text)
      case None => (-1, h1, log1)
      case Some(v) =>
        (0, h1.(version := Some(v), versionValue := Some(VersionValue(v.major, v.minor, v.patch))), log1)
  }

  /** A host whose version file reports `VersionString(v)` gets version
      `v` and its code. */
  lemma DetectsReportedVersion(h: LustreHost, oracle: Oracle, log: seq<Call>, v: Version)
    requires oracle(|log|).exitStatus == 0 && oracle(|log|).stdout == VersionString(v) + "\n"
    ensures var r := DetectLustreVersion(h, oracle, log);
            && r.0 == 0
            && r.1.version == Some(v)
            && r.1.versionValue == Some(VersionValue(v.major, v.minor, v.patch))
  {
    var text := VersionString(v);
    ParseVersionString(v);
    assert IsDigit(text[0]) by {
      assert text == NatToString(v.major) + "." + Join([NatToString(v.minor), NatToString(v.patch),
                                                            NatToString(v.fix)], ".");
      assert text[0] == NatToString(v.major)[0];
    }
    assert IsDigit(text[|text| - 1]) by {
      VersionStringEnd(v);
    }
    StripOne(text);
  }

  /** The last character of a version's text is a digit of its fix level. */
  lemma VersionStringEnd(v: Version)
    ensures |VersionString(v)| > 0 && IsDigit(VersionString(v)[|VersionString(v)| - 1])
  {
    var a, b, c, d := NatToString(v.major), NatToString(v.minor), NatToString(v.patch), NatToString(v.fix);
    assert VersionString(v) == a + "." + (b + "." + (c + "." + d));
    assert IsDigit(d[|d| - 1]);
  }

  /** Stripping a trailing newline from digit-bounded text gives the text. */
  lemma StripOne(text: string)
    requires |text| > 0 && IsDigit(text[0]) && IsDigit(text[|text| - 1])
    ensures Strip(text + "\n", Whitespace) == text
  {
    var s := text + "\n";
    assert s[0] == text[0] && s[0] !in Whitespace;
    assert s[|s| - 1] in Whitespace;
    assert s[..|s| - 1] == text;
    assert Strip(text, Whitespace) == text;
  }

  /** A host as the `LustreHost` constructor leaves it: no devices, and the
      version detected. A failed probe leaves every version field unknown;
      otherwise the reported text is kept, and the version and its code are
      known exactly when the text is a version. */
  function NewLustreHost(hostname: string, identityFile: Option<string>, oracle: Oracle, log: seq<Call>)
    : (r: (LustreHost, seq<Call>))
    ensures r.0.host == NewHost(hostname, identityFile) && r.0.devices == []
    ensures r.1 == log + [Call(hostname, VersionCommand)]
    ensures oracle(|log|).exitStatus != 0 ==>
              r.0.versionString == None && r.0.version == None && r.0.versionValue == None
    ensures oracle(|log|).exitStatus == 0 ==>
              && r.0.versionString == Some(Strip(oracle(|log|).stdout, Whitespace))
              && r.0.version == ParseVersion(Strip(oracle(|log|).stdout, Whitespace))
    ensures r.0.version.None? ==> r.0.versionValue == None
    ensures r.0.version.Some? ==>
              var v := r.0.version.value; r.0.versionValue == Some(VersionValue(v.major, v.minor, v.patch))
  {
    var h := LustreHost(NewHost(hostname, identityFile), None, None, None, []);
    var (_, h1, log1) := DetectLustreVersion(h, oracle, log);
    (h1, log1)
  }

  /** The version probes of the named hosts, in order. */
  function VersionCalls(hostnames: seq<string>): (calls: seq<Call>)
    ensures |calls| == |hostnames|
    ensures forall i :: 0 <= i < |hostnames| ==> calls[i] == Call(hostnames[i], VersionCommand)
  {
    seq(|hostnames|, i requires 0 <= i < |hostnames| => Call(hostnames[i], VersionCommand))
  }

  /** The names of a list of hosts. */
  function HostNames(hosts: seq<LustreHost>): (names: seq<string>)
    ensures |names| == |hosts|
    ensures forall i :: 0 <= i < |hosts| ==> names[i] == hosts[i].host.hostname
    decreases |hosts|
  {
    if hosts == [] then [] else [hosts[0].host.hostname] + HostNames(hosts[1..])
  }

  /** The hosts of a new cluster, built in the order of their names. */
  function NewHosts(hostnames: seq<string>, identityFile: Option<string>, oracle: Oracle, log: seq<Call>)
    : (r: (seq<LustreHost>, seq<Call>))
    ensures |r.0| == |hostnames|
    decreases |hostnames|
  {
    if hostnames == [] then ([], log)
    else
      var first := NewLustreHost(hostnames[0], identityFile, oracle, log);
      var rest := NewHosts(hostnames[1..], identityFile, oracle, first.1);
      ([first.0] + rest.0, rest.1)
  }

  /** The new hosts carry the names, in order. */
  lemma {:induction false} NewHostsNames(hostnames: seq<string>, identityFile: Option<string>, oracle: Oracle,
                                         log: seq<Call>)
    ensures HostNames(NewHosts(hostnames, identityFile, oracle, log).0) == hostnames
    decreases |hostnames|
  {
    if hostnames != [] {
      var first := NewLustreHost(hostnames[0], identityFile, oracle, log);
      var rest := NewHosts(hostnames[1..], identityFile, oracle, first.1);
      NewHostsNames(hostnames[1..], identityFile, oracle, first.1);
      var hosts := NewHosts(hostnames, identityFile, oracle, log).0;
      assert hosts == [first.0] + rest.0;
      assert hosts[1..] == rest.0;
      assert hostnames == [hostnames[0]] + hostnames[1..];
    }
  }

  /** The new hosts have no devices yet. */
  lemma {:induction false} NewHostsEmpty(hostnames: seq<string>, identityFile: Option<string>, oracle: Oracle,
                                         log: seq<Call>)
    ensures forall i :: 0 <= i < |hostnames| ==> NewHosts(hostnames, identityFile, oracle, log).0[i].devices == []
    decreases |hostnames|
  {
    if hostnames != [] {
      var first := NewLustreHost(hostnames[0], identityFile, oracle, log);
      var rest := NewHosts(hostnames[1..], identityFile, oracle, first.1);
      NewHostsEmpty(hostnames[1..], identityFile, oracle, first.1);
      var hosts := NewHosts(hostnames, identityFile, oracle, log).0;
      assert hosts == [first.0] + rest.0;
      forall i | 0 < i < |hostnames| ensures hosts[i].devices == [] {
        assert hosts[i] == rest.0[i - 1];
      }
    }
  }

  /** Each new host probed its version once, in the order of the names. */
  lemma {:induction false} NewHostsCalls(hostnames: seq<string>, identityFile: Option<string>, oracle: Oracle,
                                         log: seq<Call>)
    ensures NewHosts(hostnames, identityFile, oracle, log).1 == log + VersionCalls(hostnames)
    decreases |hostnames|
  {
    if hostnames == [] {
      assert log + VersionCalls(hostnames) == log;
    } else {
      var x := Call(hostnames[0], VersionCommand);
      var first := NewLustreHost(hostnames[0], identityFile, oracle, log);
      NewHostsCalls(hostnames[1..], identityFile, oracle, first.1);
      assert [x] + VersionCalls(hostnames[1..]) == VersionCalls(hostnames);
      AppendAssoc(log, [x], VersionCalls(hostnames[1..]));
    }
  }

  // ---------------------------------------------------------------------------
  // The cluster
  // ---------------------------------------------------------------------------

  /** A `LustreCluster`: the file system name, the hosts, and the devices
      found on them. A device names its host by position in `hosts`. */
  datatype Cluster = Cluster(fsname: string, hosts: seq<LustreHost>, devices: seq<Device>)

  /** Every device runs on one of the cluster's hosts. */
  predicate Valid(c: Cluster) {
    forall i :: 0 <= i < |c.devices| ==> c.devices[i].host < |c.hosts|
  }

  /** The `LustreCluster` constructor: one host per name, and no devices
      until they are detected. */
  function NewCluster(fsname: string, hostnames: seq<string>, identityFile: Option<string>,
                      oracle: Oracle, log: seq<Call>): (r: (Cluster, seq<Call>))
    ensures Valid(r.0) && r.0.devices == [] && r.0.fsname == fsname
    ensures |r.0.hosts| == |hostnames|
    ensures forall i :: 0 <= i < |hostnames| ==> r.0.hosts[i].host.hostname == hostnames[i]
    ensures forall i :: 0 <= i < |hostnames| ==> r.0.hosts[i].devices == []
    ensures r.1 == log + VersionCalls(hostnames)
  {
    var hosts := NewHosts(hostnames, identityFile, oracle, log);
    NewHostsNames(hostnames, identityFile, oracle, log);
    NewHostsEmpty(hostnames, identityFile, oracle, log);
    NewHostsCalls(hostnames, identityFile, oracle, log);
    (Cluster(fsname, hosts.0, []), hosts.1)
  }

  // ---------------------------------------------------------------------------
  // Commands on one host
  // ---------------------------------------------------------------------------

  const NrsPolicies: string := "/proc/fs/lustre/ost/OSS/ost_io/nrs_policies"

  const NrsTbfRule: string := "/proc/fs/lustre/ost/OSS/ost_io/nrs_tbf_rule"

  /** The single-command operations of a `LustreHost`. */
  datatype HostOp =
    | EnableTbf(tbfType: string)                                  // lh_enable_tbf_for_ost_io
    | EnableFifo                                                  // lh_enable_fifo_for_ost_io
    | StartTbfRule(name: string, expression: string, rate: int)   // lh_start_tbf_rule
    | ChangeTbfRate(name: string, rate: int)                      // lh_change_tbf_rate
    | CheckCpt                                                    // lh_check_cpt
    | EnableFakeIo                                                // lh_enable_fake_io
    | SetJobidVar(jobidVar: string)                               // lh_set_jobid_var

  /** Whether the host takes the `jobid={...} rate=` TBF syntax: its version
      code is known and at least that of 2.8.54. A host whose version is
      unknown compares below every code, as `None` does in Python 2. */
  predicate NewTbfSyntax(h: LustreHost) {
    h.versionValue.Some? && h.versionValue.value >= TbfSyntaxVersion
  }

  /** The command an operation runs on host `h` of file system `fsname`. */
  function OpCommand(fsname: string, h: LustreHost, op: HostOp): string {
    match op
    case EnableTbf(t) => "echo -n tbf " + t + " > " + NrsPolicies
    case EnableFifo => "echo -n fifo > " + NrsPolicies
    case StartTbfRule(name, expression, rate) =>
      if NewTbfSyntax(h)
      then "echo -n start " + name + " jobid={" + expression + "} rate=" + IntToString(rate) + " > " + NrsTbfRule
      else "echo -n start " + name + " {" + expression + "} " + IntToString(rate) + " > " + NrsTbfRule
    case ChangeTbfRate(name, rate) =>
      if NewTbfSyntax(h)
      then "echo -n change " + name + " rate=" + IntToString(rate) + " > " + NrsTbfRule
      else "echo -n change " + name + " " + IntToString(rate) + " > " + NrsTbfRule
    case CheckCpt => "cat /sys/module/libcfs/parameters/cpu_npartitions"
    case EnableFakeIo => "lctl set_param fail_loc=0x238"
    case SetJobidVar(v) => "lctl conf_param " + fsname + ".sys.jobid_var=" + v
  }

  /** Whether the result of an operation's command is a success: exit status
      0, and for the CPT check a partition count of exactly 1. */
  predicate OpSucceeded(op: HostOp, r: CommandResult) {
    r.exitStatus == 0 && (op.CheckCpt? ==> Strip(r.stdout, Whitespace) == "1")
  }

  /** Run an operation on one host: 0 on success, -1 otherwise. */
  function HostRun(fsname: string, h: LustreHost, op: HostOp, oracle: Oracle, log: seq<Call>)
    : (r: (int, seq<Call>))
    ensures r.1 == log + [Call(h.host.hostname, OpCommand(fsname, h, op))]
    ensures r.0 == 0 || r.0 == -1
    ensures r.0 == 0 <==> OpSucceeded(op, oracle(|log|))
  {
    var (res, log1) := Run(oracle, log, h.host.hostname, OpCommand(fsname, h, op));
    if res.exitStatus != 0 then (-1, log1)
    else if op.CheckCpt? && Strip(res.stdout, Whitespace) != "1" then (-1, log1)
    else (0, log1)
  }

  /** For a host whose detected version has minor and patch levels below
      256, the new TBF syntax is used exactly from version 2.8.54 on. */
  lemma NewTbfSyntaxFromVersion(h: LustreHost, v: Version)
    requires h.versionValue == Some(VersionValue(v.major, v.minor, v.patch))
    requires InRange(v.minor, v.patch)
    ensures NewTbfSyntax(h) <==> !VersionBefore((v.major, v.minor, v.patch), (2, 8, 54))
  {
    VersionValueOrder((v.major, v.minor, v.patch), (2, 8, 54));
  }

  // ---------------------------------------------------------------------------
  // Device detection
  // ---------------------------------------------------------------------------

  const ListDevicesCommand: string := "lctl dl"

  /** The devices one `lctl dl` line shows on host `host`: an MDT, an OST
      and the MGS, checked in that order and independently. */
  function LineDevices(fsname: string, host: nat, line: string): (r: seq<Device>)
    ensures forall k :: 0 <= k < |r| ==> r[k].host == host
  {
    (match LineIndex(line, MdtMarker(fsname))
     case Some(i) => [Device(Mdt, Label(i), host)]
     case None => [])
    + (match LineIndex(line, OstMarker(fsname))
       case Some(i) => [Device(Ost, Label(i), host)]
       case None => [])
    + (if IsMgsLine(line) then [Device(Mgs, Number(0), host)] else [])
  }

  /** The devices all the lines show, in order. */
  function Found(fsname: string, host: nat, lines: seq<string>): (r: seq<Device>)
    ensures forall k :: 0 <= k < |r| ==> r[k].host == host
    decreases |lines|
  {
    if lines == [] then []
    else Found(fsname, host, lines[..|lines| - 1]) + LineDevices(fsname, host, lines[|lines| - 1])
  }

  /** Two devices that may not both exist: an MDT or an OST with the same
      index. A second MGS is reported but accepted. */
  predicate Clash(a: Device, b: Device) {
    a.serviceType != Mgs && a.serviceType == b.serviceType && a.serviceIndex == b.serviceIndex
  }

  /** No two devices of the list clash. */
  predicate Distinct(ds: seq<Device>) {
    forall i, j :: 0 <= i < j < |ds| ==> !Clash(ds[i], ds[j])
  }

  /** Adding one found device to the cluster's list `cd` and the host's
      list `hd`: an MDT or OST already in the cluster's list is a failure,
      and nothing is added. The result is (success, cd, hd). */
  function Add(cd: seq<Device>, hd: seq<Device>, d: Device): (r: (bool, seq<Device>, seq<Device>))
    ensures Distinct(cd) ==> (r.0 <==> Distinct(cd + [d]))
    ensures r.0 ==> r.1 == cd + [d] && r.2 == hd + [d]
    ensures !r.0 ==> r.1 == cd && r.2 == hd
  {
    var clash := d.serviceType != Mgs && FindDevice(cd, d.serviceType, d.serviceIndex).Some?;
    assert clash <==> exists k :: 0 <= k < |cd| && Clash(cd[k], d) by {
      if exists k :: 0 <= k < |cd| && Clash(cd[k], d) {
        var k :| 0 <= k < |cd| && Clash(cd[k], d);
        assert IsService(cd[k], d.serviceType, d.serviceIndex);
      }
    }
    assert Distinct(cd) ==> (Distinct(cd + [d]) <==> !exists k :: 0 <= k < |cd| && Clash(cd[k], d)) by {
      if Distinct(cd) && !exists k :: 0 <= k < |cd| && Clash(cd[k], d) {
        forall i, j | 0 <= i < j < |cd + [d]|
          ensures !Clash((cd + [d])[i], (cd + [d])[j])
        {
          if j < |cd| {
            assert (cd + [d])[i] == cd[i] && (cd + [d])[j] == cd[j];
          } else {
            assert (cd + [d])[i] == cd[i] && (cd + [d])[j] == d;
          }
        }
      }
      if exists k :: 0 <= k < |cd| && Clash(cd[k], d) {
        var k :| 0 <= k < |cd| && Clash(cd[k], d);
        assert (cd + [d])[k] == cd[k] && (cd + [d])[|cd|] == d;
      }
    }
    if clash then (false, cd, hd) else (true, cd + [d], hd + [d])
  }

  /** Adding found devices one by one until one fails. */
  function AddAll(cd: seq<Device>, hd: seq<Device>, ds: seq<Device>): (r: (bool, seq<Device>, seq<Device>))
    ensures r.0 ==> r.1 == cd + ds && r.2 == hd + ds
    ensures Distinct(cd) ==> Distinct(r.1)
    decreases |ds|
  {
    if ds == [] then (true, cd, hd)
    else
      var (ok, cd1, hd1) := Add(cd, hd, ds[0]);
      if !ok then (false, cd1, hd1)
      else
        assert cd1 + ds[1..] == cd + ds && hd1 + ds[1..] == hd + ds;
        AddAll(cd1, hd1, ds[1..])
  }

  lemma DistinctPrefix(a: seq<Device>, b: seq<Device>)
    requires Distinct(a + b)
    ensures Distinct(a)
  {
    forall i, j | 0 <= i < j < |a|
      ensures !Clash(a[i], a[j])
    {
      assert (a + b)[i] == a[i] && (a + b)[j] == a[j];
    }
  }

  /** Adding succeeds exactly when the devices found, after those already
      known, clash with nothing. */
  lemma {:induction false} AddAllDistinct(cd: seq<Device>, hd: seq<Device>, ds: seq<Device>)
    requires Distinct(cd)
    ensures AddAll(cd, hd, ds).0 <==> Distinct(cd + ds)
    decreases |ds|
  {
    if ds == [] {
      assert cd + ds == cd;
    } else {
      var (ok, cd1, hd1) := Add(cd, hd, ds[0]);
      assert cd + ds == (cd + [ds[0]]) + ds[1..];
      if ok {
        AddAllDistinct(cd1, hd1, ds[1..]);
      } else if Distinct(cd + ds) {
        DistinctPrefix(cd + [ds[0]], ds[1..]);
      }
    }
  }

  /** Adding `a + b` is adding `a` and, if that succeeded, then `b`. */
  lemma {:induction false} AddAllAppend(cd: seq<Device>, hd: seq<Device>, a: seq<Device>, b: seq<Device>)
    ensures AddAll(cd, hd, a + b) ==
            (var r := AddAll(cd, hd, a); if r.0 then AddAll(r.1, r.2, b) else r)
    decreases |a|
  {
    if a == [] {
      assert a + b == b;
    } else {
      assert (a + b)[0] == a[0] && (a + b)[1..] == a[1..] + b;
      var (ok, cd1, hd1) := Add(cd, hd, a[0]);
      if ok {
        AddAllAppend(cd1, hd1, a[1..], b);
      }
    }
  }

  /** `lh_detect_devices`: list the devices with `lctl dl`, add those of
      every line to the cluster's list, and fail on an MDT or OST another
      host (or an earlier line) already has. The host's own list is
      replaced only on success; the cluster's list keeps what was added
      before a failure. */
  method DetectDevices(fsname: string, h: LustreHost, index: nat, cd: seq<Device>, oracle: Oracle, log: seq<Call>)
    returns (ret: int, h1: LustreHost, cd1: seq<Device>, newLog: seq<Call>)
    ensures newLog == log + [Call(h.host.hostname, ListDevicesCommand)]
    ensures ret == 0 || ret == -1
    ensures SameHost(h1, h) && (ret != 0 ==> h1 == h)
    ensures oracle(|log|).exitStatus != 0 ==> ret == -1 && cd1 == cd
    ensures oracle(|log|).exitStatus == 0 ==>
              var r := AddAll(cd, [], Found(fsname, index, SplitLines(oracle(|log|).stdout)));
              && (ret == 0 <==> r.0) && cd1 == r.1
              && (ret == 0 ==> h1.devices == r.2)
    ensures ret == 0 ==> cd1 == cd + h1.devices
    ensures ret == 0 ==> h1.devices == Found(fsname, index, SplitLines(oracle(|log|).stdout))
    ensures ret == 0 ==> forall k :: 0 <= k < |h1.devices| ==> h1.devices[k].host == index
    ensures Distinct(cd) ==> Distinct(cd1)
    ensures Distinct(cd) && oracle(|log|).exitStatus == 0 ==>
              (ret == 0 <==> Distinct(cd + Found(fsname, index, SplitLines(oracle(|log|).stdout))))
  {
    var res: CommandResult;
    res, newLog := Run(oracle, log, h.host.hostname, ListDevicesCommand).0,
                   Run(oracle, log, h.host.hostname, ListDevicesCommand).1;
    if res.exitStatus != 0 {
      return -1, h, cd, newLog;
    }
    var lines := SplitLines(res.stdout);
    var ok, cdv, hd := ScanLines(fsname, index, cd, lines);
    if Distinct(cd) {
      AddAllDistinct(cd, [], Found(fsname, index, lines));
    }
    if !ok {
      return -1, h, cdv, newLog;
    }
    assert hd == [] + Found(fsname, index, lines);
    return 0, h.(devices := hd), cdv, newLog;
  }

  /** The loop of `lh_detect_devices` over the lines of `lctl dl`: each
      line's devices are added, and the first failure ends the loop. */
  method ScanLines(fsname: string, index: nat, cd: seq<Device>, lines: seq<string>)
    returns (ok: bool, cdv: seq<Device>, hd: seq<Device>)
    ensures (ok, cdv, hd) == AddAll(cd, [], Found(fsname, index, lines))
  {
    ok, cdv, hd := true, cd, [];
    var i := 0;
    while i < |lines| && ok
      invariant 0 <= i <= |lines|
      invariant (ok, cdv, hd) == AddAll(cd, [], Found(fsname, index, lines[..i]))
    {
      ScanStep(fsname, index, cd, lines, i);
      var r := AddAll(cdv, hd, LineDevices(fsname, index, lines[i]));
      ok, cdv, hd := r.0, r.1, r.2;
      i := i + 1;
    }
    ScanStop(fsname, index, cd, lines, i);
  }

  /** Scanning one more line adds that line's devices after a success. */
  lemma ScanStep(fsname: string, index: nat, cd: seq<Device>, lines: seq<string>, i: nat)
    requires i < |lines|
    ensures var r := AddAll(cd, [], Found(fsname, index, lines[..i]));
            AddAll(cd, [], Found(fsname, index, lines[..i + 1])) ==
            (if r.0 then AddAll(r.1, r.2, LineDevices(fsname, index, lines[i])) else r)
  {
    AddAllAppend(cd, [], Found(fsname, index, lines[..i]), LineDevices(fsname, index, lines[i]));
    assert lines[..i + 1][..i] == lines[..i];
  }

  /** After a failure, or after the last line, the scan so far is the
      scan of all lines. */
  lemma ScanStop(fsname: string, index: nat, cd: seq<Device>, lines: seq<string>, i: nat)
    requires i <= |lines|
    requires i < |lines| ==> !AddAll(cd, [], Found(fsname, index, lines[..i])).0
    ensures AddAll(cd, [], Found(fsname, index, lines)) == AddAll(cd, [], Found(fsname, index, lines[..i]))
  {
    FoundAppend(fsname, index, lines[..i], lines[i..]);
    assert lines[..i] + lines[i..] == lines;
    AddAllAppend(cd, [], Found(fsname, index, lines[..i]), Found(fsname, index, lines[i..]));
    if i == |lines| {
      assert lines[i..] == [];
      assert Found(fsname, index, lines[i..]) == [];
    }
  }

  lemma {:induction false} FoundAppend(fsname: string, host: nat, a: seq<string>, b: seq<string>)
    ensures Found(fsname, host, a + b) == Found(fsname, host, a) + Found(fsname, host, b)
    decreases |b|
  {
    if b == [] {
      assert a + b == a;
    } else {
      var b0, last := b[..|b| - 1], b[|b| - 1];
      assert (a + b)[..|a + b| - 1] == a + b0;
      assert (a + b)[|a + b| - 1] == last;
      FoundAppend(fsname, host, a, b0);
      var fa, fb0, fl := Found(fsname, host, a), Found(fsname, host, b0), LineDevices(fsname, host, last);
      assert Found(fsname, host, a + b) == (fa + fb0) + fl;
      assert Found(fsname, host, b) == fb0 + fl;
      AppendAssoc(fa, fb0, fl);
    }
  }

  /** The devices of the hosts, host after host. */
  function HostDevices(hosts: seq<LustreHost>): seq<Device>
    decreases |hosts|
  {
    if hosts == [] then [] else HostDevices(hosts[..|hosts| - 1]) + hosts[|hosts| - 1].devices
  }

  /** A cluster whose devices have been detected: every device is on one
      of its hosts, no MDT or OST index is taken twice, the cluster's
      devices are the hosts' devices host after host, and each host's
      devices name that host. */
  predicate Detected(c: Cluster) {
    && Valid(c)
    && Distinct(c.devices)
    && c.devices == HostDevices(c.hosts)
    && forall j, k :: 0 <= j < |c.hosts| && 0 <= k < |c.hosts[j].devices| ==> c.hosts[j].devices[k].host == j
  }

  /** The calls `lctl dl` on each of the hosts, in order. */
  function ListCalls(hosts: seq<LustreHost>): (r: seq<Call>)
    ensures |r| == |hosts|
    ensures forall j :: 0 <= j < |hosts| ==> r[j] == Call(hosts[j].host.hostname, ListDevicesCommand)
  {
    seq(|hosts|, j requires 0 <= j < |hosts| => Call(hosts[j].host.hostname, ListDevicesCommand))
  }

  /** The devices the `lctl dl` listing of host `j` shows, when the
      listings of the hosts are the session's commands from `log` on. */
  function HostFound(fsname: string, oracle: Oracle, log: seq<Call>, j: nat): seq<Device> {
    Found(fsname, j, SplitLines(oracle(|log| + j).stdout))
  }

  /** The devices the listings of the first `n` hosts show, host after
      host. */
  function FoundAll(fsname: string, oracle: Oracle, log: seq<Call>, n: nat): seq<Device>
    decreases n
  {
    if n == 0 then [] else FoundAll(fsname, oracle, log, n - 1) + HostFound(fsname, oracle, log, n - 1)
  }

  /** The listings of the first `n` hosts succeeded. */
  predicate ListingsOk(oracle: Oracle, log: seq<Call>, n: nat) {
    forall p :: |log| <= p < |log| + n ==> oracle(p).exitStatus == 0
  }

  /** Detection fails at host `k`: the hosts before it were listed and their
      devices clash with nothing, and the listing of host `k` fails or
      shows a device that clashes. */
  predicate FailsAt(fsname: string, oracle: Oracle, log: seq<Call>, k: nat) {
    && ListingsOk(oracle, log, k)
    && Distinct(FoundAll(fsname, oracle, log, k))
    && (oracle(|log| + k).exitStatus != 0 || !Distinct(FoundAll(fsname, oracle, log, k + 1)))
  }

  /** The devices of fewer hosts clash no more than those of more. */
  lemma {:induction false} FoundAllDistinctPrefix(fsname: string, oracle: Oracle, log: seq<Call>, m: nat, n: nat)
    requires m <= n && Distinct(FoundAll(fsname, oracle, log, n))
    ensures Distinct(FoundAll(fsname, oracle, log, m))
    decreases n
  {
    if m < n {
      DistinctPrefix(FoundAll(fsname, oracle, log, n - 1), HostFound(fsname, oracle, log, n - 1));
      FoundAllDistinctPrefix(fsname, oracle, log, m, n - 1);
    }
  }

  /** A detection that fails at a host before the last cannot have every
      listing succeed with no clash. */
  lemma FailsAtNotAll(fsname: string, oracle: Oracle, log: seq<Call>, k: nat, n: nat)
    requires k < n && FailsAt(fsname, oracle, log, k)
    ensures !(ListingsOk(oracle, log, n) && Distinct(FoundAll(fsname, oracle, log, n)))
  {
    if ListingsOk(oracle, log, n) && Distinct(FoundAll(fsname, oracle, log, n)) {
      assert oracle(|log| + k).exitStatus == 0;
      FoundAllDistinctPrefix(fsname, oracle, log, k + 1, n);
      assert false;
    }
  }

  /** The same host apart from, at most, its device list. */
  predicate SameHost(a: LustreHost, b: LustreHost) {
    a.host == b.host && a.versionString == b.versionString && a.version == b.version
    && a.versionValue == b.versionValue
  }

  /** `a` is `b` with, at most, other device lists. */
  predicate SameHosts(a: seq<LustreHost>, b: seq<LustreHost>) {
    |a| == |b| && forall j :: 0 <= j < |a| ==> SameHost(a[j], b[j])
  }

  /** The state of `lc_detect_devices` after the first `i` hosts: those
      hosts hold the devices found on them, the shared list is their
      concatenation and has no clash, and the other hosts are untouched. */
  predicate Scanned(c: Cluster, hosts: seq<LustreHost>, i: nat, devices: seq<Device>) {
    && i <= |hosts|
    && SameHosts(hosts, c.hosts)
    && (forall j :: i <= j < |hosts| ==> hosts[j] == c.hosts[j])
    && devices == HostDevices(hosts[..i])
    && Distinct(devices)
    && (forall k :: 0 <= k < |devices| ==> devices[k].host < i)
    && (forall j, k :: 0 <= j < i && 0 <= k < |hosts[j].devices| ==> hosts[j].devices[k].host == j)
  }

  /** Detecting the next host keeps the scan's state. */
  lemma ScannedStep(c: Cluster, hosts: seq<LustreHost>, i: nat, devices: seq<Device>, h1: LustreHost,
                    devices1: seq<Device>)
    requires Scanned(c, hosts, i, devices) && i < |hosts|
    requires SameHost(h1, hosts[i])
    requires devices1 == devices + h1.devices && Distinct(devices1)
    requires forall k :: 0 <= k < |h1.devices| ==> h1.devices[k].host == i
    ensures Scanned(c, hosts[i := h1], i + 1, devices1)
  {
    var hosts1 := hosts[i := h1];
    assert hosts1[..i + 1] == hosts[..i] + [h1];
    assert hosts1[..i + 1][..i] == hosts[..i];
    forall k | 0 <= k < |devices1|
      ensures devices1[k].host < i + 1
    {
      if k >= |devices| {
        assert devices1[k] == h1.devices[k - |devices|];
      }
    }
  }

  /** One more host's `lctl dl` at the end of the log. */
  lemma ListCallsSnoc(hosts: seq<LustreHost>, i: nat, log: seq<Call>, log1: seq<Call>)
    requires i < |hosts|
    requires log1 == log + ListCalls(hosts[..i])
    ensures log1 + [Call(hosts[i].host.hostname, ListDevicesCommand)] == log + ListCalls(hosts[..i + 1])
  {
    var x := Call(hosts[i].host.hostname, ListDevicesCommand);
    assert ListCalls(hosts[..i + 1]) == ListCalls(hosts[..i]) + [x];
    AppendAssoc(log, ListCalls(hosts[..i]), [x]);
  }

  /** `lc_detect_devices`: detect the devices of every host in turn into
      one shared list, which becomes the cluster's only when every host
      succeeded; the first failure is returned. Success means every listing
      succeeded and the devices they show clash with nothing; each host then
      holds exactly the devices its listing shows. A failure happens at the
      last host listed. Hosts detected before a failure keep their new
      device lists, as in the program. */
  method DetectClusterDevices(c: Cluster, oracle: Oracle, log: seq<Call>)
    returns (ret: int, c1: Cluster, newLog: seq<Call>)
    ensures ret == 0 || ret == -1
    ensures c1.fsname == c.fsname && SameHosts(c1.hosts, c.hosts)
    ensures ret != 0 ==> c1.devices == c.devices
    ensures ret == 0 ==> Detected(c1)
    ensures |log| <= |newLog| <= |log| + |c.hosts|
    ensures newLog == log + ListCalls(c.hosts[..|newLog| - |log|])
    ensures ret == 0 ==> |newLog| == |log| + |c.hosts|
    ensures ret == 0 <==> ListingsOk(oracle, log, |c.hosts|) && Distinct(FoundAll(c.fsname, oracle, log, |c.hosts|))
    ensures ret == 0 ==> c1.devices == FoundAll(c.fsname, oracle, log, |c.hosts|)
    ensures ret == 0 ==> forall j :: 0 <= j < |c1.hosts| ==> c1.hosts[j].devices == HostFound(c.fsname, oracle, log, j)
    ensures ret != 0 ==> |newLog| > |log| && FailsAt(c.fsname, oracle, log, |newLog| - |log| - 1)
  {
    var r, hosts, devices, i;
    r, hosts, devices, newLog, i := DetectLoop(c, oracle, log);
    if r != 0 {
      DetectStopped(c, hosts, i, oracle, log, newLog);
      return r, Cluster(c.fsname, hosts, c.devices), newLog;
    }
    DetectDone(c, hosts, devices, oracle, log, newLog);
    return 0, Cluster(c.fsname, hosts, devices), newLog;
  }

  /** The loop of `lc_detect_devices`: host after host until one fails,
      which is host `i` on failure. */
  method DetectLoop(c: Cluster, oracle: Oracle, log: seq<Call>)
    returns (r: int, hosts: seq<LustreHost>, devices: seq<Device>, newLog: seq<Call>, i: nat)
    ensures r == 0 || r == -1
    ensures r == 0 ==> i == |c.hosts| && DetectSoFar(c, hosts, i, devices, oracle, log, newLog)
    ensures r != 0 ==>
              && i < |c.hosts| && SameHosts(hosts, c.hosts)
              && newLog == log + ListCalls(c.hosts[..i + 1])
              && FailsAt(c.fsname, oracle, log, i)
  {
    devices := [];
    hosts := c.hosts;
    newLog := log;
    i := 0;
    DetectStart(c, oracle, log);
    while i < |hosts|
      invariant DetectSoFar(c, hosts, i, devices, oracle, log, newLog)
    {
      var r1, hosts1, devices1, log1 := DetectNext(c, hosts, i, devices, oracle, log, newLog);
      if r1 != 0 {
        return r1, hosts, devices, log1, i;
      }
      hosts := hosts1;
      devices := devices1;
      newLog := log1;
      i := i + 1;
    }
    r := 0;
  }

  /** Before any host is detected, the state of `lc_detect_devices` is the
      cluster's own hosts, no devices and no calls. */
  lemma DetectStart(c: Cluster, oracle: Oracle, log: seq<Call>)
    ensures DetectSoFar(c, c.hosts, 0, [], oracle, log, log)
  {
    assert c.hosts[..0] == [];
  }

  /** A detection that failed at host `i` ends with the failure's
      postcondition. */
  lemma DetectStopped(c: Cluster, hosts: seq<LustreHost>, i: nat, oracle: Oracle, log: seq<Call>, log1: seq<Call>)
    requires i < |c.hosts| && SameHosts(hosts, c.hosts)
    requires log1 == log + ListCalls(c.hosts[..i + 1])
    requires FailsAt(c.fsname, oracle, log, i)
    ensures |log| < |log1| <= |log| + |c.hosts| && log1 == log + ListCalls(c.hosts[..|log1| - |log|])
    ensures FailsAt(c.fsname, oracle, log, |log1| - |log| - 1)
    ensures !(ListingsOk(oracle, log, |c.hosts|) && Distinct(FoundAll(c.fsname, oracle, log, |c.hosts|)))
  {
    ListCallsLength(c.hosts, i + 1, log, log1);
    FailsAtNotAll(c.fsname, oracle, log, i, |c.hosts|);
  }

  /** A detection that went through every host ends with the success's
      postcondition. */
  lemma DetectDone(c: Cluster, hosts: seq<LustreHost>, devices: seq<Device>, oracle: Oracle, log: seq<Call>,
                   newLog: seq<Call>)
    requires DetectSoFar(c, hosts, |hosts|, devices, oracle, log, newLog)
    ensures Detected(Cluster(c.fsname, hosts, devices)) && SameHosts(hosts, c.hosts)
    ensures |newLog| == |log| + |c.hosts| && newLog == log + ListCalls(c.hosts[..|newLog| - |log|])
    ensures ListingsOk(oracle, log, |c.hosts|) && Distinct(FoundAll(c.fsname, oracle, log, |c.hosts|))
    ensures devices == FoundAll(c.fsname, oracle, log, |c.hosts|)
    ensures forall j :: 0 <= j < |hosts| ==> hosts[j].devices == HostFound(c.fsname, oracle, log, j)
  {
    ScannedDone(c, hosts, devices);
    ListCallsLength(c.hosts, |hosts|, log, newLog);
  }

  /** The state of `lc_detect_devices` after the first `i` hosts, with the
      `lctl dl` calls made on them, all successful. */
  predicate DetectSoFar(c: Cluster, hosts: seq<LustreHost>, i: nat, devices: seq<Device>, oracle: Oracle,
                        log: seq<Call>, newLog: seq<Call>)
  {
    && |hosts| == |c.hosts|
    && Scanned(c, hosts, i, devices)
    && newLog == log + ListCalls(c.hosts[..i])
    && ListingsOk(oracle, log, i)
    && devices == FoundAll(c.fsname, oracle, log, i)
    && forall j :: 0 <= j < i ==> hosts[j].devices == HostFound(c.fsname, oracle, log, j)
  }

  /** One step of `lc_detect_devices`: detect the devices of host `i`. */
  method DetectNext(c: Cluster, hosts: seq<LustreHost>, i: nat, devices: seq<Device>, oracle: Oracle,
                    log: seq<Call>, newLog: seq<Call>)
    returns (r: int, hosts1: seq<LustreHost>, devices1: seq<Device>, log1: seq<Call>)
    requires DetectSoFar(c, hosts, i, devices, oracle, log, newLog) && i < |hosts|
    ensures log1 == log + ListCalls(c.hosts[..i + 1])
    ensures r == 0 || r == -1
    ensures r == 0 ==> DetectSoFar(c, hosts1, i + 1, devices1, oracle, log, log1)
    ensures r != 0 ==> FailsAt(c.fsname, oracle, log, i)
  {
    var h1;
    ListCallsLength(c.hosts, i, log, newLog);
    r, h1, devices1, log1 := DetectHost(c.fsname, hosts[i], i, devices, oracle, log, newLog);
    assert hosts[i] == c.hosts[i];
    ListCallsSnoc(c.hosts, i, log, newLog);
    hosts1 := hosts;
    if r == 0 {
      DetectAdvance(c, hosts, i, devices, oracle, log, newLog, h1, devices1, log1);
      hosts1 := hosts[i := h1];
    } else {
      DetectFailed(c.fsname, i, devices, oracle, log);
    }
  }

  /** `lh_detect_devices` on host `i` of the scan, its result stated in
      terms of the listing the host's call receives. */
  method DetectHost(fsname: string, h: LustreHost, i: nat, devices: seq<Device>, oracle: Oracle,
                    log: seq<Call>, newLog: seq<Call>)
    returns (r: int, h1: LustreHost, devices1: seq<Device>, log1: seq<Call>)
    requires Distinct(devices) && |newLog| == |log| + i
    ensures log1 == newLog + [Call(h.host.hostname, ListDevicesCommand)]
    ensures r == 0 || r == -1
    ensures SameHost(h1, h)
    ensures r == 0 ==>
              && oracle(|log| + i).exitStatus == 0
              && h1.devices == HostFound(fsname, oracle, log, i)
              && devices1 == devices + h1.devices && Distinct(devices1)
              && forall k :: 0 <= k < |h1.devices| ==> h1.devices[k].host == i
    ensures r != 0 ==> oracle(|log| + i).exitStatus != 0 || !Distinct(devices + HostFound(fsname, oracle, log, i))
  {
    r, h1, devices1, log1 := DetectDevices(fsname, h, i, devices, oracle, newLog);
  }

  /** A host whose listing succeeded and clashes with nothing extends the
      state of `lc_detect_devices` by one host. */
  lemma DetectAdvance(c: Cluster, hosts: seq<LustreHost>, i: nat, devices: seq<Device>, oracle: Oracle,
                      log: seq<Call>, newLog: seq<Call>, h1: LustreHost, devices1: seq<Device>, log1: seq<Call>)
    requires DetectSoFar(c, hosts, i, devices, oracle, log, newLog) && i < |hosts|
    requires oracle(|log| + i).exitStatus == 0
    requires SameHost(h1, hosts[i]) && devices1 == devices + h1.devices && Distinct(devices1)
    requires h1.devices == HostFound(c.fsname, oracle, log, i)
    requires forall k :: 0 <= k < |h1.devices| ==> h1.devices[k].host == i
    requires log1 == log + ListCalls(c.hosts[..i + 1])
    ensures DetectSoFar(c, hosts[i := h1], i + 1, devices1, oracle, log, log1)
  {
    ScannedStep(c, hosts, i, devices, h1, devices1);
    FoundStep(c.fsname, oracle, log, i, devices, devices1);
  }

  /** The listings and devices of the first `i + 1` hosts, from those of
      the first `i`. */
  lemma FoundStep(fsname: string, oracle: Oracle, log: seq<Call>, i: nat, devices: seq<Device>,
                  devices1: seq<Device>)
    requires ListingsOk(oracle, log, i) && devices == FoundAll(fsname, oracle, log, i)
    requires oracle(|log| + i).exitStatus == 0
    requires devices1 == devices + HostFound(fsname, oracle, log, i)
    ensures ListingsOk(oracle, log, i + 1) && devices1 == FoundAll(fsname, oracle, log, i + 1)
  {
  }

  /** A host whose listing failed, or whose devices clash, is where
      `lc_detect_devices` fails. */
  lemma DetectFailed(fsname: string, i: nat, devices: seq<Device>, oracle: Oracle, log: seq<Call>)
    requires ListingsOk(oracle, log, i) && devices == FoundAll(fsname, oracle, log, i) && Distinct(devices)
    requires oracle(|log| + i).exitStatus != 0 || !Distinct(devices + HostFound(fsname, oracle, log, i))
    ensures FailsAt(fsname, oracle, log, i)
  {
  }

  /** The scan's state after every host is the postcondition of a
      successful `lc_detect_devices`. */
  lemma ScannedDone(c: Cluster, hosts: seq<LustreHost>, devices: seq<Device>)
    requires Scanned(c, hosts, |hosts|, devices)
    ensures Detected(Cluster(c.fsname, hosts, devices))
  {
    assert hosts[..|hosts|] == hosts;
  }

  lemma ListCallsLength(hosts: seq<LustreHost>, i: nat, log: seq<Call>, log1: seq<Call>)
    requires i <= |hosts|
    requires log1 == log + ListCalls(hosts[..i])
    ensures |log| <= |log1| <= |log| + |hosts| && |log1| - |log| == i
    ensures log1 == log + ListCalls(hosts[..|log1| - |log|])
  {
  }

  // ---------------------------------------------------------------------------
  // Broadcasts to the OSS and MGS hosts
  // ---------------------------------------------------------------------------

  function Hostname(c: Cluster, t: nat): string
    requires t < |c.hosts|
  {
    c.hosts[t].host.hostname
  }

  /** The host names of a list of host positions. */
  function Names(c: Cluster, ts: seq<nat>): (r: seq<string>)
    requires forall k :: 0 <= k < |ts| ==> ts[k] < |c.hosts|
    ensures |r| == |ts| && forall k :: 0 <= k < |ts| ==> r[k] == Hostname(c, ts[k])
  {
    seq(|ts|, k requires 0 <= k < |ts| => Hostname(c, ts[k]))
  }

  /** The hosts an OSS-wide operation reaches, for the first `n` devices:
      one host per distinct host name among the OSTs' hosts, in the order
      the names first appear. */
  function OssTargets(c: Cluster, n: nat): (ts: seq<nat>)
    requires Valid(c) && n <= |c.devices|
    ensures forall k :: 0 <= k < |ts| ==> ts[k] < |c.hosts|
    decreases n
  {
    if n == 0 then []
    else
      var prev := OssTargets(c, n - 1);
      var d := c.devices[n - 1];
      if d.serviceType == Ost && Hostname(c, d.host) !in Names(c, prev) then prev + [d.host] else prev
  }

  /** No two OSS targets share a host name. */
  lemma {:induction false} OssTargetsDistinct(c: Cluster, n: nat)
    requires Valid(c) && n <= |c.devices|
    ensures forall k, l :: 0 <= k < l < |OssTargets(c, n)| ==>
              Hostname(c, OssTargets(c, n)[k]) != Hostname(c, OssTargets(c, n)[l])
    decreases n
  {
    if n > 0 {
      OssTargetsDistinct(c, n - 1);
      var prev := OssTargets(c, n - 1);
      var ts := OssTargets(c, n);
      var d := c.devices[n - 1];
      if d.serviceType == Ost && Hostname(c, d.host) !in Names(c, prev) {
        assert ts == prev + [d.host];
        forall k, l | 0 <= k < l < |ts|
          ensures Hostname(c, ts[k]) != Hostname(c, ts[l])
        {
          assert ts[k] == prev[k];
          if l == |prev| {
            assert ts[l] == d.host;
            assert Hostname(c, ts[k]) == Names(c, prev)[k];
          } else {
            assert ts[l] == prev[l];
          }
        }
      } else {
        assert ts == prev;
      }
    } else {
      assert OssTargets(c, n) == [];
    }
  }

  /** Every OSS target is the host of an OST. */
  lemma {:induction false} OssTargetsAreOsts(c: Cluster, n: nat)
    requires Valid(c) && n <= |c.devices|
    ensures forall k :: 0 <= k < |OssTargets(c, n)| ==>
              exists i :: 0 <= i < n && c.devices[i].serviceType == Ost && c.devices[i].host == OssTargets(c, n)[k]
    decreases n
  {
    if n > 0 {
      OssTargetsAreOsts(c, n - 1);
      var prev := OssTargets(c, n - 1);
      var ts := OssTargets(c, n);
      var d := c.devices[n - 1];
      if d.serviceType == Ost && Hostname(c, d.host) !in Names(c, prev) {
        assert ts == prev + [d.host];
        forall k | 0 <= k < |ts|
          ensures exists i :: 0 <= i < n && c.devices[i].serviceType == Ost && c.devices[i].host == ts[k]
        {
          if k == |prev| {
            assert c.devices[n - 1].host == ts[k];
          } else {
            assert ts[k] == prev[k];
            var i :| 0 <= i < n - 1 && c.devices[i].serviceType == Ost && c.devices[i].host == prev[k];
          }
        }
      } else {
        assert ts == prev;
      }
    } else {
      assert OssTargets(c, n) == [];
    }
  }

  /** The host name of every OST is among the OSS targets' names. */
  lemma {:induction false} OssTargetsCover(c: Cluster, n: nat)
    requires Valid(c) && n <= |c.devices|
    ensures forall i :: 0 <= i < n && c.devices[i].serviceType == Ost ==>
              Hostname(c, c.devices[i].host) in Names(c, OssTargets(c, n))
    decreases n
  {
    if n > 0 {
      OssTargetsCover(c, n - 1);
      var prev := OssTargets(c, n - 1);
      var ts := OssTargets(c, n);
      var d := c.devices[n - 1];
      if d.serviceType == Ost && Hostname(c, d.host) !in Names(c, prev) {
        assert ts == prev + [d.host];
        assert Names(c, ts) == Names(c, prev) + [Hostname(c, d.host)];
      } else {
        assert ts == prev;
      }
    } else {
      assert OssTargets(c, n) == [];
    }
  }

  /** The targets for fewer devices are a prefix of those for more. */
  lemma {:induction false} OssTargetsPrefix(c: Cluster, m: nat, n: nat)
    requires Valid(c) && m <= n <= |c.devices|
    ensures |OssTargets(c, m)| <= |OssTargets(c, n)|
    ensures OssTargets(c, n)[..|OssTargets(c, m)|] == OssTargets(c, m)
    decreases n - m
  {
    if m < n {
      OssTargetsPrefix(c, m, n - 1);
      OssTargetsGrow(c, n);
      PrefixOfPrefix(OssTargets(c, m), OssTargets(c, n - 1), OssTargets(c, n));
    }
  }

  /** One more device adds at most one target, at the end. */
  lemma OssTargetsGrow(c: Cluster, n: nat)
    requires Valid(c) && 0 < n <= |c.devices|
    ensures |OssTargets(c, n - 1)| <= |OssTargets(c, n)|
    ensures OssTargets(c, n)[..|OssTargets(c, n - 1)|] == OssTargets(c, n - 1)
  {
    var prev := OssTargets(c, n - 1);
    var d := c.devices[n - 1];
    if d.serviceType == Ost && Hostname(c, d.host) !in Names(c, prev) {
      assert OssTargets(c, n) == prev + [d.host];
      assert (prev + [d.host])[..|prev|] == prev;
    } else {
      assert OssTargets(c, n) == prev;
    }
  }

  /** The hosts the MGS-wide operation reaches, for the first `n` devices:
      the host of every MGS device, in order and without removing repeats. */
  function MgsTargets(c: Cluster, n: nat): (ts: seq<nat>)
    requires Valid(c) && n <= |c.devices|
    ensures forall k :: 0 <= k < |ts| ==> ts[k] < |c.hosts|
    decreases n
  {
    if n == 0 then []
    else
      var prev := MgsTargets(c, n - 1);
      var d := c.devices[n - 1];
      if d.serviceType == Mgs then prev + [d.host] else prev
  }

  /** The MGS targets are exactly the hosts of the MGS devices, and there
      are none exactly when no device is an MGS. */
  lemma {:induction false} MgsTargetsSpec(c: Cluster, n: nat)
    requires Valid(c) && n <= |c.devices|
    ensures var ts := MgsTargets(c, n);
            && (forall k :: 0 <= k < |ts| ==>
                  exists i :: 0 <= i < n && c.devices[i].serviceType == Mgs && c.devices[i].host == ts[k])
            && (forall i :: 0 <= i < n && c.devices[i].serviceType == Mgs ==> c.devices[i].host in ts)
            && (|ts| == 0 <==> forall i :: 0 <= i < n ==> c.devices[i].serviceType != Mgs)
    decreases n
  {
    if n > 0 {
      MgsTargetsSpec(c, n - 1);
    }
  }

  /** The calls an operation makes on a list of hosts. */
  function TargetCalls(c: Cluster, op: HostOp, ts: seq<nat>): (r: seq<Call>)
    requires forall k :: 0 <= k < |ts| ==> ts[k] < |c.hosts|
    ensures |r| == |ts|
    ensures forall k :: 0 <= k < |ts| ==> r[k] == Call(Hostname(c, ts[k]), OpCommand(c.fsname, c.hosts[ts[k]], op))
  {
    seq(|ts|, k requires 0 <= k < |ts| => Call(Hostname(c, ts[k]), OpCommand(c.fsname, c.hosts[ts[k]], op)))
  }

  /** One more target adds its call at the end of the log. */
  lemma TargetCallsSnoc(c: Cluster, op: HostOp, ts: seq<nat>, t: nat, log: seq<Call>, log1: seq<Call>)
    requires forall k :: 0 <= k < |ts| ==> ts[k] < |c.hosts|
    requires t < |c.hosts|
    requires log1 == log + TargetCalls(c, op, ts)
    ensures log1 + [Call(Hostname(c, t), OpCommand(c.fsname, c.hosts[t], op))] == log + TargetCalls(c, op, ts + [t])
  {
    var x := Call(Hostname(c, t), OpCommand(c.fsname, c.hosts[t], op));
    assert TargetCalls(c, op, ts + [t]) == TargetCalls(c, op, ts) + [x];
    AppendAssoc(log, TargetCalls(c, op, ts), [x]);
  }

  /** A log holding the calls for a prefix of the targets. */
  lemma CallsOfPrefix(c: Cluster, op: HostOp, part: seq<nat>, ts: seq<nat>, log: seq<Call>, log1: seq<Call>)
    requires forall k :: 0 <= k < |ts| ==> ts[k] < |c.hosts|
    requires |part| <= |ts| && ts[..|part|] == part
    requires log1 == log + TargetCalls(c, op, part)
    ensures |log| <= |log1| <= |log| + |ts| && |log1| - |log| == |part|
    ensures log1 == log + TargetCalls(c, op, ts[..|log1| - |log|])
  {
  }

  /** A broadcast over the targets `ts` that stops at the first failure
      left `newLog`: a prefix of the targets got the command, in order,
      and every one of them but the last succeeded; when the prefix is not
      all the targets, the last one reached failed. */
  predicate Broadcast(c: Cluster, op: HostOp, ts: seq<nat>, oracle: Oracle, log: seq<Call>, newLog: seq<Call>)
    requires forall k :: 0 <= k < |ts| ==> ts[k] < |c.hosts|
  {
    && |log| <= |newLog| <= |log| + |ts|
    && newLog == log + TargetCalls(c, op, ts[..|newLog| - |log|])
    && (forall p :: |log| <= p < |newLog| - 1 ==> OpSucceeded(op, oracle(p)))
    && (|newLog| < |log| + |ts| ==> |log| < |newLog| && !OpSucceeded(op, oracle(|newLog| - 1)))
  }

  /** Every target got the command and every one succeeded. */
  predicate AllSucceeded(op: HostOp, ts: seq<nat>, oracle: Oracle, log: seq<Call>, newLog: seq<Call>) {
    |newLog| == |log| + |ts| && forall p :: |log| <= p < |newLog| ==> OpSucceeded(op, oracle(p))
  }

  /** A broadcast that reached every target with success. */
  lemma BroadcastDone(c: Cluster, op: HostOp, ts: seq<nat>, oracle: Oracle, log: seq<Call>, newLog: seq<Call>)
    requires forall k :: 0 <= k < |ts| ==> ts[k] < |c.hosts|
    requires newLog == log + TargetCalls(c, op, ts)
    requires forall p :: |log| <= p < |newLog| ==> OpSucceeded(op, oracle(p))
    ensures Broadcast(c, op, ts, oracle, log, newLog) && AllSucceeded(op, ts, oracle, log, newLog)
  {
    assert ts[..|newLog| - |log|] == ts;
  }

  /** A broadcast that stopped at a failure on target `t`, which follows
      the targets `part` that all succeeded; `part` and `t` are a prefix of
      all targets `ts`. */
  lemma BroadcastStopped(c: Cluster, op: HostOp, part: seq<nat>, t: nat, ts: seq<nat>, oracle: Oracle,
                         log: seq<Call>, newLog: seq<Call>, log1: seq<Call>)
    requires forall k :: 0 <= k < |ts| ==> ts[k] < |c.hosts|
    requires |part| < |ts| && ts[..|part| + 1] == part + [t]
    requires t < |c.hosts| && forall k :: 0 <= k < |part| ==> part[k] < |c.hosts|
    requires newLog == log + TargetCalls(c, op, part)
    requires log1 == newLog + [Call(Hostname(c, t), OpCommand(c.fsname, c.hosts[t], op))]
    requires forall p :: |log| <= p < |newLog| ==> OpSucceeded(op, oracle(p))
    requires !OpSucceeded(op, oracle(|newLog|))
    ensures Broadcast(c, op, ts, oracle, log, log1) && !AllSucceeded(op, ts, oracle, log, log1)
  {
    TargetCallsSnoc(c, op, part, t, log, newLog);
    CallsOfPrefix(c, op, part + [t], ts, log, log1);
  }

  /** The OSS-wide operations (`lc_enable_tbf_for_ost_io`,
      `lc_enable_fifo_for_ost_io`, `lc_start_tbf_rule`,
      `lc_change_tbf_rate`, `lc_check_cpt_for_oss`,
      `lc_enable_fake_io_for_oss`): the operation runs on the OSS hosts in
      order, once per host name, until one fails; 0 iff every one was
      reached and succeeded. */
  method OssBroadcast(c: Cluster, op: HostOp, oracle: Oracle, log: seq<Call>) returns (ret: int, newLog: seq<Call>)
    requires Valid(c)
    ensures ret == 0 || ret == -1
    ensures Broadcast(c, op, OssTargets(c, |c.devices|), oracle, log, newLog)
    ensures ret == 0 <==> AllSucceeded(op, OssTargets(c, |c.devices|), oracle, log, newLog)
    ensures ret != 0 ==> |log| < |newLog| && !OpSucceeded(op, oracle(|newLog| - 1))
  {
    var seen: seq<string> := [];
    newLog := log;
    var i := 0;
    while i < |c.devices|
      invariant 0 <= i <= |c.devices|
      invariant OssSoFar(c, op, oracle, log, i, seen, newLog)
    {
      var failed, seen1, log1 := OssNext(c, op, i, seen, oracle, log, newLog);
      if failed {
        return -1, log1;
      }
      seen, newLog := seen1, log1;
      i := i + 1;
    }
    BroadcastDone(c, op, OssTargets(c, i), oracle, log, newLog);
    ret := 0;
  }

  /** The state of an OSS-wide operation after `i` devices: the host names
      reached so far, and the calls on them, all successful. */
  predicate OssSoFar(c: Cluster, op: HostOp, oracle: Oracle, log: seq<Call>, i: nat, seen: seq<string>,
                     newLog: seq<Call>)
    requires Valid(c) && i <= |c.devices|
  {
    && seen == Names(c, OssTargets(c, i))
    && newLog == log + TargetCalls(c, op, OssTargets(c, i))
    && forall p :: |log| <= p < |newLog| ==> OpSucceeded(op, oracle(p))
  }

  /** One device of an OSS-wide operation: an OST whose host name has not
      been reached yet gets the command; every other device is skipped. A
      failure ends the broadcast. */
  method OssNext(c: Cluster, op: HostOp, i: nat, seen: seq<string>, oracle: Oracle, log: seq<Call>,
                 newLog: seq<Call>)
    returns (failed: bool, seen1: seq<string>, log1: seq<Call>)
    requires Valid(c) && i < |c.devices|
    requires OssSoFar(c, op, oracle, log, i, seen, newLog)
    ensures failed ==> Broadcast(c, op, OssTargets(c, |c.devices|), oracle, log, log1)
                       && !AllSucceeded(op, OssTargets(c, |c.devices|), oracle, log, log1)
    ensures !failed ==> OssSoFar(c, op, oracle, log, i + 1, seen1, log1)
  {
    var d := c.devices[i];
    if d.serviceType == Ost && Hostname(c, d.host) !in seen {
      var r := HostRun(c.fsname, c.hosts[d.host], op, oracle, newLog);
      if r.0 != 0 {
        OssReachFailed(c, op, oracle, log, i, seen, newLog, r.1);
        return true, seen, r.1;
      }
      OssReached(c, op, oracle, log, i, seen, newLog, r.1);
      return false, seen + [Hostname(c, d.host)], r.1;
    } else {
      assert OssTargets(c, i + 1) == OssTargets(c, i);
      return false, seen, newLog;
    }
  }

  /** The calls after the command reached one more OSS. */
  lemma OssReachedCalls(c: Cluster, op: HostOp, oracle: Oracle, log: seq<Call>, i: nat, seen: seq<string>,
                        newLog: seq<Call>, log1: seq<Call>)
    requires Valid(c) && i < |c.devices|
    requires OssSoFar(c, op, oracle, log, i, seen, newLog)
    requires c.devices[i].serviceType == Ost && Hostname(c, c.devices[i].host) !in seen
    requires log1 == newLog + [Call(Hostname(c, c.devices[i].host), OpCommand(c.fsname, c.hosts[c.devices[i].host], op))]
    ensures OssTargets(c, i + 1) == OssTargets(c, i) + [c.devices[i].host]
    ensures log1 == log + TargetCalls(c, op, OssTargets(c, i + 1))
  {
    var d := c.devices[i];
    assert OssTargets(c, i + 1) == OssTargets(c, i) + [d.host];
    TargetCallsSnoc(c, op, OssTargets(c, i), d.host, log, newLog);
  }

  /** The command reached one more OSS and succeeded. */
  lemma OssReached(c: Cluster, op: HostOp, oracle: Oracle, log: seq<Call>, i: nat, seen: seq<string>,
                   newLog: seq<Call>, log1: seq<Call>)
    requires Valid(c) && i < |c.devices|
    requires OssSoFar(c, op, oracle, log, i, seen, newLog)
    requires c.devices[i].serviceType == Ost && Hostname(c, c.devices[i].host) !in seen
    requires log1 == newLog + [Call(Hostname(c, c.devices[i].host), OpCommand(c.fsname, c.hosts[c.devices[i].host], op))]
    requires OpSucceeded(op, oracle(|newLog|))
    ensures OssSoFar(c, op, oracle, log, i + 1, seen + [Hostname(c, c.devices[i].host)], log1)
  {
    var d := c.devices[i];
    OssReachedCalls(c, op, oracle, log, i, seen, newLog, log1);
    assert Names(c, OssTargets(c, i) + [d.host]) == seen + [Hostname(c, d.host)];
  }

  /** The command reached one more OSS and failed. */
  lemma OssReachFailed(c: Cluster, op: HostOp, oracle: Oracle, log: seq<Call>, i: nat, seen: seq<string>,
                       newLog: seq<Call>, log1: seq<Call>)
    requires Valid(c) && i < |c.devices|
    requires OssSoFar(c, op, oracle, log, i, seen, newLog)
    requires c.devices[i].serviceType == Ost && Hostname(c, c.devices[i].host) !in seen
    requires log1 == newLog + [Call(Hostname(c, c.devices[i].host), OpCommand(c.fsname, c.hosts[c.devices[i].host], op))]
    requires !OpSucceeded(op, oracle(|newLog|))
    ensures Broadcast(c, op, OssTargets(c, |c.devices|), oracle, log, log1)
    ensures !AllSucceeded(op, OssTargets(c, |c.devices|), oracle, log, log1)
  {
    var d := c.devices[i];
    assert OssTargets(c, i + 1) == OssTargets(c, i) + [d.host];
    OssTargetsPrefix(c, i + 1, |c.devices|);
    BroadcastStopped(c, op, OssTargets(c, i), d.host, OssTargets(c, |c.devices|), oracle, log, newLog, log1);
  }

  /** `lc_set_jobid_var`: the job ID variable is set through the host of
      every MGS device, in order, until one fails; 0 iff there is an MGS
      and every one was reached and succeeded. */
  method SetJobidVarAll(c: Cluster, jobidVar: string, oracle: Oracle, log: seq<Call>)
    returns (ret: int, newLog: seq<Call>)
    requires Valid(c)
    ensures ret == 0 || ret == -1
    ensures Broadcast(c, SetJobidVar(jobidVar), MgsTargets(c, |c.devices|), oracle, log, newLog)
    ensures ret == 0 <==> |MgsTargets(c, |c.devices|)| > 0 &&
                          AllSucceeded(SetJobidVar(jobidVar), MgsTargets(c, |c.devices|), oracle, log, newLog)
    ensures ret != 0 && |MgsTargets(c, |c.devices|)| > 0 ==>
              |log| < |newLog| && !OpSucceeded(SetJobidVar(jobidVar), oracle(|newLog| - 1))
  {
    var op := SetJobidVar(jobidVar);
    var done := false;
    newLog := log;
    var i := 0;
    while i < |c.devices|
      invariant 0 <= i <= |c.devices|
      invariant done <==> |MgsTargets(c, i)| > 0
      invariant MgsSoFar(c, op, oracle, log, i, newLog)
    {
      var failed, log1 := MgsNext(c, op, i, oracle, log, newLog);
      if failed {
        return -1, log1;
      }
      done := done || c.devices[i].serviceType == Mgs;
      newLog := log1;
      i := i + 1;
    }
    BroadcastDone(c, op, MgsTargets(c, i), oracle, log, newLog);
    if !done {
      return -1, newLog;
    }
    ret := 0;
  }

  /** The state of the MGS-wide operation after `i` devices: the calls on
      the MGS hosts so far, all successful. */
  predicate MgsSoFar(c: Cluster, op: HostOp, oracle: Oracle, log: seq<Call>, i: nat, newLog: seq<Call>)
    requires Valid(c) && i <= |c.devices|
  {
    && newLog == log + TargetCalls(c, op, MgsTargets(c, i))
    && forall p :: |log| <= p < |newLog| ==> OpSucceeded(op, oracle(p))
  }

  /** One device of the MGS-wide operation: an MGS gets the command; every
      other device is skipped. A failure ends the operation. */
  method MgsNext(c: Cluster, op: HostOp, i: nat, oracle: Oracle, log: seq<Call>, newLog: seq<Call>)
    returns (failed: bool, log1: seq<Call>)
    requires Valid(c) && i < |c.devices|
    requires MgsSoFar(c, op, oracle, log, i, newLog)
    ensures |MgsTargets(c, i + 1)| > 0 <==> |MgsTargets(c, i)| > 0 || c.devices[i].serviceType == Mgs
    ensures failed ==> Broadcast(c, op, MgsTargets(c, |c.devices|), oracle, log, log1)
                       && !AllSucceeded(op, MgsTargets(c, |c.devices|), oracle, log, log1)
    ensures !failed ==> MgsSoFar(c, op, oracle, log, i + 1, log1)
  {
    var d := c.devices[i];
    if d.serviceType == Mgs {
      var r := HostRun(c.fsname, c.hosts[d.host], op, oracle, newLog);
      if r.0 != 0 {
        MgsReachFailed(c, op, oracle, log, i, newLog, r.1);
        return true, r.1;
      }
      MgsReachedCalls(c, op, oracle, log, i, newLog, r.1);
      return false, r.1;
    } else {
      assert MgsTargets(c, i + 1) == MgsTargets(c, i);
      return false, newLog;
    }
  }

  /** The calls after the command reached one more MGS. */
  lemma MgsReachedCalls(c: Cluster, op: HostOp, oracle: Oracle, log: seq<Call>, i: nat, newLog: seq<Call>,
                        log1: seq<Call>)
    requires Valid(c) && i < |c.devices|
    requires MgsSoFar(c, op, oracle, log, i, newLog)
    requires c.devices[i].serviceType == Mgs
    requires log1 == newLog + [Call(Hostname(c, c.devices[i].host), OpCommand(c.fsname, c.hosts[c.devices[i].host], op))]
    ensures MgsTargets(c, i + 1) == MgsTargets(c, i) + [c.devices[i].host]
    ensures log1 == log + TargetCalls(c, op, MgsTargets(c, i + 1))
  {
    var d := c.devices[i];
    assert MgsTargets(c, i + 1) == MgsTargets(c, i) + [d.host];
    TargetCallsSnoc(c, op, MgsTargets(c, i), d.host, log, newLog);
  }

  /** The command reached one more MGS and failed. */
  lemma MgsReachFailed(c: Cluster, op: HostOp, oracle: Oracle, log: seq<Call>, i: nat, newLog: seq<Call>,
                       log1: seq<Call>)
    requires Valid(c) && i < |c.devices|
    requires MgsSoFar(c, op, oracle, log, i, newLog)
    requires c.devices[i].serviceType == Mgs
    requires log1 == newLog + [Call(Hostname(c, c.devices[i].host), OpCommand(c.fsname, c.hosts[c.devices[i].host], op))]
    requires !OpSucceeded(op, oracle(|newLog|))
    ensures Broadcast(c, op, MgsTargets(c, |c.devices|), oracle, log, log1)
    ensures !AllSucceeded(op, MgsTargets(c, |c.devices|), oracle, log, log1)
  {
    var d := c.devices[i];
    assert MgsTargets(c, i + 1) == MgsTargets(c, i) + [d.host];
    MgsTargetsPrefix(c, i + 1, |c.devices|);
    BroadcastStopped(c, op, MgsTargets(c, i), d.host, MgsTargets(c, |c.devices|), oracle, log, newLog, log1);
  }

  /** The MGS targets for fewer devices are a prefix of those for more. */
  lemma {:induction false} MgsTargetsPrefix(c: Cluster, m: nat, n: nat)
    requires Valid(c) && m <= n <= |c.devices|
    ensures |MgsTargets(c, m)| <= |MgsTargets(c, n)|
    ensures MgsTargets(c, n)[..|MgsTargets(c, m)|] == MgsTargets(c, m)
    decreases n - m
  {
    if m < n {
      MgsTargetsPrefix(c, m, n - 1);
      MgsTargetsGrow(c, n);
      PrefixOfPrefix(MgsTargets(c, m), MgsTargets(c, n - 1), MgsTargets(c, n));
    }
  }

  /** One more device adds at most one MGS target, at the end. */
  lemma MgsTargetsGrow(c: Cluster, n: nat)
    requires Valid(c) && 0 < n <= |c.devices|
    ensures |MgsTargets(c, n - 1)| <= |MgsTargets(c, n)|
    ensures MgsTargets(c, n)[..|MgsTargets(c, n - 1)|] == MgsTargets(c, n - 1)
  {
    var prev := MgsTargets(c, n - 1);
    if c.devices[n - 1].serviceType == Mgs {
      assert (prev + [c.devices[n - 1].host])[..|prev|] == prev;
    }
  }

  /** A prefix of a prefix is a prefix. */
  lemma PrefixOfPrefix(a: seq<nat>, b: seq<nat>, t: seq<nat>)
    requires |a| <= |b| <= |t| && b[..|a|] == a && t[..|b|] == b
    ensures t[..|a|] == a
  {
    assert t[..|a|] == t[..|b|][..|a|];
  }
}

=== FILE: lustre_devices.dfy ===
/** The pure logic of `lustre_config.py`: Lustre devices and their lookup,
    numeric version codes, TBF rule names, and the reading of `lctl dl`
    lines and of the version string. */
module LustreDevices {
  import opened Common

  // ---------------------------------------------------------------------------
  // Devices
  // ---------------------------------------------------------------------------

  /** The service a Lustre device provides. */
  datatype ServiceType = Mdt | Ost | Mgs

  /** The index of a service: the text matched in an `lctl dl` line for MDTs
      and OSTs, the integer 0 for the MGS. A text never equals an integer,
      as in Python. */
  datatype ServiceIndex = Label(text: string) | Number(n: int)

  /** A `LustreDevice`; `host` is the position of the device's host in the
      cluster's host list. */
  datatype Device = Device(serviceType: ServiceType, serviceIndex: ServiceIndex, host: nat)

  predicate IsService(d: Device, t: ServiceType, i: ServiceIndex) {
    d.serviceType == t && d.serviceIndex == i
  }

  /** `find_device_in_list`: the first device of the given type and
      index, None when there is none. */
  function FindDevice(devices: seq<Device>, t: ServiceType, i: ServiceIndex): (r: Option<Device>)
    ensures r.None? <==> forall k :: 0 <= k < |devices| ==> !IsService(devices[k], t, i)
    ensures r.Some? ==> exists k :: 0 <= k < |devices| && devices[k] == r.value && IsService(devices[k], t, i)
                          && forall j :: 0 <= j < k ==> !IsService(devices[j], t, i)
    decreases |devices|
  {
    if devices == [] then None
    else if IsService(devices[0], t, i) then Some(devices[0])
    else
      var r := FindDevice(devices[1..], t, i);
      assert forall k :: 0 < k < |devices| ==> devices[k] == devices[1..][k - 1];
      r
  }

  // ---------------------------------------------------------------------------
  // version_value
  // ---------------------------------------------------------------------------

  /** Python's `|` on non-negative integers, bit by bit. */
  function BitOr(a: nat, b: nat): nat
    decreases a + b
  {
    if a == 0 then b
    else if b == 0 then a
    else 2 * BitOr(a / 2, b / 2) + (if a % 2 == 1 || b % 2 == 1 then 1 else 0)
  }

  function Pow2(k: nat): (r: nat)
    ensures r >= 1
  {
    if k == 0 then 1 else 2 * Pow2(k - 1)
  }

  /** Or-ing a number shifted left by `k` bits with one below `2^k` is
      adding them: the bits do not overlap. */
  lemma {:induction false} BitOrDisjoint(a: nat, b: nat, k: nat)
    requires b < Pow2(k)
    ensures BitOr(a * Pow2(k), b) == a * Pow2(k) + b
    decreases k
  {
    if k == 0 {
      assert b == 0;
    } else {
      var x := a * Pow2(k);
      assert x == 2 * (a * Pow2(k - 1));
      if x != 0 && b != 0 {
        assert x / 2 == a * Pow2(k - 1);
        assert x % 2 == 0;
        BitOrDisjoint(a, b / 2, k - 1);
      }
    }
  }

  /** `version_value`: `(major << 16) | (minor << 8) | patch`. For minor
      and patch levels below 256 the shifted fields do not overlap, so the
      code is `major * 65536 + minor * 256 + patch`, and each level can be
      read back from it. */
  function VersionValue(major: nat, minor: nat, patch: nat): (r: nat)
    ensures minor < 256 && patch < 256 ==> r == major * 65536 + minor * 256 + patch
    ensures minor < 256 && patch < 256 ==> r / 65536 == major && (r / 256) % 256 == minor && r % 256 == patch
  {
    if minor < 256 && patch < 256 then
      ShiftedOrLaws(major, minor, patch);
      BitOr(BitOr(major * 65536, minor * 256), patch)
    else
      BitOr(BitOr(major * 65536, minor * 256), patch)
  }

  /** The OR of the shifted levels is their sum, and each level can be
      read back from it. */
  lemma ShiftedOrLaws(major: nat, minor: nat, patch: nat)
    requires minor < 256 && patch < 256
    ensures var v := BitOr(BitOr(major * 65536, minor * 256), patch);
            && v == major * 65536 + minor * 256 + patch
            && v / 65536 == major && (v / 256) % 256 == minor && v % 256 == patch
  {
    ShiftedOrSum(major, minor, patch);
    SumDecodes(major, minor, patch);
  }

  /** The levels can be read back from their sum. */
  lemma SumDecodes(major: nat, minor: nat, patch: nat)
    requires minor < 256 && patch < 256
    ensures var v := major * 65536 + minor * 256 + patch;
            v / 65536 == major && (v / 256) % 256 == minor && v % 256 == patch
  {
    var v := major * 65536 + minor * 256 + patch;
    assert v / 65536 == major;
    assert v == (major * 256 + minor) * 256 + patch;
    assert v / 256 == major * 256 + minor;
  }

  /** The OR of the three shifted levels is their sum when minor and patch
      fit in eight bits. */
  lemma ShiftedOrSum(major: nat, minor: nat, patch: nat)
    requires minor < 256 && patch < 256
    ensures BitOr(BitOr(major * 65536, minor * 256), patch) == major * 65536 + minor * 256 + patch
  {
    assert Pow2(8) == 256 by {
      assert Pow2(4) == 16;
    }
    assert Pow2(16) == 65536 by {
      assert Pow2(12) == 4096;
    }
    BitOrDisjoint(major, minor * 256, 16);
    assert major * 65536 + minor * 256 == (major * 256 + minor) * 256;
    BitOrDisjoint(major * 256 + minor, patch, 8);
  }

  predicate InRange(minor: nat, patch: nat) { minor < 256 && patch < 256 }

  /** Lexicographic order of (major, minor, patch). */
  predicate VersionBefore(a: (nat, nat, nat), b: (nat, nat, nat)) {
    a.0 < b.0 || (a.0 == b.0 && (a.1 < b.1 || (a.1 == b.1 && a.2 < b.2)))
  }

  /** For components below 256, comparing codes is comparing versions:
      the code is order-preserving and injective. */
  lemma VersionValueOrder(a: (nat, nat, nat), b: (nat, nat, nat))
    requires InRange(a.1, a.2) && InRange(b.1, b.2)
    ensures VersionValue(a.0, a.1, a.2) < VersionValue(b.0, b.1, b.2) <==> VersionBefore(a, b)
    ensures VersionValue(a.0, a.1, a.2) == VersionValue(b.0, b.1, b.2) <==> a == b
  {
    var va := a.0 * 65536 + a.1 * 256 + a.2;
    var vb := b.0 * 65536 + b.1 * 256 + b.2;
    if a.0 < b.0 {
      assert a.0 * 65536 + 65536 <= b.0 * 65536;
    } else if a.0 > b.0 {
      assert b.0 * 65536 + 65536 <= a.0 * 65536;
    } else if a.1 < b.1 {
      assert a.1 * 256 + 256 <= b.1 * 256;
    } else if a.1 > b.1 {
      assert b.1 * 256 + 256 <= a.1 * 256;
    }
  }

  /** The version from which Lustre takes the `jobid={...} rate=` TBF
      syntax. */
  const TbfSyntaxVersion: nat := VersionValue(2, 8, 54)

  // ---------------------------------------------------------------------------
  // tbf_escape_name
  // ---------------------------------------------------------------------------

  /** ASCII letters and digits: Python 2's `isalnum` on a byte string. A
      `unicode` job name also keeps non-ASCII letters and digits, which
      this model does not. */
  predicate IsAlnum(c: char) {
    ('a' <= c <= 'z') || ('A' <= c <= 'Z') || ('0' <= c <= '9')
  }

  predicate TbfNameChar(c: char) { IsAlnum(c) || c == '_' }

  /** `tbf_escape_name`: every character that may not appear in a TBF rule
      name becomes `_`. */
  function TbfEscapeName(name: string): (r: string)
    ensures |r| == |name|
    ensures forall i :: 0 <= i < |r| ==> r[i] == (if TbfNameChar(name[i]) then name[i] else '_')
    decreases |name|
  {
    if name == [] then []
    else [if TbfNameChar(name[0]) then name[0] else '_'] + TbfEscapeName(name[1..])
  }

  /** A TBF name holds only letters, digits and `_`; an escaped name is one,
      a name that is one is left as it is, and escaping twice is escaping
      once. */
  lemma TbfEscapeNameProperties(name: string)
    ensures forall i :: 0 <= i < |TbfEscapeName(name)| ==> TbfNameChar(TbfEscapeName(name)[i])
    ensures (forall i :: 0 <= i < |name| ==> TbfNameChar(name[i])) ==> TbfEscapeName(name) == name
    ensures TbfEscapeName(TbfEscapeName(name)) == TbfEscapeName(name)
  {
  }

  // ---------------------------------------------------------------------------
  // lctl dl lines
  // ---------------------------------------------------------------------------

  /** The text before the index in an MDT line, `" UP mdt <fsname>-MDT"`. */
  function MdtMarker(fsname: string): string { " UP mdt " + fsname + "-MDT" }

  /** The text before the index in an OST line, `" UP obdfilter <fsname>-OST"`. */
  function OstMarker(fsname: string): string { " UP obdfilter " + fsname + "-OST" }

  /** The text of an MGS line. */
  const MgsMarker: string := " UP mgs MGS MGS "

  predicate MarkerAt(line: string, marker: string, p: nat) {
    p + |marker| <= |line| && line[p..p + |marker|] == marker
  }

  /** The index read when `^.+<marker>(?P<index>\S+) .+$` matches with the
      marker at position `p`: at least one character before the marker,
      then a run of non-whitespace, a blank, and at least one character
      more. The run is the longest one, since what follows it must be a
      blank. */
  function IndexAt(line: string, marker: string, p: nat): (r: Option<string>)
    ensures r.Some? ==> |r.value| > 0 && forall i :: 0 <= i < |r.value| ==> r.value[i] !in Whitespace
  {
    if 1 <= p && MarkerAt(line, marker, p) then
      var rest := line[p + |marker|..];
      var n := RunLength(rest, Whitespace);
      if 1 <= n && n + 1 < |rest| && rest[n] == ' ' then Some(rest[..n]) else None
    else None
  }

  /** The greedy `.+` of the pattern tries the last position first: the
      match uses the largest `p <= from` at which the rest matches. */
  function IndexFrom(line: string, marker: string, from: nat): Option<string>
    decreases from
  {
    if IndexAt(line, marker, from).Some? then IndexAt(line, marker, from)
    else if from == 0 then None
    else IndexFrom(line, marker, from - 1)
  }

  /** The search finds nothing iff the pattern matches at no position. */
  lemma {:induction false} IndexFromNone(line: string, marker: string, from: nat)
    ensures IndexFrom(line, marker, from).None? <==> forall p :: 0 <= p <= from ==> IndexAt(line, marker, p).None?
    decreases from
  {
    if IndexAt(line, marker, from).None? && from > 0 {
      IndexFromNone(line, marker, from - 1);
    }
  }

  /** The index an `lctl dl` line gives for `marker`, None when the line
      does not match. */
  function LineIndex(line: string, marker: string): Option<string> {
    IndexFrom(line, marker, |line|)
  }

  /** `^.+ UP mgs MGS MGS .+$`. */
  predicate IsMgsLine(line: string) {
    exists p :: 1 <= p && p + |MgsMarker| < |line| && MarkerAt(line, MgsMarker, p)
  }

  /** A line with the marker after at least one character, followed by an
      index, a blank and more text, gives that index. */
  lemma LineIndexOf(prefix: string, marker: string, index: string, tail: string)
    requires |prefix| >= 1 && |index| >= 1 && |tail| >= 1
    requires forall i :: 0 <= i < |index| ==> index[i] !in Whitespace
    requires forall q :: |prefix| < q <= |prefix + marker + index + " " + tail| ==>
               !MarkerAt(prefix + marker + index + " " + tail, marker, q)
    ensures LineIndex(prefix + marker + index + " " + tail, marker) == Some(index)
  {
    var line := prefix + marker + index + " " + tail;
    var p := |prefix|;
    assert line[p..p + |marker|] == marker;
    assert MarkerAt(line, marker, p);
    var rest := line[p + |marker|..];
    assert rest == index + " " + tail;
    assert rest[..|index|] == index;
    assert rest[|index|] == ' ';
    assert RunLength(rest, Whitespace) == |index|;
    assert rest[|index|] == ' ';
    assert IndexAt(line, marker, p) == Some(index);
    assert forall q :: p < q <= |line| ==> IndexAt(line, marker, q).None?;
    IndexFromFinds(line, marker, |line|, p);
  }

  /** The search from `from` down finds the match at `p` when there is none
      above it. */
  lemma {:induction false} IndexFromFinds(line: string, marker: string, from: nat, p: nat)
    requires p <= from
    requires IndexAt(line, marker, p).Some?
    requires forall q :: p < q <= from ==> IndexAt(line, marker, q).None?
    ensures IndexFrom(line, marker, from) == IndexAt(line, marker, p)
    decreases from
  {
    if from != p {
      IndexFromFinds(line, marker, from - 1, p);
    }
  }

  // ---------------------------------------------------------------------------
  // The Lustre version string
  // ---------------------------------------------------------------------------

  /** A Lustre version, `major.minor.patch.fix`. */
  datatype Version = Version(major: nat, minor: nat, patch: nat, fix: nat)

  predicate IsNumber(s: string) { |s| > 0 && AllDigits(s) }

  /** `^(\d+)\.(\d+)\.(\d+)\.(\d+)$` and `int` of each group: four
      non-empty digit runs separated by dots, and nothing else. */
  function ParseVersion(s: string): (r: Option<Version>)
    ensures r.Some? <==> |SplitOn(s, '.')| == 4 && forall k :: 0 <= k < 4 ==> IsNumber(SplitOn(s, '.')[k])
  {
    var parts := SplitOn(s, '.');
    if |parts| == 4 && IsNumber(parts[0]) && IsNumber(parts[1]) && IsNumber(parts[2]) && IsNumber(parts[3])
    then Some(Version(DigitsValue(parts[0]), DigitsValue(parts[1]), DigitsValue(parts[2]),
                      DigitsValue(parts[3])))
    else None
  }

  /** The text of a version. */
  function VersionString(v: Version): string {
    Join([NatToString(v.major), NatToString(v.minor), NatToString(v.patch), NatToString(v.fix)], ".")
  }

  /** Reading back the text of a version gives the version. */
  lemma ParseVersionString(v: Version)
    ensures ParseVersion(VersionString(v)) == Some(v)
  {
    var parts := [NatToString(v.major), NatToString(v.minor), NatToString(v.patch), NatToString(v.fix)];
    assert forall k, i :: 0 <= k < |parts| && 0 <= i < |parts[k]| ==> parts[k][i] != '.' by {
      forall k, i | 0 <= k < |parts| && 0 <= i < |parts[k]|
        ensures parts[k][i] != '.'
      {
        assert AllDigits(parts[k]);
      }
    }
    JoinSplitOn(parts, '.');
    NatToStringRoundTrip(v.major);
    NatToStringRoundTrip(v.minor);
    NatToStringRoundTrip(v.patch);
    NatToStringRoundTrip(v.fix);
  }
}

=== FILE: remote.dfy ===
/** Running a command on a remote host. The model does not run anything:
    the results the hosts give are an oracle, consulted in the order the
    commands are issued, and every operation returns the log of the
    commands it issued so that contracts can say which commands ran. */
module Remote {

  /** The result of one command: exit status, standard output and
      standard error (`CommandResult` of the program's `utils` module). */
  datatype CommandResult = CommandResult(exitStatus: int, stdout: string, stderr: string)

  /** One command issued on one host. */
  datatype Call = Call(hostname: string, command: string)

  /** The result the `n`-th command of a run gets. */
  type Oracle = nat -> CommandResult

  /** `sh_run`: issue `command` on `hostname`. The result is the oracle's
      answer for the next position of the log, and the log grows by that
      one call. */
  function Run(oracle: Oracle, log: seq<Call>, hostname: string, command: string)
    : (r: (CommandResult, seq<Call>))
    ensures r.1 == log + [Call(hostname, command)]
    ensures r.0 == oracle(|log|)
  {
    (oracle(|log|), log + [Call(hostname, command)])
  }

  /** The calls that issue `commands` on `hostname`, in order. */
  function CallsOn(hostname: string, commands: seq<string>): (r: seq<Call>)
    ensures |r| == |commands|
    ensures forall i :: 0 <= i < |r| ==> r[i] == Call(hostname, commands[i])
  {
    seq(|commands|, i requires 0 <= i < |commands| => Call(hostname, commands[i]))
  }
}

=== FILE: shell.dfy ===
/** Shell quoting, as `ssh_host.py` does it (`sh_escape`,
    `scp_remote_escape`), together with a model of how bash splits a command
    line into words. The word splitter is the partner the quoting functions
    are proved against: whatever `sh_escape` produces, bash reads back as
    the original text. */
module Shell {
  import opened Common

  // ---------------------------------------------------------------------------
  // sh_escape
  // ---------------------------------------------------------------------------

  /** The four characters `sh_escape` protects: inside double quotes bash
      gives them a meaning unless they are preceded by a backslash. */
  const ShSpecials: set<char> := {'\\', '$', '"', '`'}

  /** Python's `s.replace(c, r)` for a one-character pattern. */
  function ReplaceChar(s: string, c: char, r: string): string
    decreases |s|
  {
    if s == [] then [] else (if s[0] == c then r else [s[0]]) + ReplaceChar(s[1..], c, r)
  }

  /** Replacing a character that does not occur changes nothing, and a
      non-empty replacement never shortens the text. */
  lemma {:induction false} ReplaceCharKeeps(s: string, c: char, r: string)
    ensures (forall i :: 0 <= i < |s| ==> s[i] != c) ==> ReplaceChar(s, c, r) == s
    ensures |r| >= 1 ==> |ReplaceChar(s, c, r)| >= |s|
    decreases |s|
  {
    if s != [] {
      ReplaceCharKeeps(s[1..], c, r);
      assert s == [s[0]] + s[1..];
    }
  }

  /** `sh_escape`: four replacement passes, backslashes first so that the
      backslashes added by the later passes are not doubled. The result is
      meant to be put between double quotes by the caller. */
  function ShEscape(command: string): (r: string)
    ensures (forall i :: 0 <= i < |command| ==> command[i] !in ShSpecials) ==> r == command
    ensures |r| >= |command|
  {
    var a := ReplaceChar(command, '\\', "\\\\");
    var b := ReplaceChar(a, '$', "\\$");
    var c := ReplaceChar(b, '"', "\\\"");
    ReplaceCharKeeps(command, '\\', "\\\\");
    ReplaceCharKeeps(a, '$', "\\$");
    ReplaceCharKeeps(b, '"', "\\\"");
    ReplaceCharKeeps(c, '`', "\\`");
    ReplaceChar(c, '`', "\\`")
  }

  /** What one character turns into under `sh_escape`. */
  function EscapeChar(c: char): string {
    if c in ShSpecials then ['\\', c] else [c]
  }

  /** The character-by-character reading of `sh_escape`. */
  function EscapeEach(s: string): string
    decreases |s|
  {
    if s == [] then [] else EscapeChar(s[0]) + EscapeEach(s[1..])
  }

  lemma {:induction false} ReplaceCharAppend(a: string, b: string, c: char, r: string)
    ensures ReplaceChar(a + b, c, r) == ReplaceChar(a, c, r) + ReplaceChar(b, c, r)
    decreases |a|
  {
    if a == [] {
      assert a + b == b;
    } else {
      assert (a + b)[1..] == a[1..] + b;
      ReplaceCharAppend(a[1..], b, c, r);
    }
  }

  lemma ReplaceCharSingle(x: char, c: char, r: string)
    ensures ReplaceChar([x], c, r) == if x == c then r else [x]
  {
    assert [x][1..] == [];
  }

  lemma ShEscapeAppend(a: string, b: string)
    ensures ShEscape(a + b) == ShEscape(a) + ShEscape(b)
  {
    ReplaceCharAppend(a, b, '\\', "\\\\");
    var a1, b1 := ReplaceChar(a, '\\', "\\\\"), ReplaceChar(b, '\\', "\\\\");
    ReplaceCharAppend(a1, b1, '$', "\\$");
    var a2, b2 := ReplaceChar(a1, '$', "\\$"), ReplaceChar(b1, '$', "\\$");
    ReplaceCharAppend(a2, b2, '"', "\\\"");
    var a3, b3 := ReplaceChar(a2, '"', "\\\""), ReplaceChar(b2, '"', "\\\"");
    ReplaceCharAppend(a3, b3, '`', "\\`");
  }

  lemma ShEscapeChar(x: char)
    ensures ShEscape([x]) == EscapeChar(x)
  {
    if x == '\\' {
      ReplaceCharSingle(x, '\\', "\\\\");
      assert "\\\\" == ['\\'] + ['\\'];
      ReplaceCharAppend(['\\'], ['\\'], '$', "\\$");
      ReplaceCharSingle('\\', '$', "\\$");
      ReplaceCharAppend(['\\'], ['\\'], '"', "\\\"");
      ReplaceCharSingle('\\', '"', "\\\"");
      ReplaceCharAppend(['\\'], ['\\'], '`', "\\`");
      ReplaceCharSingle('\\', '`', "\\`");
    } else if x == '$' {
      ReplaceCharSingle(x, '\\', "\\\\");
      ReplaceCharSingle(x, '$', "\\$");
      assert "\\$" == ['\\'] + ['$'];
      ReplaceCharAppend(['\\'], ['$'], '"', "\\\"");
      ReplaceCharSingle('\\', '"', "\\\"");
      ReplaceCharSingle('$', '"', "\\\"");
      ReplaceCharAppend(['\\'], ['$'], '`', "\\`");
      ReplaceCharSingle('\\', '`', "\\`");
      ReplaceCharSingle('$', '`', "\\`");
    } else if x == '"' {
      ReplaceCharSingle(x, '\\', "\\\\");
      ReplaceCharSingle(x, '$', "\\$");
      ReplaceCharSingle(x, '"', "\\\"");
      assert "\\\"" == ['\\'] + ['"'];
      ReplaceCharAppend(['\\'], ['"'], '`', "\\`");
      ReplaceCharSingle('\\', '`', "\\`");
      ReplaceCharSingle('"', '`', "\\`");
    } else {
      ReplaceCharSingle(x, '\\', "\\\\");
      ReplaceCharSingle(x, '$', "\\$");
      ReplaceCharSingle(x, '"', "\\\"");
      ReplaceCharSingle(x, '`', "\\`");
    }
  }

  /** The four sequential passes of `sh_escape` amount to prefixing each of
      the four special characters with one backslash and leaving every other
      character alone. */
  lemma {:induction false} ShEscapeIsPerChar(s: string)
    ensures ShEscape(s) == EscapeEach(s)
    decreases |s|
  {
    if s == [] {
    } else {
      assert s == [s[0]] + s[1..];
      ShEscapeAppend([s[0]], s[1..]);
      ShEscapeChar(s[0]);
      ShEscapeIsPerChar(s[1..]);
    }
  }

  lemma {:induction false} EscapeEachLength(s: string)
    ensures |EscapeEach(s)| == |s| + Count(s, ShSpecials)
    decreases |s|
  {
    if s != [] {
      EscapeEachLength(s[1..]);
    }
  }

  /** Length law of `sh_escape`: one extra character per special character. */
  lemma ShEscapeLength(s: string)
    ensures |ShEscape(s)| == |s| + Count(s, ShSpecials)
  {
    ShEscapeIsPerChar(s);
    EscapeEachLength(s);
  }

  // ---------------------------------------------------------------------------
  // How bash reads a command line
  // ---------------------------------------------------------------------------

  /** Reads the body of a double-quoted word the way bash does, up to the
      closing quote. A backslash drops out before one of the four special
      characters, joins lines before a newline, and stays otherwise. Gives
      the value and the text after the closing quote; None for an unescaped
      `$` or backquote (an expansion, outside this model) or a missing
      closing quote. */
  function ReadDoubleQuoted(t: string): (r: Option<(string, string)>)
    ensures r.Some? ==> |r.value.1| < |t|
    decreases |t|
  {
    if t == [] then None
    else if t[0] == '"' then Some(([], t[1..]))
    else if t[0] == '$' || t[0] == '`' then None
    else if t[0] == '\\' then
      if |t| == 1 then None
      else
        var kept := if t[1] in ShSpecials then [t[1]] else if t[1] == '\n' then [] else ['\\', t[1]];
        match ReadDoubleQuoted(t[2..])
        case None => None
        case Some(p) => Some((kept + p.0, p.1))
    else
      match ReadDoubleQuoted(t[1..])
      case None => None
      case Some(p) => Some(([t[0]] + p.0, p.1))
  }

  /** Reads the body of a single-quoted word: everything up to the next
      single quote is literal. */
  function ReadSingleQuoted(t: string): (r: Option<(string, string)>)
    ensures r.Some? ==> |r.value.1| < |t|
    decreases |t|
  {
    if t == [] then None
    else if t[0] == '\'' then Some(([], t[1..]))
    else
      match ReadSingleQuoted(t[1..])
      case None => None
      case Some(p) => Some(([t[0]] + p.0, p.1))
  }

  /** Blanks separate words. */
  const Blanks: set<char> := {' ', '\t'}

  /** Characters that bash would treat as an operator, an expansion or a
      glob when unquoted; the word splitter gives up (None) on them. */
  const Meta: set<char> :=
    {'\n', '$', '`', '|', '&', ';', '<', '>', '(', ')', '*', '?', '[', ']', '{', '}', '!'}

  /** Characters that start a comment or a tilde expansion at the start of
      a word. */
  const WordStart: set<char> := {'#', '~'}

  /** A character that stands for itself anywhere outside quotes. */
  predicate PlainChar(c: char) {
    c !in Meta && c !in Blanks && c !in WordStart && c != '\\' && c != '"' && c != '\''
  }

  /** A word bash passes through unchanged. */
  predicate PlainWord(w: string) {
    |w| > 0 && forall i :: 0 <= i < |w| ==> PlainChar(w[i])
  }

  function Cons(w: string, r: Option<seq<string>>): Option<seq<string>> {
    match r
    case None => None
    case Some(ws) => Some([w] + ws)
  }

  function Prepend(ws: seq<string>, r: Option<seq<string>>): Option<seq<string>> {
    match r
    case None => None
    case Some(vs) => Some(ws + vs)
  }

  /** How bash splits `s` into the argument words of a simple command.
      `acc` is the word read so far and `inWord` says whether one has
      started (a pair of empty quotes starts a word too). None when the
      text leaves the part of the shell language this model covers. */
  function Lex(s: string, acc: string, inWord: bool): Option<seq<string>>
    decreases |s|
  {
    if s == [] then Some(if inWord then [acc] else [])
    else if s[0] in Blanks then
      var rest := Lex(s[1..], [], false);
      if inWord then Cons(acc, rest) else rest
    else if s[0] == '\\' then
      if |s| == 1 then None
      else if s[1] == '\n' then Lex(s[2..], acc, inWord)
      else Lex(s[2..], acc + [s[1]], true)
    else if s[0] == '"' then
      match ReadDoubleQuoted(s[1..])
      case None => None
      case Some(p) => Lex(p.1, acc + p.0, true)
    else if s[0] == '\'' then
      match ReadSingleQuoted(s[1..])
      case None => None
      case Some(p) => Lex(p.1, acc + p.0, true)
    else if s[0] in Meta || (s[0] in WordStart && !inWord) then None
    else Lex(s[1..], acc + [s[0]], true)
  }

  /** The words of a whole command line. */
  function Words(s: string): Option<seq<string>> {
    Lex(s, [], false)
  }

  /** Whatever `sh_escape` makes of a text, bash reads it back as that text
      when it is put between double quotes: the closing quote is found right
      after the escaped text, and the quoted value is the original. */
  lemma {:induction false} ShEscapeReadsBack(s: string, rest: string)
    ensures ReadDoubleQuoted(ShEscape(s) + "\"" + rest) == Some((s, rest))
  {
    ShEscapeIsPerChar(s);
    EscapeEachReadsBack(s, rest);
  }

  lemma {:induction false} EscapeEachReadsBack(s: string, rest: string)
    ensures ReadDoubleQuoted(EscapeEach(s) + "\"" + rest) == Some((s, rest))
    decreases |s|
  {
    if s == [] {
      assert EscapeEach(s) + "\"" + rest == ['"'] + rest;
    } else {
      var tail := EscapeEach(s[1..]) + "\"" + rest;
      EscapeEachReadsBack(s[1..], rest);
      EscapeEachCons(s, "\"" + rest);
      AppendAssoc(EscapeEach(s), "\"", rest);
      AppendAssoc(EscapeEach(s[1..]), "\"", rest);
      if s[0] in ShSpecials {
        ReadEscapedStep(s[0], tail, s[1..], rest);
      } else {
        ReadPlainStep(s[0], tail, s[1..], rest);
      }
      assert [s[0]] + s[1..] == s;
    }
  }

  /** The escaped text followed by `t`, split after its first character's
      escape. */
  lemma EscapeEachCons(s: string, t: string)
    requires s != []
    ensures EscapeEach(s) + t == EscapeChar(s[0]) + (EscapeEach(s[1..]) + t)
  {
    AppendAssoc(EscapeChar(s[0]), EscapeEach(s[1..]), t);
  }

  /** Inside double quotes, a backslash before a special character stands
      for that character. */
  lemma ReadEscapedStep(c: char, tail: string, v: string, rest: string)
    requires c in ShSpecials && ReadDoubleQuoted(tail) == Some((v, rest))
    ensures ReadDoubleQuoted(['\\', c] + tail) == Some(([c] + v, rest))
  {
    assert (['\\', c] + tail)[2..] == tail;
  }

  /** Inside double quotes, a character that is not special stands for
      itself. */
  lemma ReadPlainStep(c: char, tail: string, v: string, rest: string)
    requires c !in ShSpecials && ReadDoubleQuoted(tail) == Some((v, rest))
    ensures ReadDoubleQuoted([c] + tail) == Some(([c] + v, rest))
  {
    assert ([c] + tail)[1..] == tail;
  }

  /** `sh_escape` loses nothing: different texts escape differently. */
  lemma ShEscapeInjective(a: string, b: string)
    ensures ShEscape(a) == ShEscape(b) ==> a == b
  {
    ShEscapeReadsBack(a, "");
    ShEscapeReadsBack(b, "");
  }

  lemma {:induction false} LexPlain(w: string, t: string, acc: string, inWord: bool)
    requires forall i :: 0 <= i < |w| ==> PlainChar(w[i])
    ensures Lex(w + t, acc, inWord) == Lex(t, acc + w, inWord || w != [])
    decreases |w|
  {
    if w == [] {
      assert w + t == t;
      assert acc + w == acc;
    } else {
      assert (w + t)[0] == w[0];
      assert (w + t)[1..] == w[1..] + t;
      LexPlain(w[1..], t, acc + [w[0]], true);
      assert acc + [w[0]] + w[1..] == acc + w;
    }
  }

  lemma LexBlank(t: string, acc: string, inWord: bool)
    ensures Lex(" " + t, acc, inWord) ==
            (if inWord then Cons(acc, Lex(t, [], false)) else Lex(t, [], false))
  {
    assert (" " + t)[1..] == t;
  }

  /** Two fields of a command line separated by one blank, as in a Python
      format string `"%s %s"`. */
  function Spaced(a: string, b: string): string {
    a + " " + b
  }

  /** A plain word followed by a blank is one word of its own. */
  lemma LexWordThen(w: string, t: string)
    requires PlainWord(w)
    ensures Lex(Spaced(w, t), [], false) == Cons(w, Lex(t, [], false))
  {
    assert w + " " + t == w + (" " + t);
    LexPlain(w, " " + t, [], false);
    assert [] + w == w;
    LexBlank(t, w, true);
  }

  /** A run of plain words separated by single blanks is read word by word. */
  lemma {:induction false} LexJoin(ws: seq<string>, t: string)
    requires forall k :: 0 <= k < |ws| ==> PlainWord(ws[k])
    ensures Lex(Join(ws, " ") + " " + t, [], false) == Prepend(ws, Lex(t, [], false))
    decreases |ws|
  {
    if |ws| == 0 {
      LexBlank(t, [], false);
      assert Join(ws, " ") + " " + t == " " + t;
      match Lex(t, [], false)
      case None =>
      case Some(vs) => assert ws + vs == vs;
    } else if |ws| == 1 {
      LexWordThen(ws[0], t);
      match Lex(t, [], false)
      case None =>
      case Some(vs) => assert ws + vs == [ws[0]] + vs;
    } else {
      var tail := Join(ws[1..], " ") + " " + t;
      assert Join(ws, " ") + " " + t == ws[0] + " " + tail;
      LexWordThen(ws[0], tail);
      LexJoin(ws[1..], t);
      match Lex(t, [], false)
      case None =>
      case Some(vs) => assert ws + vs == [ws[0]] + (ws[1..] + vs);
    }
  }

  /** An empty field leaves two blanks in a row, which bash reads as one. */
  lemma LexField(field: string, t: string)
    requires field == [] || PlainWord(field)
    ensures Lex(Spaced(field, t), [], false)
            == (if field == [] then Lex(t, [], false) else Cons(field, Lex(t, [], false)))
  {
    if field == [] {
      assert Spaced(field, t) == " " + t;
      LexBlank(t, [], false);
    } else {
      LexWordThen(field, t);
    }
  }

  /** An escaped command between double quotes, at the end of a command
      line, is one word whose value is the command. */
  lemma LexQuoted(command: string)
    ensures Lex("\"" + ShEscape(command) + "\"", [], false) == Some([command])
  {
    var s := "\"" + ShEscape(command) + "\"";
    ShEscapeReadsBack(command, "");
    assert s[1..] == ShEscape(command) + "\"" + "";
    assert [] + command == command;
  }

  // ---------------------------------------------------------------------------
  // scp_remote_escape
  // ---------------------------------------------------------------------------

  /** The escape set of `scp_remote_escape`. */
  const ScpEscapeChars: set<char> :=
    {' ', '!', '"', '$', '&', '\'', '(', ')', '*', ',', ':', ';', '<', '=', '>',
     '?', '[', '\\', ']', '^', '`', '{', '|', '}'}

  /** The loop of `scp_remote_escape`: a backslash before every character of
      `escape`. */
  function BackslashEach(filename: string, escape: set<char>): string
    decreases |filename|
  {
    if filename == [] then []
    else (if filename[0] in escape then ['\\', filename[0]] else [filename[0]])
         + BackslashEach(filename[1..], escape)
  }

  /** `scp_remote_escape`: quote once for the remote shell, then once more
      for the local double quotes. */
  function ScpRemoteEscape(filename: string): (r: string)
    ensures (forall i :: 0 <= i < |filename| ==> filename[i] !in ScpEscapeChars) ==> r == filename
    ensures |r| >= |filename|
  {
    BackslashEachKeeps(filename, ScpEscapeChars);
    ShEscape(BackslashEach(filename, ScpEscapeChars))
  }

  /** A name without characters of the escape set is left as it is, and
      escaping never shortens a name. */
  lemma {:induction false} BackslashEachKeeps(filename: string, escape: set<char>)
    ensures (forall i :: 0 <= i < |filename| ==> filename[i] !in escape) ==> BackslashEach(filename, escape) == filename
    ensures |BackslashEach(filename, escape)| >= |filename|
    decreases |filename|
  {
    if filename != [] {
      BackslashEachKeeps(filename[1..], escape);
      assert filename == [filename[0]] + filename[1..];
    }
  }

  lemma {:induction false} BackslashEachAppend(a: string, b: string, escape: set<char>)
    ensures BackslashEach(a + b, escape) == BackslashEach(a, escape) + BackslashEach(b, escape)
    decreases |a|
  {
    if a == [] {
      assert a + b == b;
    } else {
      assert (a + b)[1..] == a[1..] + b;
      BackslashEachAppend(a[1..], b, escape);
    }
  }

  /** `scp_remote_escape` works character by character, and a character
      outside the escape set comes out unchanged. */
  lemma ScpRemoteEscapeAppend(a: string, b: string)
    ensures ScpRemoteEscape(a + b) == ScpRemoteEscape(a) + ScpRemoteEscape(b)
  {
    BackslashEachAppend(a, b, ScpEscapeChars);
    ShEscapeAppend(BackslashEach(a, ScpEscapeChars), BackslashEach(b, ScpEscapeChars));
  }

  lemma ScpRemoteEscapeChar(c: char)
    ensures c !in ScpEscapeChars ==> ScpRemoteEscape([c]) == [c]
    ensures c in ScpEscapeChars && c !in ShSpecials ==> ScpRemoteEscape([c]) == ['\\', '\\', c]
    ensures c in ShSpecials ==> ScpRemoteEscape([c]) == ['\\', '\\', '\\', c]
  {
    assert [c][1..] == [];
    var inner := BackslashEach([c], ScpEscapeChars);
    assert inner == (if c in ScpEscapeChars then ['\\', c] else [c]) + BackslashEach([], ScpEscapeChars);
    ShEscapeIsPerChar(inner);
    if c in ScpEscapeChars {
      assert inner == ['\\', c];
      assert EscapeEach(inner) == EscapeChar('\\') + EscapeEach([c]);
      assert EscapeEach([c]) == EscapeChar(c) + EscapeEach([]);
    } else {
      assert inner == [c];
      assert EscapeEach(inner) == EscapeChar(c) + EscapeEach([]);
    }
  }

  lemma {:induction false} BackslashEachLength(s: string, escape: set<char>)
    ensures |BackslashEach(s, escape)| == |s| + Count(s, escape)
    decreases |s|
  {
    if s != [] {
      BackslashEachLength(s[1..], escape);
    }
  }

  lemma {:induction false} CountBackslashEach(s: string)
    ensures Count(BackslashEach(s, ScpEscapeChars), ShSpecials)
            == Count(s, ScpEscapeChars) + Count(s, ShSpecials)
    decreases |s|
  {
    if s != [] {
      var head := if s[0] in ScpEscapeChars then ['\\', s[0]] else [s[0]];
      assert BackslashEach(s, ScpEscapeChars) == head + BackslashEach(s[1..], ScpEscapeChars);
      CountAppend(head, BackslashEach(s[1..], ScpEscapeChars), ShSpecials);
      CountBackslashEach(s[1..]);
      if s[0] in ScpEscapeChars {
        assert head[1..][1..] == [];
      } else {
        assert head[1..] == [];
      }
    }
  }

  /** Length law of `scp_remote_escape`: a character of the escape set costs
      two extra characters (its own backslash, doubled by `sh_escape`), and
      one more if it is itself special to `sh_escape`. */
  lemma ScpRemoteEscapeLength(s: string)
    ensures |ScpRemoteEscape(s)| == |s| + 2 * Count(s, ScpEscapeChars) + Count(s, ShSpecials)
  {
    var inner := BackslashEach(s, ScpEscapeChars);
    ShEscapeLength(inner);
    BackslashEachLength(s, ScpEscapeChars);
    CountBackslashEach(s);
  }

  /** The local shell hands the remote one exactly the backslash-escaped
      file name. */
  lemma ScpRemoteEscapeLocalValue(filename: string, rest: string)
    ensures ReadDoubleQuoted(ScpRemoteEscape(filename) + "\"" + rest)
            == Some((BackslashEach(filename, ScpEscapeChars), rest))
  {
    ShEscapeReadsBack(BackslashEach(filename, ScpEscapeChars), rest);
  }

  /** Every character of `name` is one the remote shell keeps as it is
      once `escape` has been applied: it is not a newline, and a blank,
      an operator, a quote or a backslash is in the escape set. */
  predicate RemoteSafe(name: string, escape: set<char>) {
    forall i :: 0 <= i < |name| ==>
      && name[i] != '\n'
      && (name[i] in Blanks || name[i] in Meta || name[i] in {'\\', '"', '\''} ==> name[i] in escape)
  }

  /** The first character of a word does not start a comment or a tilde
      expansion once `escape` has been applied. */
  predicate RemoteSafeStart(name: string, escape: set<char>) {
    |name| > 0 && name[0] in WordStart ==> name[0] in escape
  }

  /** The escape set `scp_remote_escape` evidently intends: that of the
      program plus the tab, which separates words, and `#` and `~`, which
      start a comment or a tilde expansion at the start of a word. */
  const ScpEscapeCharsFixed: set<char> := ScpEscapeChars + {'\t', '#', '~'}

  /** `scp_remote_escape` with the corrected escape set. */
  function ScpRemoteEscapeFixed(filename: string): string {
    ShEscape(BackslashEach(filename, ScpEscapeCharsFixed))
  }

  /** With the corrected escape set, every name without a newline is one
      the remote shell keeps as it is, its first character included. */
  lemma RemoteSafeFixed(name: string)
    requires forall i :: 0 <= i < |name| ==> name[i] != '\n'
    ensures RemoteSafe(name, ScpEscapeCharsFixed) && RemoteSafeStart(name, ScpEscapeCharsFixed)
  {
  }

  /** The remote shell reads a backslash-escaped name back as the name. */
  lemma {:induction false} LexBackslashEach(name: string, escape: set<char>, t: string,
                                            acc: string, inWord: bool)
    requires RemoteSafe(name, escape)
    requires !inWord ==> RemoteSafeStart(name, escape)
    ensures Lex(BackslashEach(name, escape) + t, acc, inWord)
            == Lex(t, acc + name, inWord || name != [])
    decreases |name|
  {
    if name == [] {
      assert BackslashEach(name, escape) + t == t;
      assert acc + name == acc;
    } else {
      var c := name[0];
      var rest := BackslashEach(name[1..], escape) + t;
      if c in escape {
        assert BackslashEach(name, escape) + t == ['\\', c] + rest;
        assert (['\\', c] + rest)[2..] == rest;
      } else {
        assert BackslashEach(name, escape) + t == [c] + rest;
        assert ([c] + rest)[1..] == rest;
      }
      LexBackslashEach(name[1..], escape, t, acc + [c], true);
      assert acc + [c] + name[1..] == acc + name;
    }
  }
}

=== FILE: ssh_commands.dfy ===
/** The command lines `ssh_host.py` builds for ssh, scp and rsync, and the
    word lists bash makes of them. Each builder is paired with a lemma that
    says which argument words the program started by the command line
    receives. */
module SshCommands {
  import opened Common
  import opened Shell

  /** The login `ssh_command` uses when none is given. */
  const DefaultLogin: string := "root"

  /** The fixed option words of the ssh, scp and rsync command lines are
      plain words. */
  lemma SshWordsPlain()
    ensures PlainWord("ssh") && PlainWord("-l") && PlainWord("-o") && PlainWord("-i")
  {
  }

  lemma StrictWordPlain()
    ensures PlainWord("StrictHostKeyChecking=no")
  {
  }

  lemma ScpWordsPlain()
    ensures PlainWord("scp") && PlainWord("-rqp")
  {
  }

  lemma RsyncWordsPlain()
    ensures PlainWord("rsync") && PlainWord("-L") && PlainWord("--delete")
  {
  }

  lemma TimeoutWordPlain()
    ensures PlainWord("--timeout=1800")
  {
  }

  lemma ArchiveWordPlain()
    ensures PlainWord("-az")
  {
  }

  /** The `-i <file>` option of `ssh_command`, empty without an identity
      file. */
  function ExtraOption(identityFile: Option<string>): string {
    match identityFile
    case None => ""
    case Some(f) => Spaced("-i", f)
  }

  /** A text between double quotes. */
  function DoubleQuoted(body: string): string {
    "\"" + body + "\""
  }

  /** `ssh_command`: the fields of its format string, separated by single
      blanks; the remote command is escaped and put between double quotes,
      and `-i <file>` is filled in only when an identity file is given. */
  function SshCommand(hostname: string, command: string, loginName: string,
                      identityFile: Option<string>): string
  {
    Join(["ssh", hostname, "-l", loginName, "-o", "StrictHostKeyChecking=no",
          ExtraOption(identityFile), DoubleQuoted(ShEscape(command))], " ")
  }

  /** The words `-i <file>` contributes to an ssh command line. */
  function IdentityWords(identityFile: Option<string>): seq<string> {
    match identityFile
    case None => []
    case Some(f) => ["-i", f]
  }

  lemma SshTailWords(command: string, identityFile: Option<string>)
    requires identityFile.Some? ==> PlainWord(identityFile.value)
    ensures Lex(Spaced(ExtraOption(identityFile), DoubleQuoted(ShEscape(command))), [], false)
            == Some(IdentityWords(identityFile) + [command])
  {
    SshWordsPlain();
    var q := DoubleQuoted(ShEscape(command));
    LexQuoted(command);
    match identityFile {
      case None =>
        LexField("", q);
        assert IdentityWords(identityFile) + [command] == [command];
      case Some(f) =>
        LexWordThen(f, q);
        assert Spaced(ExtraOption(identityFile), q) == Spaced("-i", Spaced(f, q));
        LexWordThen("-i", Spaced(f, q));
        assert IdentityWords(identityFile) + [command] == ["-i"] + ([f] + [command]);
    }
  }

  /** Two fields joined by a blank. */
  lemma JoinTwo(a: string, b: string)
    ensures Join([a, b], " ") == Spaced(a, b)
  {
    assert [a, b][1..] == [b];
  }

  /** ssh receives its fixed options, `-i <file>` exactly when an identity
      file is given, and the user's command, intact, as its last argument. */
  lemma SshCommandWords(hostname: string, command: string, loginName: string,
                        identityFile: Option<string>)
    requires PlainWord(hostname) && PlainWord(loginName)
    requires identityFile.Some? ==> PlainWord(identityFile.value)
    ensures Words(SshCommand(hostname, command, loginName, identityFile))
            == Some(["ssh", hostname, "-l", loginName, "-o", "StrictHostKeyChecking=no"]
                    + IdentityWords(identityFile) + [command])
  {
    SshWordsPlain();
    StrictWordPlain();
    var head := ["ssh", hostname, "-l", loginName, "-o", "StrictHostKeyChecking=no"];
    var extra := ExtraOption(identityFile);
    var q := DoubleQuoted(ShEscape(command));
    assert head + [extra, q] == ["ssh", hostname, "-l", loginName, "-o", "StrictHostKeyChecking=no", extra, q];
    JoinAppend(head, [extra, q], " ");
    JoinTwo(extra, q);
    LexJoin(head, Spaced(extra, q));
    SshTailWords(command, identityFile);
    assert head + (IdentityWords(identityFile) + [command]) == head + IdentityWords(identityFile) + [command];
  }

  /** A text between single quotes. */
  function SingleQuoted(body: string): string {
    "'" + body + "'"
  }

  /** `sh_make_scp_cmd`: the sources (remote ones already encoded) joined by
      blanks, then the destination between single quotes. */
  function ScpCmd(sources: seq<string>, dest: string): string {
    Join(["scp", "-rqp", "-o", "StrictHostKeyChecking=no", Join(sources, " "), SingleQuoted(dest)], " ")
  }

  lemma {:induction false} ReadSingleQuotedBack(v: string, rest: string)
    requires forall i :: 0 <= i < |v| ==> v[i] != '\''
    ensures ReadSingleQuoted(v + "'" + rest) == Some((v, rest))
    decreases |v|
  {
    if v == [] {
      assert v + "'" + rest == ['\''] + rest;
    } else {
      assert (v + "'" + rest)[1..] == v[1..] + "'" + rest;
      ReadSingleQuotedBack(v[1..], rest);
      assert [v[0]] + v[1..] == v;
    }
  }

  /** A single-quoted text, followed by the rest of the line, joins the word
      being read. */
  lemma LexSingleQuoted(v: string, t: string, acc: string, inWord: bool)
    requires forall i :: 0 <= i < |v| ==> v[i] != '\''
    ensures Lex(SingleQuoted(v) + t, acc, inWord) == Lex(t, acc + v, true)
  {
    ReadSingleQuotedBack(v, t);
    assert (SingleQuoted(v) + t)[1..] == v + "'" + t;
  }

  /** scp receives its fixed options, each source word, and the destination
      as one last argument. */
  lemma ScpCmdWords(sources: seq<string>, dest: string)
    requires forall k :: 0 <= k < |sources| ==> PlainWord(sources[k])
    requires forall i :: 0 <= i < |dest| ==> dest[i] != '\''
    ensures Words(ScpCmd(sources, dest))
            == Some(["scp", "-rqp", "-o", "StrictHostKeyChecking=no"] + sources + [dest])
  {
    ScpWordsPlain();
    StrictWordPlain();
    SshWordsPlain();
    var head := ["scp", "-rqp", "-o", "StrictHostKeyChecking=no"];
    var j := Join(sources, " ");
    var q := SingleQuoted(dest);
    assert head + [j, q] == ["scp", "-rqp", "-o", "StrictHostKeyChecking=no", j, q];
    JoinAppend(head, [j, q], " ");
    JoinTwo(j, q);
    LexJoin(head, Spaced(j, q));
    LexSingleQuoted(dest, "", [], false);
    assert q + "" == q;
    assert [] + dest == dest;
    LexJoin(sources, q);
    assert head + (sources + [dest]) == head + sources + [dest];
  }

  /** The remote shell rsync is told to use. */
  const RsyncShell: string := "ssh"

  /** `sh_make_rsync_cmd`: `-L` unless symlinks are preserved, `--delete`
      when the destination is to be cleaned, the fixed options, then the
      sources (joined by blanks) and the destination, remote ones already
      encoded. */
  function RsyncCmd(sources: seq<string>, dest: string, deleteDest: bool,
                    preserveSymlinks: bool): string
  {
    var deleteFlag := if deleteDest then "--delete" else "";
    var symlinkFlag := if preserveSymlinks then "" else "-L";
    Join(["rsync", symlinkFlag, deleteFlag, "--timeout=1800", "--rsh=" + SingleQuoted(RsyncShell),
          "-az", Join(sources, " "), dest], " ")
  }

  /** The option words of an rsync command line. */
  function RsyncOptionWords(deleteDest: bool, preserveSymlinks: bool): seq<string> {
    (if preserveSymlinks then [] else ["-L"])
    + (if deleteDest then ["--delete"] else [])
    + ["--timeout=1800", "--rsh=ssh", "-az"]
  }

  /** The `--rsh='ssh'` option is the one word `--rsh=ssh`. */
  lemma LexRshOption(t: string)
    ensures Lex(Spaced("--rsh=" + SingleQuoted(RsyncShell), t), [], false)
            == Cons("--rsh=ssh", Lex(t, [], false))
  {
    assert Spaced("--rsh=" + SingleQuoted(RsyncShell), t)
           == "--rsh=" + (SingleQuoted(RsyncShell) + (" " + t));
    LexPlain("--rsh=", SingleQuoted(RsyncShell) + (" " + t), [], false);
    LexSingleQuoted(RsyncShell, " " + t, [] + "--rsh=", true);
    assert [] + "--rsh=" + RsyncShell == "--rsh=ssh";
    LexBlank(t, "--rsh=ssh", true);
  }

  /** Four fields joined by blanks. */
  lemma JoinFour(a: string, b: string, c: string, d: string)
    ensures Join([a, b, c, d], " ") == Spaced(a, Spaced(b, Spaced(c, d)))
  {
    JoinTwo(c, d);
    assert [b, c, d][1..] == [c, d];
    assert [a, b, c, d][1..] == [b, c, d];
  }

  /** `-az`, the source words and the words of the destination. */
  lemma RsyncSourcesWords(sources: seq<string>, dest: string)
    requires forall k :: 0 <= k < |sources| ==> PlainWord(sources[k])
    ensures Lex(Spaced("-az", Spaced(Join(sources, " "), dest)), [], false)
            == Prepend(["-az"] + sources, Words(dest))
  {
    ArchiveWordPlain();
    LexWordThen("-az", Spaced(Join(sources, " "), dest));
    LexJoin(sources, dest);
    match Words(dest) {
      case None =>
      case Some(ds) =>
        AppendAssoc(["-az"], sources, ds);
    }
  }

  /** The part of an rsync command line after `--timeout=1800`: the
      quoted `--rsh` option is one word. */
  lemma RsyncTailWords(j: string, dest: string)
    ensures Lex(Join(["--rsh=" + SingleQuoted(RsyncShell), "-az", j, dest], " "), [], false)
            == Cons("--rsh=ssh", Lex(Spaced("-az", Spaced(j, dest)), [], false))
  {
    JoinFour("--rsh=" + SingleQuoted(RsyncShell), "-az", j, dest);
    LexRshOption(Spaced("-az", Spaced(j, dest)));
  }

  /** The option fields of an rsync command line before `--rsh`. */
  function RsyncLeadFields(deleteDest: bool, preserveSymlinks: bool): seq<string> {
    ["rsync", if preserveSymlinks then "" else "-L", if deleteDest then "--delete" else "",
     "--timeout=1800"]
  }

  /** The fields before `--rsh` joined, then the rest of the line. */
  lemma RsyncLeadJoin(l: string, d: string, t: string)
    ensures Join(["rsync", l, d, "--timeout=1800"], " ") + " " + t
            == Spaced("rsync", Spaced(l, Spaced(d, Spaced("--timeout=1800", t))))
  {
    JoinFour("rsync", l, d, "--timeout=1800");
    var x := Spaced(d, "--timeout=1800");
    assert x + " " + t == Spaced(d, Spaced("--timeout=1800", t));
    assert Spaced(l, x) + " " + t == Spaced(l, Spaced(d, Spaced("--timeout=1800", t)));
  }

  /** The words of the fields before `--rsh`: the empty flags vanish. */
  lemma RsyncLeadWords(deleteDest: bool, preserveSymlinks: bool, t: string)
    ensures Lex(Join(RsyncLeadFields(deleteDest, preserveSymlinks), " ") + " " + t, [], false)
            == Prepend(["rsync"] + (if preserveSymlinks then [] else ["-L"])
                       + (if deleteDest then ["--delete"] else []) + ["--timeout=1800"],
                       Lex(t, [], false))
  {
    RsyncWordsPlain();
    TimeoutWordPlain();
    var head := RsyncLeadFields(deleteDest, preserveSymlinks);
    assert head == ["rsync", head[1], head[2], "--timeout=1800"];
    var t3 := Spaced("--timeout=1800", t);
    var t2 := Spaced(head[2], t3);
    var t1 := Spaced(head[1], t2);
    RsyncLeadJoin(head[1], head[2], t);
    LexWordThen("--timeout=1800", t);
    LexField(head[2], t3);
    LexField(head[1], t2);
    LexWordThen("rsync", t1);
    match Lex(t, [], false) {
      case None =>
      case Some(vs) =>
        var l := if preserveSymlinks then [] else ["-L"];
        var d := if deleteDest then ["--delete"] else [];
        var w3 := ["--timeout=1800"] + vs;
        assert Lex(t2, [], false) == Some(d + w3) by {
          if !deleteDest { assert d + w3 == w3; }
        }
        assert Lex(t1, [], false) == Some(l + (d + w3)) by {
          if preserveSymlinks { assert l + (d + w3) == d + w3; }
        }
        assert ["rsync"] + (l + (d + (["--timeout=1800"] + vs)))
               == (["rsync"] + l + d + ["--timeout=1800"]) + vs;
    }
  }

  lemma RsyncWordsAssoc(deleteDest: bool, preserveSymlinks: bool, sources: seq<string>,
                        ds: seq<string>)
    ensures (["rsync"] + (if preserveSymlinks then [] else ["-L"])
             + (if deleteDest then ["--delete"] else []) + ["--timeout=1800"])
            + (["--rsh=ssh"] + ((["-az"] + sources) + ds))
            == ["rsync"] + RsyncOptionWords(deleteDest, preserveSymlinks) + sources + ds
  {
    var l := if preserveSymlinks then [] else ["-L"];
    var d := if deleteDest then ["--delete"] else [];
    calc {
      (["rsync"] + l + d + ["--timeout=1800"]) + (["--rsh=ssh"] + ((["-az"] + sources) + ds));
      ["rsync"] + (l + d + ["--timeout=1800"] + ["--rsh=ssh", "-az"]) + sources + ds;
      { assert ["--timeout=1800"] + ["--rsh=ssh", "-az"] == ["--timeout=1800", "--rsh=ssh", "-az"]; }
      ["rsync"] + RsyncOptionWords(deleteDest, preserveSymlinks) + sources + ds;
    }
  }

  /** rsync receives `-L` exactly when symlinks are not preserved and
      `--delete` exactly when the destination is to be cleaned, before its
      fixed options, then the source words, then the words of the
      destination. */
  lemma RsyncCmdWords(sources: seq<string>, dest: string, deleteDest: bool,
                      preserveSymlinks: bool)
    requires forall k :: 0 <= k < |sources| ==> PlainWord(sources[k])
    ensures Words(RsyncCmd(sources, dest, deleteDest, preserveSymlinks))
            == Prepend(["rsync"] + RsyncOptionWords(deleteDest, preserveSymlinks) + sources,
                       Words(dest))
  {
    var head := RsyncLeadFields(deleteDest, preserveSymlinks);
    var tail := ["--rsh=" + SingleQuoted(RsyncShell), "-az", Join(sources, " "), dest];
    assert head + tail == ["rsync", head[1], head[2], "--timeout=1800",
                           "--rsh=" + SingleQuoted(RsyncShell), "-az", Join(sources, " "), dest];
    JoinAppend(head, tail, " ");
    RsyncLeadWords(deleteDest, preserveSymlinks, Join(tail, " "));
    RsyncTailWords(Join(sources, " "), dest);
    RsyncSourcesWords(sources, dest);
    match Words(dest) {
      case None =>
      case Some(ds) =>
        assert Lex(Join(tail, " "), [], false) == Some(["--rsh=ssh"] + ((["-az"] + sources) + ds));
        RsyncWordsAssoc(deleteDest, preserveSymlinks, sources, ds);
    }
  }

  /** The per-path encoding `sh_encode_remote_paths` applies. */
  function EscapeAll(paths: seq<string>): (r: seq<string>)
    ensures |r| == |paths|
    decreases |paths|
  {
    if paths == [] then [] else [ScpRemoteEscape(paths[0])] + EscapeAll(paths[1..])
  }

  /** `sh_encode_remote_paths`: the paths, escaped unless told otherwise,
      joined by blanks into one double-quoted remote path. */
  function EncodeRemotePaths(hostname: string, paths: seq<string>, escape: bool): (r: string)
    ensures escape ==> r == "root@" + hostname + ":" + DoubleQuoted(ShEscape(RemoteSpec(paths, ScpEscapeChars)))
  {
    var encoded := if escape then EscapeAll(paths) else paths;
    EscapeAllJoin(paths);
    "root@" + hostname + ":" + DoubleQuoted(Join(encoded, " "))
  }

  /** The backslash-escaped paths, as the remote shell receives them. */
  function RemoteSpec(paths: seq<string>, escape: set<char>): string
    decreases |paths|
  {
    Join(BackslashAll(paths, escape), " ")
  }

  function BackslashAll(paths: seq<string>, escape: set<char>): (r: seq<string>)
    ensures |r| == |paths|
    decreases |paths|
  {
    if paths == [] then [] else [BackslashEach(paths[0], escape)] + BackslashAll(paths[1..], escape)
  }

  /** Escaping for the remote shell distributes over the blank between two
      paths. */
  lemma ShEscapeSpaced(b: string, rest: string)
    ensures ShEscape(b + " " + rest) == ShEscape(b) + " " + ShEscape(rest)
  {
    ShEscapeAppend(b + " ", rest);
    ShEscapeAppend(b, " ");
    ShEscapeBlank();
  }

  /** A blank passes `sh_escape` unchanged. */
  lemma ShEscapeBlank()
    ensures ShEscape(" ") == " "
  {
    ReplaceCharSingle(' ', '\\', "\\\\");
    ReplaceCharSingle(' ', '$', "\\$");
    ReplaceCharSingle(' ', '"', "\\\"");
    ReplaceCharSingle(' ', '`', "\\`");
    assert [' '] == " ";
  }

  /** Escaping each path and joining is joining and then escaping. */
  lemma {:induction false} EscapeAllJoin(paths: seq<string>)
    ensures Join(EscapeAll(paths), " ") == ShEscape(RemoteSpec(paths, ScpEscapeChars))
    decreases |paths|
  {
    if |paths| == 0 {
      assert ShEscape("") == "";
    } else if |paths| == 1 {
      assert EscapeAll(paths) == [ScpRemoteEscape(paths[0])];
      assert BackslashAll(paths, ScpEscapeChars) == [BackslashEach(paths[0], ScpEscapeChars)];
    } else {
      EscapeAllJoin(paths[1..]);
      var es := EscapeAll(paths);
      var bs := BackslashAll(paths, ScpEscapeChars);
      assert es[1..] == EscapeAll(paths[1..]);
      assert bs[1..] == BackslashAll(paths[1..], ScpEscapeChars);
      assert Join(es, " ") == es[0] + " " + Join(es[1..], " ");
      assert Join(bs, " ") == bs[0] + " " + Join(bs[1..], " ");
      ShEscapeSpaced(bs[0], Join(bs[1..], " "));
    }
  }

  /** `root@<host>:` holds no character the local shell treats
      specially. */
  lemma RemoteHeadPlain(hostname: string)
    requires PlainWord(hostname)
    ensures forall i :: 0 <= i < |"root@" + hostname + ":"| ==> PlainChar(("root@" + hostname + ":")[i])
  {
    var head := "root@" + hostname + ":";
    assert PlainChar('@') && PlainChar(':');
    forall i | 0 <= i < |head| ensures PlainChar(head[i]) {
      if 5 <= i < 5 + |hostname| {
        assert head[i] == hostname[i - 5];
      }
    }
  }

  /** Locally, the encoded remote path is one word: `root@<host>:` followed
      by the paths in backslash-escaped form, separated by blanks. */
  lemma EncodeRemotePathsWords(hostname: string, paths: seq<string>)
    requires PlainWord(hostname)
    ensures Words(EncodeRemotePaths(hostname, paths, true))
            == Some(["root@" + hostname + ":" + RemoteSpec(paths, ScpEscapeChars)])
  {
    var spec := RemoteSpec(paths, ScpEscapeChars);
    var head := "root@" + hostname + ":";
    EscapeAllJoin(paths);
    assert EncodeRemotePaths(hostname, paths, true) == head + DoubleQuoted(ShEscape(spec));
    RemoteHeadPlain(hostname);
    LexPlain(head, DoubleQuoted(ShEscape(spec)), [], false);
    assert [] + head == head;
    ShEscapeReadsBack(spec, "");
    assert DoubleQuoted(ShEscape(spec))[1..] == ShEscape(spec) + "\"" + "";
  }

  /** An escaped text between double quotes adds the text itself to the
      word being read. */
  lemma LexEscapedQuoted(v: string, t: string, acc: string)
    ensures Lex(DoubleQuoted(ShEscape(v)) + t, acc, true) == Lex(t, acc + v, true)
  {
    ShEscapeReadsBack(v, t);
    assert (DoubleQuoted(ShEscape(v)) + t)[1..] == ShEscape(v) + "\"" + t;
  }

  /** The encoded remote path, followed by a blank, is one word of its own. */
  lemma EncodedThen(hostname: string, paths: seq<string>, t: string)
    requires PlainWord(hostname)
    ensures Lex(Spaced(EncodeRemotePaths(hostname, paths, true), t), [], false)
            == Cons("root@" + hostname + ":" + RemoteSpec(paths, ScpEscapeChars), Lex(t, [], false))
  {
    var spec := RemoteSpec(paths, ScpEscapeChars);
    var head := "root@" + hostname + ":";
    var dq := DoubleQuoted(ShEscape(spec));
    assert Spaced(EncodeRemotePaths(hostname, paths, true), t) == head + (dq + (" " + t));
    RemoteHeadPlain(hostname);
    LexPlain(head, dq + (" " + t), [], false);
    assert [] + head == head;
    LexEscapedQuoted(spec, " " + t, head);
    LexBlank(t, head + spec, true);
  }

  /** scp given one remote source encoded by `sh_encode_remote_paths`, the
      form `sh_make_scp_cmd` expects of a remote source, receives
      `root@<host>:<escaped paths>` as one word, before the destination. */
  lemma ScpCmdEncodedWords(hostname: string, paths: seq<string>, dest: string)
    requires PlainWord(hostname)
    requires forall i :: 0 <= i < |dest| ==> dest[i] != '\''
    ensures Words(ScpCmd([EncodeRemotePaths(hostname, paths, true)], dest))
            == Some(["scp", "-rqp", "-o", "StrictHostKeyChecking=no",
                     "root@" + hostname + ":" + RemoteSpec(paths, ScpEscapeChars), dest])
  {
    ScpWordsPlain();
    StrictWordPlain();
    var head := ["scp", "-rqp", "-o", "StrictHostKeyChecking=no"];
    var enc := EncodeRemotePaths(hostname, paths, true);
    var q := SingleQuoted(dest);
    assert Join([enc], " ") == enc;
    assert head + [enc, q] == ["scp", "-rqp", "-o", "StrictHostKeyChecking=no", Join([enc], " "), q];
    JoinAppend(head, [enc, q], " ");
    JoinTwo(enc, q);
    LexJoin(head, Spaced(enc, q));
    EncodedThen(hostname, paths, q);
    LexSingleQuoted(dest, "", [], false);
    assert q + "" == q;
    assert [] + dest == dest;
    var w := "root@" + hostname + ":" + RemoteSpec(paths, ScpEscapeChars);
    assert head + ([w] + [dest]) == ["scp", "-rqp", "-o", "StrictHostKeyChecking=no", w, dest];
  }

  /** The remote shell reads the escaped paths back as the original paths,
      one word each, provided no path is empty and none holds a character
      the escape set leaves active (see `RemoteSafe`). */
  lemma {:induction false} RemoteSpecWords(paths: seq<string>, escape: set<char>)
    requires ' ' in escape
    requires forall k :: 0 <= k < |paths| ==>
               |paths[k]| > 0 && RemoteSafe(paths[k], escape) && RemoteSafeStart(paths[k], escape)
    ensures Words(RemoteSpec(paths, escape)) == Some(paths)
    decreases |paths|
  {
    if |paths| == 0 {
    } else if |paths| == 1 {
      assert BackslashAll(paths, escape) == [BackslashEach(paths[0], escape)];
      assert RemoteSpec(paths, escape) == BackslashEach(paths[0], escape) + "";
      LexBackslashEach(paths[0], escape, "", [], false);
      assert [] + paths[0] == paths[0];
      assert Lex("", paths[0], true) == Some([paths[0]]);
      assert paths == [paths[0]];
    } else {
      var rest := RemoteSpec(paths[1..], escape);
      assert BackslashAll(paths, escape)[1..] == BackslashAll(paths[1..], escape);
      assert RemoteSpec(paths, escape) == BackslashEach(paths[0], escape) + (" " + rest);
      LexBackslashEach(paths[0], escape, " " + rest, [], false);
      assert [] + paths[0] == paths[0];
      LexBlank(rest, paths[0], true);
      RemoteSpecWords(paths[1..], escape);
      assert paths == [paths[0]] + paths[1..];
    }
  }

  /** As written, `scp_remote_escape` leaves a tab active: the remote shell
      splits the file name `a<tab>b` into the two words `a` and `b`. */
  lemma RemoteSpecTabSplits()
    ensures Words(RemoteSpec(["a\tb"], ScpEscapeChars)) == Some(["a", "b"])
    ensures Words(RemoteSpec(["a\tb"], ScpEscapeChars)) != Some(["a\tb"])
  {
    RemoteSpecUnescaped("a\tb");
    LexTabSplits();
    assert ["a", "b"] != ["a\tb"];
  }

  /** A name of plain letters and a tab is passed on as it is. */
  lemma RemoteSpecUnescaped(name: string)
    requires forall i :: 0 <= i < |name| ==> name[i] !in ScpEscapeChars
    ensures RemoteSpec([name], ScpEscapeChars) == name
  {
    BackslashEachKeeps(name, ScpEscapeChars);
    assert BackslashAll([name], ScpEscapeChars) == [BackslashEach(name, ScpEscapeChars)];
  }

  /** The shell splits `a<tab>b` at the tab. */
  lemma LexTabSplits()
    ensures Words("a\tb") == Some(["a", "b"])
  {
    assert "b"[1..] == [] && [] + ['b'] == "b";
    assert Lex("b", [], false) == Lex([], "b", true) == Some(["b"]);
    assert "\tb"[1..] == "b";
    assert Lex("\tb", "a", true) == Cons("a", Lex("b", [], false));
    assert "a\tb"[1..] == "\tb" && [] + ['a'] == "a";
    assert Lex("a\tb", [], false) == Lex("\tb", "a", true);
    assert ["a"] + ["b"] == ["a", "b"];
  }

  /** As written, a leading `#` or `~` reaches the remote shell unescaped,
      where it would start a comment or a tilde expansion: the name is not
      read back. */
  lemma RemoteSpecWordStartActive()
    ensures Words(RemoteSpec(["#a"], ScpEscapeChars)) != Some(["#a"])
    ensures Words(RemoteSpec(["~a"], ScpEscapeChars)) != Some(["~a"])
  {
    RemoteSpecUnescaped("#a");
    RemoteSpecUnescaped("~a");
  }

  /** With the corrected escape set, the remote shell reads back every list
      of non-empty file names without a newline, one word per name. */
  lemma RemoteSpecFixedWords(paths: seq<string>)
    requires forall k :: 0 <= k < |paths| ==>
               |paths[k]| > 0 && forall i :: 0 <= i < |paths[k]| ==> paths[k][i] != '\n'
    ensures Words(RemoteSpec(paths, ScpEscapeCharsFixed)) == Some(paths)
  {
    forall k | 0 <= k < |paths|
      ensures RemoteSafe(paths[k], ScpEscapeCharsFixed) && RemoteSafeStart(paths[k], ScpEscapeCharsFixed)
    {
      RemoteSafeFixed(paths[k]);
    }
    RemoteSpecWords(paths, ScpEscapeCharsFixed);
  }

  /** `sh_make_rsync_compatible_globs` for a path that is empty or does not
      end in a slash: such a path is used as it is. A path ending in a
      slash is expanded by probing the file system (None here). */
  function RsyncCompatibleGlobs(path: string): (r: Option<seq<string>>)
    ensures r.Some? <==> (|path| == 0 || path[|path| - 1] != '/')
    ensures r.Some? ==> r.value == [path]
  {
    if |path| == 0 || path[|path| - 1] != '/' then Some([path]) else None
  }

  /** A plain path that does not end in a slash reaches scp (as
      `sh_send_file` builds its command from the expanded sources) as one
      source word, unchanged. */
  lemma RsyncCompatibleGlobsWords(path: string, dest: string)
    requires PlainWord(path) && path[|path| - 1] != '/'
    requires forall i :: 0 <= i < |dest| ==> dest[i] != '\''
    ensures RsyncCompatibleGlobs(path).Some?
    ensures Words(ScpCmd(RsyncCompatibleGlobs(path).value, dest))
            == Some(["scp", "-rqp", "-o", "StrictHostKeyChecking=no", path, dest])
  {
    ScpCmdWords([path], dest);
    assert ["scp", "-rqp", "-o", "StrictHostKeyChecking=no"] + [path] + [dest]
           == ["scp", "-rqp", "-o", "StrictHostKeyChecking=no", path, dest];
  }
}

=== FILE: ssh_host.dfy ===
/** The host operations of `ssh_host.py` that decide something from the
    results of remote commands: distro detection, unmounting, directory
    removal and polling. Every operation takes the oracle of command
    results and the log of issued commands, and returns the new log. */
module SshHost {
  import opened Common
  import opened Remote
  import Shell

  /** The distros `sh_distro` recognises (`DISTRO_RHEL6`, `DISTRO_RHEL7`). */
  datatype Distro = Rhel6 | Rhel7

  function DistroName(d: Distro): string {
    match d
    case Rhel6 => "rhel6"
    case Rhel7 => "rhel7"
  }

  /** An `SSHHost`: its name, the identity file ssh uses, and the distro
      once it has been detected. */
  datatype Host = Host(hostname: string, identityFile: Option<string>, distroCache: Option<Distro>)

  /** A host as the constructor leaves it: no distro known yet. */
  function NewHost(hostname: string, identityFile: Option<string>): (h: Host)
    ensures h.hostname == hostname && h.identityFile == identityFile
    ensures h.distroCache == None
  {
    Host(hostname, identityFile, None)
  }

  // ---------------------------------------------------------------------------
  // sh_distro
  // ---------------------------------------------------------------------------

  /** The distro names reported by `lsb_release -s -i` that count as Red Hat. */
  const RhelNames: set<string> := {"RedHatEnterpriseServer", "ScientificSL", "CentOS"}

  /** The commands `sh_distro` issues, in order. */
  const DistroCommands: seq<string> :=
    ["yum install redhat-lsb -y", "which lsb_release", "lsb_release -s -i", "lsb_release -s -r"]

  /** The classification of a distro name and version. */
  function Classify(name: string, version: string): (r: Option<Distro>)
    ensures r == Some(Rhel7) <==> name in RhelNames && StartsWith(version, "7")
    ensures r == Some(Rhel6) <==> name in RhelNames && !StartsWith(version, "7") && StartsWith(version, "6")
    ensures name !in RhelNames ==> r == None
  {
    if name in RhelNames then
      if StartsWith(version, "7") then Some(Rhel7)
      else if StartsWith(version, "6") then Some(Rhel6)
      else None
    else None
  }

  /** The output of a command with newlines stripped from both ends. */
  function Output(r: CommandResult): string {
    Strip(r.stdout, {'\n'})
  }

  /** `sh_distro`: a cached distro is returned without running anything;
      otherwise the four commands run in order until one fails, every
      command before the last one run succeeded, and fewer than four run
      only when the last one failed. A successful classification is
      cached. The result is (distro, host, log). */
  function ShDistro(h: Host, oracle: Oracle, log: seq<Call>): (r: (Option<Distro>, Host, seq<Call>))
    ensures h.distroCache.Some? ==> r == (h.distroCache, h, log)
    ensures h.distroCache.None? ==>
              && r.1 == h.(distroCache := r.0)
              && 1 <= |r.2| - |log| <= |DistroCommands|
              && r.2 == log + CallsOn(h.hostname, DistroCommands[..|r.2| - |log|])
    ensures h.distroCache.None? ==>
              (r.0.Some? <==>
                 && oracle(|log|).exitStatus == 0 && oracle(|log| + 1).exitStatus == 0
                 && oracle(|log| + 2).exitStatus == 0 && oracle(|log| + 3).exitStatus == 0
                 && Classify(Output(oracle(|log| + 2)), Output(oracle(|log| + 3))).Some?)
    ensures h.distroCache.None? && r.0.Some? ==>
              |r.2| == |log| + 4 && r.0 == Classify(Output(oracle(|log| + 2)), Output(oracle(|log| + 3)))
    ensures h.distroCache.None? ==>
              && (forall p :: |log| <= p < |r.2| - 1 ==> oracle(p).exitStatus == 0)
              && (|r.2| - |log| < |DistroCommands| ==> oracle(|r.2| - 1).exitStatus != 0)
  {
    if h.distroCache.Some? then (h.distroCache, h, log)
    else
      var (r1, log1) := Run(oracle, log, h.hostname, DistroCommands[0]);
      if r1.exitStatus != 0 then (None, h, log1)
      else
        var (r2, log2) := Run(oracle, log1, h.hostname, DistroCommands[1]);
        if r2.exitStatus != 0 then (None, h, log2)
        else
          var (r3, log3) := Run(oracle, log2, h.hostname, DistroCommands[2]);
          if r3.exitStatus != 0 then (None, h, log3)
          else
            var name := Output(r3);
            var (r4, log4) := Run(oracle, log3, h.hostname, DistroCommands[3]);
            if r4.exitStatus != 0 then (None, h, log4)
            else
              var version := Output(r4);
              var d := Classify(name, version);
              (d, h.(distroCache := d), log4)
  }

  /** Once `sh_distro` has succeeded, asking again issues no command and
      gives the same distro. */
  lemma ShDistroCached(h: Host, oracle: Oracle, log: seq<Call>, oracle2: Oracle, log2: seq<Call>)
    requires ShDistro(h, oracle, log).0.Some?
    ensures var (d, h1, _) := ShDistro(h, oracle, log);
            ShDistro(h1, oracle2, log2) == (d, h1, log2)
  {
  }

  // ---------------------------------------------------------------------------
  // sh_umount and sh_lustre_umount
  // ---------------------------------------------------------------------------

  function UmountCommand(device: string): string { "umount " + device }

  function ForceUmountCommand(device: string): string { "umount -f " + device }

  /** `sh_umount`: a plain unmount, and a forced one only if that fails;
      -1 only when both fail. */
  function Umount(hostname: string, device: string, oracle: Oracle, log: seq<Call>)
    : (r: (int, seq<Call>))
    ensures r.0 == 0 || r.0 == -1
    ensures oracle(|log|).exitStatus == 0 ==>
              r == (0, log + [Call(hostname, UmountCommand(device))])
    ensures oracle(|log|).exitStatus != 0 ==>
              r.1 == log + [Call(hostname, UmountCommand(device)), Call(hostname, ForceUmountCommand(device))]
    ensures r.0 == -1 <==> oracle(|log|).exitStatus != 0 && oracle(|log| + 1).exitStatus != 0
  {
    var (r1, log1) := Run(oracle, log, hostname, UmountCommand(device));
    if r1.exitStatus == 0 then (0, log1)
    else
      var (r2, log2) := Run(oracle, log1, hostname, ForceUmountCommand(device));
      if r2.exitStatus != 0 then (-1, log2) else (0, log2)
  }

  /** A plain word reads back as one word. */
  lemma PlainWordAlone(w: string)
    requires Shell.PlainWord(w)
    ensures Shell.Words(w) == Some([w])
  {
    Shell.LexPlain(w, "", [], false);
    assert w + "" == w && [] + w == w;
  }

  /** The remote shell runs `umount` on the device, with `-f` in between
      for the forced attempt, when the device name is a plain word. */
  lemma UmountWords(device: string)
    requires Shell.PlainWord(device)
    ensures Shell.Words(UmountCommand(device)) == Some(["umount", device])
    ensures Shell.Words(ForceUmountCommand(device)) == Some(["umount", "-f", device])
  {
    assert Shell.PlainWord("umount") && Shell.PlainWord("-f");
    PlainWordAlone(device);
    assert UmountCommand(device) == Shell.Spaced("umount", device);
    Shell.LexWordThen("umount", device);
    assert ["umount"] + [device] == ["umount", device];
    assert ForceUmountCommand(device) == Shell.Spaced("umount", Shell.Spaced("-f", device));
    Shell.LexWordThen("-f", device);
    Shell.LexWordThen("umount", Shell.Spaced("-f", device));
    assert ["umount"] + (["-f"] + [device]) == ["umount", "-f", device];
  }

  /** Lustre targets are block devices; clients are mount points. */
  predicate IsTarget(device: string) {
    StartsWith(device, "/dev")
  }

  /** The devices of one kind, targets (`/dev/...`) or clients, in order. */
  function OfKind(devices: seq<string>, targets: bool): (r: seq<string>)
    ensures |r| <= |devices|
    ensures forall i :: 0 <= i < |r| ==> IsTarget(r[i]) == targets
    ensures forall d :: d in r ==> d in devices
    decreases |devices|
  {
    if devices == [] then []
    else (if IsTarget(devices[0]) == targets then [devices[0]] else []) + OfKind(devices[1..], targets)
  }

  lemma {:induction false} OfKindAppend(a: seq<string>, b: seq<string>, targets: bool)
    ensures OfKind(a + b, targets) == OfKind(a, targets) + OfKind(b, targets)
    decreases |a|
  {
    if a == [] {
      assert a + b == b;
    } else {
      assert (a + b)[1..] == a[1..] + b;
      OfKindAppend(a[1..], b, targets);
    }
  }

  /** Unmount each device in turn, stopping at the first failure: the
      reference the loops of `sh_lustre_umount` are checked against. */
  function UmountAll(hostname: string, devices: seq<string>, oracle: Oracle, log: seq<Call>)
    : (r: (int, seq<Call>))
    ensures r.0 == 0 || r.0 == -1
    ensures |log| <= |r.1| <= |log| + 2 * |devices|
    ensures r.1[..|log|] == log
    decreases |devices|
  {
    if devices == [] then (0, log)
    else
      var (ret, log1) := Umount(hostname, devices[0], oracle, log);
      if ret != 0 then (ret, log1) else UmountAll(hostname, devices[1..], oracle, log1)
  }

  /** Unmounting `a + b` is unmounting `a` and, if that succeeded, `b`. */
  lemma {:induction false} UmountAllAppend(hostname: string, a: seq<string>, b: seq<string>,
                                           oracle: Oracle, log: seq<Call>)
    ensures UmountAll(hostname, a + b, oracle, log)
            == (var r := UmountAll(hostname, a, oracle, log);
                if r.0 != 0 then r else UmountAll(hostname, b, oracle, r.1))
    decreases |a|
  {
    if a == [] {
      assert a + b == b;
    } else {
      assert (a + b)[1..] == a[1..] + b;
      var (ret, log1) := Umount(hostname, a[0], oracle, log);
      if ret == 0 {
        UmountAllAppend(hostname, a[1..], b, oracle, log1);
      }
    }
  }

  /** A failed `UmountAll` stopped at the first device whose plain and
      forced unmounts both failed: every device before it was unmounted,
      and nothing after it was tried. */
  lemma {:induction false} UmountAllStops(hostname: string, devices: seq<string>, oracle: Oracle,
                                          log: seq<Call>)
    requires UmountAll(hostname, devices, oracle, log).0 != 0
    ensures exists k :: 0 <= k < |devices| &&
              var p := UmountAll(hostname, devices[..k], oracle, log);
              && p.0 == 0
              && Umount(hostname, devices[k], oracle, p.1).0 == -1
              && UmountAll(hostname, devices, oracle, log) == Umount(hostname, devices[k], oracle, p.1)
    decreases |devices|
  {
    var (ret, log1) := Umount(hostname, devices[0], oracle, log);
    assert devices[..0] == [];
    if ret == 0 {
      UmountAllStops(hostname, devices[1..], oracle, log1);
      var k :| 0 <= k < |devices[1..]| &&
               var p := UmountAll(hostname, devices[1..][..k], oracle, log1);
               && p.0 == 0
               && Umount(hostname, devices[1..][k], oracle, p.1).0 == -1
               && UmountAll(hostname, devices[1..], oracle, log1) == Umount(hostname, devices[1..][k], oracle, p.1);
      assert devices[..k + 1][1..] == devices[1..][..k];
      assert UmountAll(hostname, devices[..k + 1], oracle, log) == UmountAll(hostname, devices[1..][..k], oracle, log1);
    }
  }

  /** Unmounting one device with `UmountAll` is `sh_umount`. */
  lemma UmountAllOne(hostname: string, d: string, oracle: Oracle, log: seq<Call>)
    ensures UmountAll(hostname, [d], oracle, log) == Umount(hostname, d, oracle, log)
  {
    assert [d][1..] == [];
  }

  /** Unmounting one more device after `a`. */
  lemma UmountAllSnoc(hostname: string, a: seq<string>, d: string, oracle: Oracle, log: seq<Call>)
    ensures UmountAll(hostname, a + [d], oracle, log)
            == (var r := UmountAll(hostname, a, oracle, log);
                if r.0 != 0 then r else Umount(hostname, d, oracle, r.1))
  {
    UmountAllAppend(hostname, a, [d], oracle, log);
    var r := UmountAll(hostname, a, oracle, log);
    UmountAllOne(hostname, d, oracle, r.1);
  }

  /** One step of the first loop of `sh_lustre_umount` over `copy[i]`: a
      target joins the targets seen so far; a client joins the clients,
      and removing it from the list leaves the targets seen so far
      followed by the rest of the copy. */
  lemma OfKindStep(copy: seq<string>, i: nat)
    requires i < |copy|
    ensures IsTarget(copy[i]) ==>
              && OfKind(copy[..i + 1], false) == OfKind(copy[..i], false)
              && OfKind(copy[..i + 1], true) + copy[i + 1..] == OfKind(copy[..i], true) + copy[i..]
    ensures !IsTarget(copy[i]) ==>
              && OfKind(copy[..i + 1], false) == OfKind(copy[..i], false) + [copy[i]]
              && copy[i] in OfKind(copy[..i], true) + copy[i..]
              && RemoveFirst(OfKind(copy[..i], true) + copy[i..], copy[i])
                 == OfKind(copy[..i + 1], true) + copy[i + 1..]
  {
    var c := copy[i];
    assert copy[..i + 1] == copy[..i] + [c];
    assert copy[i..] == [c] + copy[i + 1..];
    OfKindAppend(copy[..i], [c], false);
    OfKindAppend(copy[..i], [c], true);
    var targets := OfKind(copy[..i], true);
    if IsTarget(c) {
      assert OfKind([c], true) == [c];
      assert OfKind([c], false) == [];
    } else {
      assert OfKind([c], true) == [];
      assert OfKind([c], false) == [c];
      assert c !in targets;
      RemoveFirstAt(targets, copy[i..], c);
      assert (targets + copy[i..])[|targets|] == c;
    }
  }

  /** The first loop of `sh_lustre_umount`: walk a copy of the mount list,
      skip targets, unmount each client and remove it from the list, and
      stop at the first failure. When every client is unmounted, the list
      left is exactly the targets, in order. */
  method UmountClients(hostname: string, devices: seq<string>, oracle: Oracle, log: seq<Call>)
    returns (ret: int, newLog: seq<Call>, remaining: seq<string>)
    ensures (ret, newLog) == UmountAll(hostname, OfKind(devices, false), oracle, log)
    ensures ret == 0 ==> remaining == OfKind(devices, true)
  {
    ret := 0;
    newLog := log;
    remaining := devices;
    var copy := devices;
    var i := 0;
    while i < |copy| && ret == 0
      invariant 0 <= i <= |copy|
      invariant ret == 0 ==> remaining == OfKind(copy[..i], true) + copy[i..]
      invariant (ret, newLog) == UmountAll(hostname, OfKind(copy[..i], false), oracle, log)
    {
      OfKindStep(copy, i);
      if IsTarget(copy[i]) {
        i := i + 1;
        continue;
      }
      UmountAllSnoc(hostname, OfKind(copy[..i], false), copy[i], oracle, log);
      var u := Umount(hostname, copy[i], oracle, newLog);
      ret, newLog := u.0, u.1;
      if ret == 0 {
        remaining := RemoveFirst(remaining, copy[i]);
      }
      i := i + 1;
    }
    if ret != 0 {
      assert copy == copy[..i] + copy[i..];
      OfKindAppend(copy[..i], copy[i..], false);
      UmountAllAppend(hostname, OfKind(copy[..i], false), OfKind(copy[i..], false), oracle, log);
    } else {
      assert copy[..i] == copy;
    }
  }

  /** The second loop of `sh_lustre_umount`: unmount each device in turn
      and stop at the first failure. */
  method UmountEach(hostname: string, devices: seq<string>, oracle: Oracle, log: seq<Call>)
    returns (ret: int, newLog: seq<Call>)
    ensures (ret, newLog) == UmountAll(hostname, devices, oracle, log)
  {
    ret := 0;
    newLog := log;
    var j := 0;
    while j < |devices| && ret == 0
      invariant 0 <= j <= |devices|
      invariant (ret, newLog) == UmountAll(hostname, devices[..j], oracle, log)
    {
      assert devices[..j + 1] == devices[..j] + [devices[j]];
      UmountAllAppend(hostname, devices[..j], [devices[j]], oracle, log);
      UmountAllOne(hostname, devices[j], oracle, newLog);
      var u := Umount(hostname, devices[j], oracle, newLog);
      ret, newLog := u.0, u.1;
      j := j + 1;
    }
    if j < |devices| {
      assert devices == devices[..j] + devices[j..];
      UmountAllAppend(hostname, devices[..j], devices[j..], oracle, log);
    } else {
      assert devices[..j] == devices;
    }
  }

  /** The command listing the mounted Lustre file systems. */
  const ListLustreMounts: string := "mount | grep 'type lustre' | awk '{print $1}'"

  /** `sh_lustre_umount`: list the Lustre mounts, unmount every client,
      then every target, stopping at the first failure; -1 when the mounts
      cannot be listed. */
  method LustreUmount(hostname: string, oracle: Oracle, log: seq<Call>)
    returns (ret: int, newLog: seq<Call>)
    ensures var (listing, log1) := Run(oracle, log, hostname, ListLustreMounts);
            if listing.exitStatus != 0 then ret == -1 && newLog == log1
            else
              var devices := SplitLines(listing.stdout);
              (ret, newLog) == UmountAll(hostname, OfKind(devices, false) + OfKind(devices, true), oracle, log1)
  {
    var (listing, log1) := Run(oracle, log, hostname, ListLustreMounts);
    if listing.exitStatus != 0 {
      return -1, log1;
    }
    var devices := SplitLines(listing.stdout);
    var remaining;
    ret, newLog, remaining := UmountClients(hostname, devices, oracle, log1);
    UmountAllAppend(hostname, OfKind(devices, false), OfKind(devices, true), oracle, log1);
    if ret == 0 {
      ret, newLog := UmountEach(hostname, remaining, oracle, newLog);
    }
  }

  // ---------------------------------------------------------------------------
  // sh_remove_dir
  // ---------------------------------------------------------------------------

  /** The directories `sh_remove_dir` refuses to remove. */
  const DangerousDirs: seq<string> := ["/"]

  function RemoveDirCommand(directory: string): string { "rm -fr " + directory }

  /** `sh_remove_dir`: refuse a dangerous directory without running
      anything, otherwise `rm -fr` it. */
  function RemoveDir(hostname: string, directory: string, oracle: Oracle, log: seq<Call>)
    : (r: (int, seq<Call>))
    ensures directory in DangerousDirs ==> r == (-1, log)
    ensures directory !in DangerousDirs ==>
              r.1 == log + [Call(hostname, RemoveDirCommand(directory))]
              && (r.0 == 0 <==> oracle(|log|).exitStatus == 0)
    ensures r.0 == 0 || r.0 == -1
  {
    if directory in DangerousDirs then (-1, log)
    else
      var (res, log1) := Run(oracle, log, hostname, RemoveDirCommand(directory));
      if res.exitStatus != 0 then (-1, log1) else (0, log1)
  }

  /** The remote shell runs `rm -fr` on exactly the directory when its
      name is a plain word. */
  lemma RemoveDirWords(directory: string)
    requires Shell.PlainWord(directory)
    ensures Shell.Words(RemoveDirCommand(directory)) == Some(["rm", "-fr", directory])
  {
    assert Shell.PlainWord("rm") && Shell.PlainWord("-fr");
    PlainWordAlone(directory);
    assert RemoveDirCommand(directory) == Shell.Spaced("rm", Shell.Spaced("-fr", directory));
    Shell.LexWordThen("-fr", directory);
    Shell.LexWordThen("rm", Shell.Spaced("-fr", directory));
    assert ["rm"] + (["-fr"] + [directory]) == ["rm", "-fr", directory];
  }

  /** The guard compares the text, not the words the shell makes of it:
      `/tmp /` is let through, and its `rm -fr` is given `/` as well. */
  lemma RemoveDirGuardText(hostname: string, oracle: Oracle, log: seq<Call>)
    ensures RemoveDir(hostname, "/tmp /", oracle, log).1 == log + [Call(hostname, RemoveDirCommand("/tmp /"))]
    ensures Shell.Words(RemoveDirCommand("/tmp /")) == Some(["rm", "-fr", "/tmp", "/"])
  {
    assert "/tmp /" != "/";
    assert Shell.PlainWord("rm") && Shell.PlainWord("-fr") && Shell.PlainWord("/tmp") && Shell.PlainWord("/");
    PlainWordAlone("/");
    assert RemoveDirCommand("/tmp /") == Shell.Spaced("rm", Shell.Spaced("-fr", Shell.Spaced("/tmp", "/")));
    Shell.LexWordThen("/tmp", "/");
    Shell.LexWordThen("-fr", Shell.Spaced("/tmp", "/"));
    Shell.LexWordThen("rm", Shell.Spaced("-fr", Shell.Spaced("/tmp", "/")));
    assert ["rm"] + (["-fr"] + (["/tmp"] + ["/"])) == ["rm", "-fr", "/tmp", "/"];
  }

  // ---------------------------------------------------------------------------
  // sh_wait_update
  // ---------------------------------------------------------------------------

  /** What `sh_wait_update` waits for: each expectation that is given must
      match the command's result. */
  datatype Expectation = Expectation(exitStatus: Option<int>, stdout: Option<string>,
                                     stderr: Option<string>)

  predicate Matches(e: Expectation, r: CommandResult) {
    && (e.exitStatus.Some? ==> e.exitStatus.value == r.exitStatus)
    && (e.stdout.Some? ==> e.stdout.value == r.stdout)
    && (e.stderr.Some? ==> e.stderr.value == r.stderr)
  }

  /** `sh_wait_update`: run the command until its result matches; after
      each mismatch wait `sleepInterval` more if less than `timeout` has
      been waited so far, and give up otherwise. `polls` is the number of
      times the command ran. */
  method WaitUpdate(hostname: string, command: string, e: Expectation, timeout: int,
                    sleepInterval: int, oracle: Oracle, log: seq<Call>)
    returns (ret: int, newLog: seq<Call>, polls: nat)
    requires sleepInterval > 0 || timeout <= 0
    ensures polls >= 1
    ensures newLog == log + seq(polls, _ => Call(hostname, command))
    ensures forall p :: |log| <= p < |log| + polls - 1 ==> !Matches(e, oracle(p))
    ensures forall k :: 0 <= k < polls - 1 ==> k * sleepInterval < timeout
    ensures ret == 0 <==> Matches(e, oracle(|log| + polls - 1))
    ensures ret == -1 <==> !Matches(e, oracle(|log| + polls - 1))
    ensures ret == -1 ==> (polls - 1) * sleepInterval >= timeout
  {
    var waited := 0;
    polls := 0;
    newLog := log;
    while true
      invariant waited == polls * sleepInterval
      invariant newLog == log + seq(polls, _ => Call(hostname, command))
      invariant forall p :: |log| <= p < |log| + polls ==> !Matches(e, oracle(p))
      invariant forall k :: 0 <= k < polls ==> k * sleepInterval < timeout
      invariant sleepInterval <= 0 ==> polls == 0
      decreases timeout - waited
    {
      var (res, log1) := Run(oracle, newLog, hostname, command);
      assert log1 == log + seq(polls + 1, _ => Call(hostname, command));
      newLog := log1;
      polls := polls + 1;
      if !Matches(e, res) {
        if waited < timeout {
          waited := waited + sleepInterval;
          continue;
        }
        return -1, newLog, polls;
      }
      return 0, newLog, polls;
    }
  }
}

=== FILE: table_items.dfy ===
/** The array half of the list editors of the web client (`lime.js`):
    moving the selected row of a table up or down, and removing it. The
    rows of a table show the elements of an array, the row of element `i`
    has the DOM id `nameCommon + i`, and the selection arrives as the ids of
    the selected rows. */
module TableItems {
  import opened Common

  /** The DOM id of the row of element `i`: JavaScript's `name_common + i`,
      which writes the index in decimal. */
  function RowId(nameCommon: string, i: nat): string {
    nameCommon + NatToString(i)
  }

  /** The rows of one table have different ids. */
  lemma RowIdInjective(nameCommon: string, i: nat, j: nat)
    ensures RowId(nameCommon, i) == RowId(nameCommon, j) ==> i == j
  {
    if RowId(nameCommon, i) == RowId(nameCommon, j) {
      assert NatToString(i) == RowId(nameCommon, i)[|nameCommon|..];
      assert NatToString(j) == RowId(nameCommon, j)[|nameCommon|..];
      NatToStringInjective(i, j);
    }
  }

  /** The row with a given id is the only one with that id. */
  lemma OnlyRow(nameCommon: string, id: string, i: nat)
    requires RowId(nameCommon, i) == id
    ensures forall k: nat :: RowId(nameCommon, k) == id ==> k == i
  {
    forall k: nat | RowId(nameCommon, k) == id
      ensures k == i
    {
      RowIdInjective(nameCommon, i, k);
    }
  }

  /** The search loop of `table_item_move` from index `from`: the first row
      below `n` whose id is `id`, or `n` when there is none. */
  function RowIndexFrom(nameCommon: string, id: string, from: nat, n: nat): (i: nat)
    requires from <= n
    ensures from <= i <= n
    ensures i < n ==> RowId(nameCommon, i) == id
    ensures forall k :: from <= k < i ==> RowId(nameCommon, k) != id
    decreases n - from
  {
    if from == n then n
    else if RowId(nameCommon, from) == id then from
    else RowIndexFrom(nameCommon, id, from + 1, n)
  }

  /** `b` is `a` with the elements at `i` and `j` exchanged. */
  ghost predicate Swapped<T>(a: seq<T>, b: seq<T>, i: nat, j: nat) {
    && |b| == |a| && i < |a| && j < |a|
    && b[i] == a[j] && b[j] == a[i]
    && forall k :: 0 <= k < |a| && k != i && k != j ==> b[k] == a[k]
  }

  /** The elements at `i` and `j` exchanged. */
  function Swap<T>(items: seq<T>, i: nat, j: nat): (r: seq<T>)
    requires i < |items| && j < |items|
    ensures Swapped(items, r, i, j)
    ensures multiset(r) == multiset(items)
  {
    items[i := items[j]][j := items[i]]
  }

  /** The move of the element at `i`, once its row is found: the
      neighbour's index and the array with the two exchanged, or -1 and no
      change when there is no neighbour on that side. */
  function MoveAt<T>(items: seq<T>, i: nat, up: bool): (r: (int, seq<T>))
    requires i < |items|
    ensures var j := if up then i - 1 else i + 1;
            if 0 <= j < |items| then r.0 == j && Swapped(items, r.1, i, j) else r == (-1, items)
    ensures multiset(r.1) == multiset(items)
  {
    if up then
      if i == 0 then (-1, items) else (i - 1, Swap(items, i, i - 1))
    else
      if i == |items| - 1 then (-1, items) else (i + 1, Swap(items, i, i + 1))
  }

  /** `table_item_move`: with exactly one row selected, and that row found,
      the element moves one place up or down, exchanging places with its
      neighbour, and the result is the neighbour's index; -1 and no change
      in every other case (no or several rows selected, an id that names no
      row, the first row moving up, the last row moving down). The result
      is (index, array). */
  function Move<T>(selected: seq<string>, items: seq<T>, nameCommon: string, up: bool): (r: (int, seq<T>))
    ensures |selected| != 1 ==> r == (-1, items)
    ensures |selected| == 1 && (forall k :: 0 <= k < |items| ==> RowId(nameCommon, k) != selected[0]) ==>
              r == (-1, items)
    ensures |selected| == 1 ==>
              forall i :: 0 <= i < |items| && RowId(nameCommon, i) == selected[0] ==> r == MoveAt(items, i, up)
    ensures multiset(r.1) == multiset(items)
  {
    if |selected| != 1 then (-1, items)
    else
      var i := RowIndexFrom(nameCommon, selected[0], 0, |items|);
      if i == |items| then (-1, items)
      else
        OnlyRow(nameCommon, selected[0], i);
        MoveAt(items, i, up)
  }

  /** Moving a row up and then moving the row it landed on down restores
      the array and points back at the row's first place. */
  lemma MoveUpThenDown<T>(items: seq<T>, nameCommon: string, i: nat)
    requires 0 < i < |items|
    ensures var up := Move([RowId(nameCommon, i)], items, nameCommon, true);
            up.0 == i - 1 && Move([RowId(nameCommon, up.0)], up.1, nameCommon, false) == (i, items)
  {
    var up := Move([RowId(nameCommon, i)], items, nameCommon, true);
    assert up == MoveAt(items, i, true);
    var down := Move([RowId(nameCommon, i - 1)], up.1, nameCommon, false);
    assert down == MoveAt(up.1, i - 1, false);
    assert down.1 == items;
  }

  /** The elements among the first `n` whose rows are not selected, in
      order: the copy loop of `table_item_remove`. */
  function Kept<T>(items: seq<T>, nameCommon: string, removing: seq<string>, n: nat): seq<T>
    requires n <= |items|
  {
    if n == 0 then []
    else Kept(items, nameCommon, removing, n - 1)
         + (if RowId(nameCommon, n - 1) in removing then [] else [items[n - 1]])
  }

  /** With no selected row among the first `n`, the copy keeps all of
      them. */
  lemma {:induction false} KeptNone<T>(items: seq<T>, nameCommon: string, removing: seq<string>, n: nat)
    requires n <= |items|
    requires forall k :: 0 <= k < n ==> RowId(nameCommon, k) !in removing
    ensures Kept(items, nameCommon, removing, n) == items[..n]
  {
    if n > 0 {
      KeptNone(items, nameCommon, removing, n - 1);
      assert items[..n] == items[..n - 1] + [items[n - 1]];
    }
  }

  /** With one selected row `i` among the first `n`, the copy keeps all of
      them but element `i`. */
  lemma {:induction false} KeptOne<T>(items: seq<T>, nameCommon: string, id: string, i: nat, n: nat)
    requires i < n <= |items|
    requires RowId(nameCommon, i) == id
    ensures Kept(items, nameCommon, [id], n) == items[..i] + items[i + 1..n]
  {
    if n == i + 1 {
      forall k | 0 <= k < i ensures RowId(nameCommon, k) !in [id] {
        RowIdInjective(nameCommon, i, k);
      }
      KeptNone(items, nameCommon, [id], i);
      assert Kept(items, nameCommon, [id], n) == Kept(items, nameCommon, [id], i);
      assert items[i + 1..n] == [];
    } else {
      KeptOne(items, nameCommon, id, i, n - 1);
      RowIdInjective(nameCommon, i, n - 1);
      assert Kept(items, nameCommon, [id], n) == Kept(items, nameCommon, [id], n - 1) + [items[n - 1]];
      var a, b := items[..i], items[i + 1..n - 1];
      assert items[i + 1..n] == b + [items[n - 1]];
      assert a + b + [items[n - 1]] == a + (b + [items[n - 1]]);
    }
  }

  /** `table_item_remove` (its array part): with exactly one row selected,
      the element of that row is removed and the rest keep their order; an
      id that names no row removes nothing; with no or several rows
      selected the array comes back unchanged. */
  function Remove<T>(selected: seq<string>, items: seq<T>, nameCommon: string): (r: seq<T>)
    ensures |selected| != 1 ==> r == items
    ensures |selected| == 1 && (forall k :: 0 <= k < |items| ==> RowId(nameCommon, k) != selected[0]) ==>
              r == items
    ensures |selected| == 1 ==>
              forall i :: 0 <= i < |items| && RowId(nameCommon, i) == selected[0] ==>
                r == items[..i] + items[i + 1..]
  {
    if |selected| != 1 then items
    else
      var id := selected[0];
      var i := RowIndexFrom(nameCommon, id, 0, |items|);
      if i == |items| then
        KeptNone(items, nameCommon, selected, |items|);
        assert items[..|items|] == items;
        Kept(items, nameCommon, selected, |items|)
      else
        assert selected == [id];
        OnlyRow(nameCommon, id, i);
        KeptOne(items, nameCommon, id, i, |items|);
        Kept(items, nameCommon, selected, |items|)
  }

  /** Removing a row leaves one element fewer, and the removed element is
      the one its row showed. */
  lemma RemoveCount<T>(items: seq<T>, nameCommon: string, i: nat)
    requires i < |items|
    ensures var r := Remove([RowId(nameCommon, i)], items, nameCommon);
            |r| == |items| - 1 && multiset(r) + multiset{items[i]} == multiset(items)
  {
    var r := Remove([RowId(nameCommon, i)], items, nameCommon);
    assert r == items[..i] + items[i + 1..];
    WithoutAt(items, i);
  }

  /** Leaving out the element at `i` leaves the others. */
  lemma WithoutAt<T>(items: seq<T>, i: nat)
    requires i < |items|
    ensures multiset(items[..i] + items[i + 1..]) + multiset{items[i]} == multiset(items)
  {
    assert items == items[..i] + [items[i]] + items[i + 1..];
  }
}
